=== FILE: README.md ===
# simple-router matcher, modelled in Dafny

This project models the route matcher of the `simple-router` package and
proves properties of the model. It covers four parts:

- **Registry.** `CreateRouterMatcher` keeps a flat list of matchers and a
  name→matcher `Map`. It builds a matcher tree from nested route definitions,
  evicts an earlier route of the same name, and puts a `*` route first. It
  removes subtrees, resets, and resolves navigation targets three ways: by
  name, by pathname, or by reusing the current route.
- **Path and record helpers** (`matcher/shared.ts`). `generatePath` with token
  substitution, slash collapsing and trailing-slash removal;
  `normalizeRouteRecord` with its one-level redirect inheritance;
  `cleanParams`; `mergeMetaFields`.
- **Query parser** (`query.ts`). `decode`, modelled on top of a full model of
  `decodeURIComponent`, and `parseQuery`.
- **Location helpers** (`utils/dataProcess.ts`). The null-only `cleanParams`
  and `transformLocationToRoute`.

Matcher objects live in an arena of nodes keyed by natural-number ids. A node
holds its normalised record, an optional parent id and its children's ids. A
fresh id is always larger than every existing one. Because of that, a parent
id is smaller than its children's ids, which makes the ancestor walk and the
recursive removal terminate. The arena never shrinks: a removed matcher
object, like its JavaScript counterpart, still exists and can still be passed
to `removeRoute`. A JavaScript exception is modelled as a `Result` failure.
Calls that mutate and then throw return the state they leave behind together
with the error, because the mutations made before a `throw` persist.

Modules, in dependency order:

- `Wrappers`: `Option` and `Result`.
- `Seqs` and `Text`: sequence and string helpers, including `split`, `join`,
  and `String.prototype.replace` with a string pattern.
- `JsMaps`: an insertion-ordered `Map`.
- `Values`: JavaScript values and number-to-string conversion.
- `Shared`, `Query` and `DataProcess`: one module per source file.
- `MatcherTree`: the arena, subtrees, the index and `removeRoute`.
- `Matcher`: `addRoute` and `insertMatcher`.
- `Registry`: the public surface of `CreateRouterMatcher`.
- `Resolve`: `resolve`.

Notable behaviours of the code, which the model reproduces:

- **Nested eviction.** `originalRecord` is never passed, so `isRootAdd`
  holds on every nested call as well as on the top-level `addRoute`. Every
  named child therefore evicts the earlier holder of its name too.
- **Basename removal.** The basename is removed with `String.prototype.replace`.
  That removes its first occurrence anywhere in the pathname, not only a
  leading prefix.
- **Several wildcards.** Every `*` matcher is put at the front of the list,
  so with several of them the most recent one heads the list.
- **No `matched` chain.** `resolve` computes the ancestor chain but does not
  return it.
- **Unnamed current route.** The reuse-current branch compares each matcher's
  record object with the current path string. That comparison never holds, so
  an unnamed current route always throws.

## Model

| member | source | states |
|---|---|---|
| `Shared.Normalize` | packages/simple-router/src/matcher/shared.ts:59-73 | normalisation fails, with a `TypeError`, exactly when the record, or one of its direct children, has no truthy redirect and an empty children list (indexing `[0]` of `[]`); otherwise `children` defaults to `[]`, `meta` to `{}`, `path` to `''`, `name` is copied, `redirect` is the explicit one or the first child's path, and each direct child inherits its redirect the same way |
| `Shared.NormalizeChildren` | packages/simple-router/src/matcher/shared.ts:61-67 | the children map succeeds exactly when every child's redirect fallback can be evaluated, keeps the length, and changes only each child's redirect |
| `Shared.ShallowInheritance` | packages/simple-router/src/matcher/shared.ts:62-66 | inheritance is one level deep: a normalised child keeps its own children (the grandchildren) untouched |
| `Shared.InheritedRedirectIsStable` | packages/simple-router/src/matcher/shared.ts:62-71 | when a child with children is later normalised as a record itself, it gets the same redirect it inherited from its parent's normalisation |
| `Shared.LetterRun` | packages/simple-router/src/matcher/shared.ts:32 | a parameter name is the maximal run of ASCII letters after `:` |
| `Shared.SubstituteLiteral` | packages/simple-router/src/matcher/shared.ts:32 | a template without `:` is left unchanged by the substitution |
| `Shared.SubstituteLiteralPrefix` | packages/simple-router/src/matcher/shared.ts:32-39 | text in front of the first `:` is copied unchanged, followed by the substitution of the rest; with `Shared.SubstituteToken` this fixes the substituted text of every template whose every `:` starts a token |
| `Shared.SubstituteToken` | packages/simple-router/src/matcher/shared.ts:32-39 | a `:name` token is replaced by the parameter's text, or by the empty string when the parameter is missing; scanning resumes after the token |
| `Shared.SubstitutedTextNotRescanned` | packages/simple-router/src/matcher/shared.ts:32 | substituted text is not rescanned: `:a` with `a` = `':b'` gives `':b'` |
| `Shared.CollapseSlashes` | packages/simple-router/src/matcher/shared.ts:42 | no `//` remains, the non-slash characters are kept in order, the first and last characters stay, and the text does not grow |
| `Shared.CollapseClean` | packages/simple-router/src/matcher/shared.ts:42 | collapsing leaves text with no `//` unchanged |
| `Shared.CollapseIdempotent` | packages/simple-router/src/matcher/shared.ts:42 | collapsing twice is the same as collapsing once |
| `Shared.CollapseAround` | packages/simple-router/src/matcher/shared.ts:42 | a doubled slash anywhere collapses the same way as a single one; with `Shared.CollapseClean` this fixes the result on every input |
| `Shared.CollapseRun` | packages/simple-router/src/matcher/shared.ts:42 | a run of one or more slashes anywhere collapses the same way as a single slash |
| `Shared.StripTrailingSlash` | packages/simple-router/src/matcher/shared.ts:45-47 | exactly one trailing `/` is removed and text not ending in `/` is unchanged; on text with no `//`, the result has no `//` and does not end in `/` |
| `Shared.GeneratePath` | packages/simple-router/src/matcher/shared.ts:30-49 | the generated path is the collapsed substituted template, less one trailing `/` if it has one; it has no `//`, does not end in `/`, and has the same non-slash characters as the substituted template |
| `Shared.GeneratePathExample` | packages/simple-router/src/matcher/shared.ts:23 | `generatePath('/user/:id/profile', {id: 123})` is `'/user/123/profile'` |
| `Shared.GeneratePathMissingParam` | packages/simple-router/src/matcher/shared.ts:32-42 | a missing parameter becomes the empty string without failing: `'/user/:id/profile'` with `{}` gives `'/user/profile'` |
| `Shared.GeneratePathRoot` | packages/simple-router/src/matcher/shared.ts:42-47 | the template `'/'` generates `''` |
| `Values.NatToString` | packages/simple-router/src/matcher/shared.ts:34 | a number's decimal text is non-empty, all digits, and has no leading zero unless the number is 0 |
| `Values.NatToStringRoundTrip` | packages/simple-router/src/matcher/shared.ts:34 | reading the decimal text back gives the number |
| `Values.ParamString` | packages/simple-router/src/matcher/shared.ts:34 | `params[p1].toString()`: a string is itself, a boolean is `true` or `false`, and a plain object is `[object Object]` |
| `Values.ParamStringNumber` | packages/simple-router/src/matcher/shared.ts:34 | a number's `toString` is its decimal digits, after a `-` when it is negative, and the digits read back as the number |
| `Values.ElementString` | packages/simple-router/src/matcher/shared.ts:115 | `join` renders `null` and `undefined` as the empty string, an array by joining it in turn, and every other element as its `toString` does |
| `Values.JoinValuesIsJoin` | packages/simple-router/src/matcher/shared.ts:115 | `value.join(',')` is the rendered elements with one `,` between neighbours |
| `Values.JoinValuesSplit` | packages/simple-router/src/matcher/shared.ts:115 | a non-empty array of comma-free strings comes back from its joined form by splitting at `,` |
| `Shared.CleanParams` | packages/simple-router/src/matcher/shared.ts:110-121 | keeps exactly the keys whose value is neither `null` nor `undefined`; arrays become their comma-joined string, and every other value (string, number, boolean, plain object) is kept as it is |
| `Shared.CleanParamsIdempotent` | packages/simple-router/src/matcher/shared.ts:110-121 | cleaning already-cleaned parameters gives them back unchanged |
| `Shared.MergeMetaFields` | packages/simple-router/src/matcher/shared.ts:100-102 | each key's value comes from the last record in `matched` whose meta defines it, and a key is present exactly when some record defines it |
| `Text.Split` | packages/simple-router/src/query.ts:40 | `split('&')` gives one more piece than there are separators, and no piece contains the separator |
| `Text.JoinSplit` | packages/simple-router/src/query.ts:40 | joining the pieces of a split with the separator gives back the original string |
| `Text.SplitJoin` | packages/simple-router/src/query.ts:40 | splitting a join of separator-free pieces gives back the pieces |
| `Text.ReplaceFirst` | packages/simple-router/src/matcher/index.ts:156 | `replace` with a string pattern: text without an occurrence is unchanged; otherwise only the first occurrence is replaced |
| `Seqs.RemoveFirst` | packages/simple-router/src/matcher/index.ts:257-260 | `indexOf` plus `splice(i, 1)`: a missing element leaves the list unchanged; otherwise exactly one copy leaves, the list shrinks by one, the elements before it keep their places, and the elements after it shift down by one, in order |
| `Seqs.RemoveFirstIsFilter` | packages/simple-router/src/matcher/index.ts:257-260 | on a list without duplicates, removing the first occurrence is the same as filtering the element out |
| `Seqs.FilterOutConcat` | packages/simple-router/src/utils/dataProcess.ts:25 | filtering a concatenation is concatenating the filtered parts |
| `Seqs.FilterOutOne` | packages/simple-router/src/utils/dataProcess.ts:25 | a single element is kept exactly when it is not dropped; with `Seqs.FilterOutConcat` this fixes the filtered sequence, order included |
| `JsMaps.JsMap.Get` | packages/simple-router/src/matcher/index.ts:211 | `map.get(k)` finds a value exactly when the key is present, and then it is the stored value |
| `JsMaps.JsMap.Set` | packages/simple-router/src/matcher/index.ts:118 | `map.set(k, v)`: `k` now reads `v` and every other key reads as before; an existing key keeps its place in the key order, and a new key goes to the end |
| `JsMaps.JsMap.Delete` | packages/simple-router/src/matcher/index.ts:239-241 | `map.delete(k)`: `k` reads as missing, every other key reads as before, and the other keys keep their relative order |
| `JsMaps.JsMap.DeleteAll` | packages/simple-router/src/matcher/index.ts:262-264 | deleting a set of keys leaves exactly the other keys with their values, in their relative order |
| `JsMaps.Empty` | packages/simple-router/src/matcher/index.ts:274 | `new Map()` and `map.clear()` give a map with no keys |
| `JsMaps.DeleteThenDeleteAll` | packages/simple-router/src/matcher/index.ts:249-265 | deleting one name and then a set of names leaves the same map as deleting their union at once |
| `JsMaps.DeleteAllThenDelete` | packages/simple-router/src/matcher/index.ts:249-265 | deleting a set of names and then one more name leaves the same map as deleting their union at once |
| `Text.ReplaceChar` | packages/simple-router/src/query.ts:44 | `replace(/\+/g, ' ')` replaces every `+` with a space and changes nothing else |
| `Query.DecodeComponent` | packages/simple-router/src/query.ts:26 | `decodeURIComponent`: fails on a bad escape, a bad lead or continuation byte, an overlong form, a surrogate or a value above U+10FFFF; characterised by `Query.DecodeNeverLengthens`, `Query.DecodePlain` and `Query.DecodeEncode` |
| `Query.DecodeNeverLengthens` | packages/simple-router/src/query.ts:26 | `decodeURIComponent` never lengthens the text, and shortens it whenever the text holds a `%` |
| `Query.Decode` | packages/simple-router/src/query.ts:24-31 | `decode` never fails: where `decodeURIComponent` would throw, the text comes back unchanged |
| `Query.DecodePlain` | packages/simple-router/src/query.ts:24-31 | text without `%` decodes to itself |
| `Query.DecodeEscapedPlus` | packages/simple-router/src/query.ts:24-31 | `%2B` decodes to `+` |
| `Query.DecodeMalformedFallsBack` | packages/simple-router/src/query.ts:24-31 | a truncated UTF-8 sequence (`%E4%B8`) and a lone `%` both come back as the raw text |
| `Query.DecodeEncode` | packages/simple-router/src/query.ts:24-31 | decoding the `encodeURIComponent` form of any text gives that text back |
| `Query.ParseQueryEmpty` | packages/simple-router/src/query.ts:37 | `parseQuery('')` and `parseQuery('?')` are both the empty query |
| `Query.ParseQueryLeadingMark` | packages/simple-router/src/query.ts:39-40 | one leading `?` is skipped: `parseQuery('?' + s)` equals `parseQuery(s)` when `s` does not start with `?` |
| `Query.ParseQuery` | packages/simple-router/src/query.ts:33-68 | `''` and `'?'` give `{}`; otherwise the keys are exactly the keys of the segments, each holding its values in segment order, as a scalar for one value and as an array of two or more for a repeated key |
| `Query.ParseSegment` | packages/simple-router/src/query.ts:44-52 | the value is `null` exactly when the segment holds no `=`; replacing `+` first neither creates nor removes one |
| `Query.Pairs` | packages/simple-router/src/query.ts:40-52 | there is one key/value pair per `&`-separated segment of the text after the optional `?` |
| `Query.PlusIsSpace` | packages/simple-router/src/query.ts:44 | worked example: `a+b` parses as the key `a b` with value `null` |
| `Query.ReplacePlusAroundEquals` | packages/simple-router/src/query.ts:44 | replacing `+` before the split treats the key and the value alike: the replaced segment is the replaced key, `=`, and the replaced value |
| `Query.ParseSegmentSplit` | packages/simple-router/src/query.ts:44-52 | for every key without `=` and every value: a segment without `=` gives its text, with each `+` read as a space and then decoded, as the key with value `null`; `k=v` splits at the first `=`, and each side has its `+` read as a space and is decoded on its own |
| `Query.ParseSegmentExample` | packages/simple-router/src/query.ts:47-52 | later `=` characters belong to the value: `a=b=c` gives key `a` and value `b=c` |
| `Query.AddValue` | packages/simple-router/src/query.ts:54-65 | recording a value appends it to that key's values and leaves every other key's values alone; arrays only ever hold two or more values |
| `Query.Accumulate` | packages/simple-router/src/query.ts:42-66 | the keys are those of the segments, and each key holds its values in segment order |
| `Query.TotalValuesAccumulate` | packages/simple-router/src/query.ts:54-65 | the accumulated query holds as many values as there were pairs |
| `Query.ParseQueryCount` | packages/simple-router/src/query.ts:40-66 | the total number of values, counting a scalar as 1 and an array as its length, is the number of `&`-separated segments |
| `Query.ParseQueryRoundTrip` | packages/simple-router/src/query.ts:33-68 | parsing the `&`-joined encoded pairs gives the accumulation of those pairs |
| `Query.ParseQueryExample` | packages/simple-router/src/query.ts:33-68 | `parseQuery('a=1&b=2&b=3&c')` is `{a: '1', b: ['2', '3'], c: null}` |
| `DataProcess.CleanParams` | packages/simple-router/src/utils/dataProcess.ts:7-10 | a missing parameter object gives `{}`; otherwise exactly the `null` entries are removed, and `undefined` and every other value are kept unchanged |
| `DataProcess.CleanParamsIdempotent` | packages/simple-router/src/utils/dataProcess.ts:9 | cleaning twice is cleaning once |
| `DataProcess.CleanParamsVersions` | packages/simple-router/src/utils/dataProcess.ts:7-10 | the two `cleanParams` keep the same keys, except those holding `undefined`, which only this one keeps; on shared keys they differ only in joining arrays |
| `DataProcess.TransformLocationToRoute` | packages/simple-router/src/utils/dataProcess.ts:12-31 | `fullPath` is pathname + search + hash and `path` is the pathname; `query` is `parseQuery(search)`; `name` and `meta` come from the last match, or are absent without one; the params are that match's keys with `*` filtered out, in order, and without duplicates when the keys have none; `matched` is empty and there is no `redirectedFrom` |
| `DataProcess.TransformParamsInOrder` | packages/simple-router/src/utils/dataProcess.ts:25 | the parameter keys keep their order and only `*` is dropped: keys without `*` come through unchanged, and keys `pre + ["*"] + post` give `pre + post` |
| `DataProcess.TransformQuerySkipsMark` | packages/simple-router/src/utils/dataProcess.ts:27 | a search string with one leading `?` gives the query of the text after it |
| `MatcherTree.Subtree` | packages/simple-router/src/matcher/index.ts:255 | the matchers reached by recursing into children are the matcher itself and nodes that are younger than it |
| `MatcherTree.RemoveOne` | packages/simple-router/src/matcher/index.ts:257-264 | detaching one matcher filters it out of the list, keeping the others' order, and deletes its name from the map when it is named |
| `MatcherTree.RemoveChildren` | packages/simple-router/src/matcher/index.ts:255 | removing the children from the `i`-th one on removes exactly their subtrees from the list and those subtrees' names from the map |
| `MatcherTree.RemoveSubtree` | packages/simple-router/src/matcher/index.ts:249-265 | post-order removal of a matcher removes exactly its subtree from the list, keeping the others' order, and exactly the subtree's names from the map |
| `MatcherTree.RemoveSubtreeValid` | packages/simple-router/src/matcher/index.ts:249-265 | after removing a subtree, every map entry is still a listed matcher carrying that name, and the list holds named matchers only, none twice |
| `MatcherTree.RemoveRoute` | packages/simple-router/src/matcher/index.ts:249-265 | an unknown name is a no-op; otherwise the matcher and its descendants are absent from the list, their names are absent from the map, every other name maps as before, and the index stays consistent |
| `MatcherTree.EmptyIndex` | packages/simple-router/src/matcher/index.ts:272-274 | an emptied list and map form a consistent index |
| `MatcherTree.AncestorChain` | packages/simple-router/src/matcher/index.ts:186-192 | the parent walk terminates and yields a root→leaf chain: it starts at a matcher without a parent, ends at the given matcher, and each element is its successor's parent |
| `MatcherTree.AncestorChainAscending` | packages/simple-router/src/matcher/index.ts:186-192 | the chain visits no matcher twice: each ancestor is older than its descendants |
| `Matcher.NestPath` | packages/simple-router/src/matcher/index.ts:74-78 | a nested path starts with the parent path and ends with the child path, with exactly one `/` added between them unless the parent path already ends in `/` |
| `Matcher.NestPathClean` | packages/simple-router/src/matcher/index.ts:74-78 | nesting two paths with no `//` gives a path with no `//` |
| `Matcher.MatcherPath` | packages/simple-router/src/matcher/index.ts:74-78 | an absolute or empty child path, and any path without a parent, is left unchanged; a relative path under a parent is nested |
| `Matcher.CreateMatcher` | packages/simple-router/src/matcher/index.ts:82 | under the stated assumption about `createRouteRecordMatcher`, the new node has the next id and no children and is appended to its parent's children; no other node changes |
| `Matcher.CreateMatcherExtends` | packages/simple-router/src/matcher/index.ts:82 | creating a matcher keeps the tree well formed, and existing matchers keep their record and parent and only gain children |
| `Matcher.InsertMatcher` | packages/simple-router/src/matcher/index.ts:110-119 | a matcher whose path is exactly `*` goes to index 0 and any other to the end; a named matcher becomes its name's map entry, and no other entry changes |
| `Matcher.InsertMatcherValid` | packages/simple-router/src/matcher/index.ts:110-119 | inserting a named, not yet listed matcher keeps the list duplicate-free and every map entry a listed matcher carrying that name |
| `Matcher.ChildOriginal` | packages/simple-router/src/matcher/index.ts:93 | without `originalRecord` no child gets one, so every nested call is a root add and evicts; with one, a child's original is a younger matcher of the tree |
| `Matcher.Evict` | packages/simple-router/src/matcher/index.ts:85-87 | the eviction step keeps the index consistent and only removes matchers from the list |
| `Matcher.AddChildren` | packages/simple-router/src/matcher/index.ts:89-96 | adding the children one after the other keeps the tree well formed and the index consistent, and lists only matchers listed before or created by the loop |
| `Matcher.Inserted` | packages/simple-router/src/matcher/index.ts:98-100 | after the children, the new matcher is inserted exactly when it is named and no child threw, and a child's error is passed on |
| `Matcher.AddRouteAt` | packages/simple-router/src/matcher/index.ts:56-102 | every `addRoute` call, nested ones included, keeps the tree well formed and the index consistent, and newly lists only matchers it created |
| `Matcher.AddRouteAtSucceeds` | packages/simple-router/src/matcher/index.ts:56-102 | `addRoute` throws exactly when some definition in the tree cannot be normalised, and it throws a `TypeError` |
| `Matcher.AddRouteAtFrame` | packages/simple-router/src/matcher/index.ts:82-96 | only the parent's children list changes, by gaining the new matcher at its end |
| `Matcher.AddChildrenFrame` | packages/simple-router/src/matcher/index.ts:89-96 | the children loop changes no children list other than the new matcher's, which gains one matcher per child when nothing throws |
| `Matcher.AddRouteAtChildCount` | packages/simple-router/src/matcher/index.ts:89-96 | without a throw, the new matcher has one child matcher per child definition |
| `Matcher.AddRouteAtNode` | packages/simple-router/src/matcher/index.ts:59-82 | the created matcher carries the normalised record with its nested path, and the given parent |
| `Matcher.AddRouteAtCreates` | packages/simple-router/src/matcher/index.ts:98-100 | the new matcher is listed exactly when it is named and nothing threw, and then it is its name's map entry |
| `Matcher.AddRouteAtWildcardFirst` | packages/simple-router/src/matcher/index.ts:111-112 | a named matcher whose path is exactly `*` heads the list afterwards |
| `Matcher.AddRouteAtEvicts` | packages/simple-router/src/matcher/index.ts:85-87 | a named record added without `originalRecord` removes the previous holder of its name and all its descendants from the list, at any nesting depth and even when a child throws later |
| `Registry.GetRecordMatcher` | packages/simple-router/src/matcher/index.ts:210-212 | a name gives a matcher exactly when the map holds it, and that matcher is listed and carries the name |
| `Registry.GetRoutes` | packages/simple-router/src/matcher/index.ts:220-222 | the listed matchers are all named, and none is listed twice |
| `Registry.GetAllRouteNames` | packages/simple-router/src/matcher/index.ts:230-232 | the names are duplicate-free and are exactly the names `getRecordMatcher` resolves |
| `Registry.RouteNamesAreListed` | packages/simple-router/src/matcher/index.ts:230-232 | every name belongs to a listed matcher carrying it |
| `Registry.AddRoute` | packages/simple-router/src/matcher/index.ts:56-102 | the public `addRoute` throws, with a `TypeError`, exactly when some definition in the tree cannot be normalised; state it leaves behind stays consistent |
| `Registry.AddRouteRegisters` | packages/simple-router/src/matcher/index.ts:98-100 | without a throw, a named record's new matcher is what its name resolves to and is listed, and an unnamed one is not listed |
| `Registry.AddRouteEvicts` | packages/simple-router/src/matcher/index.ts:85-87 | re-adding a name makes the previous holder's whole subtree unlisted |
| `Registry.AddAll` | packages/simple-router/src/matcher/index.ts:44-46 | adding routes in turn keeps the state consistent and stops at the first throw |
| `Registry.AddAllThrows` | packages/simple-router/src/matcher/index.ts:44-46 | the route list is added without a throw exactly when every route normalises throughout, and otherwise with a `TypeError` |
| `Registry.InitializeRoutes` | packages/simple-router/src/matcher/index.ts:44-46 | replaying the initial routes throws exactly when one of them cannot be normalised |
| `Registry.New` | packages/simple-router/src/matcher/index.ts:36-41 | a new instance keeps the routes and basename it was given, is consistent, and throws exactly when an initial route cannot be normalised |
| `Registry.ResetMatchers` | packages/simple-router/src/matcher/index.ts:272-276 | after a reset, no matcher listed before is listed, every listed matcher is newly created, and it throws exactly when `new` would |
| `Registry.RemoveRoute` | packages/simple-router/src/matcher/index.ts:249-265 | removing an unknown name changes nothing; removing a known name makes `getRecordMatcher` of it return nothing; the subtree leaves the list and its names leave the map |
| `Resolve.NamedMatcher` | packages/simple-router/src/matcher/index.ts:138-139 | a registered name selects its own matcher; an unknown or absent name falls back to `matchers[0]`, and there is no matcher only when the list is empty |
| `Resolve.QuerySuffix` | packages/simple-router/src/matcher/index.ts:146-147 | the query part is empty for an empty query string, and otherwise `?` followed by it |
| `Resolve.ResolveNamed` | packages/simple-router/src/matcher/index.ts:137-152 | by name: a `TypeError` exactly when no matcher is found; otherwise `path` is the raw template, `params` are the cleaned parameters, and `fullPath` is the generated path, then `?` and the query only when non-empty, then the hash when truthy |
| `Resolve.ResolveRegisteredName` | packages/simple-router/src/matcher/index.ts:137-148 | resolving a registered name yields that name and the template of the matcher registered under it |
| `Resolve.ResolveUnknownName` | packages/simple-router/src/matcher/index.ts:138-141 | an unknown name resolves to the first listed matcher's template, and throws a `TypeError` when nothing is listed |
| `Resolve.ResolveNamedPathClean` | packages/simple-router/src/matcher/index.ts:143-152 | a by-name full path starts with a generated path that has no `//` and no trailing `/` |
| `Resolve.StripBase` | packages/simple-router/src/matcher/index.ts:156 | the basename `/` removes nothing, and neither does a basename that does not occur |
| `Resolve.StripBasePrefix` | packages/simple-router/src/matcher/index.ts:156 | a basename that prefixes the pathname is stripped exactly once |
| `Resolve.StripBaseNotAnchored` | packages/simple-router/src/matcher/index.ts:156 | the removal is not anchored: basename `/app` turns `/x/app/y` into `/x/y` |
| `Resolve.FirstMatch` | packages/simple-router/src/matcher/index.ts:158 | `find` returns the earliest matching position, or nothing when no position matches |
| `Resolve.PathMatcher` | packages/simple-router/src/matcher/index.ts:158 | by pathname, a matcher is chosen exactly when the list is non-empty, and it is a listed one |
| `Resolve.PathMatcherIsFirst` | packages/simple-router/src/matcher/index.ts:158 | the chosen matcher is the earliest matching one after index 0, or `matchers[0]` when none after it matches |
| `Resolve.ResolvePath` | packages/simple-router/src/matcher/index.ts:153-173 | by pathname: never throws; `path` is the pathname without the basename; the query is that of the search string; with a matcher, the name is its record's and the params are its match's bindings (or `{}`); without one, there is no name, no params and an empty full path |
| `Resolve.ResolveCurrent` | packages/simple-router/src/matcher/index.ts:174-184 | reusing the current route succeeds exactly when its name is truthy and registered, with that name and empty path, params and query; otherwise it throws `there is no such route` |
| `Resolve.ResolveUnnamedCurrentThrows` | packages/simple-router/src/matcher/index.ts:176-181 | with neither name nor pathname, an unnamed current route always throws |
| `Resolve.ResolveWith` | packages/simple-router/src/matcher/index.ts:137-184 | a target with a truthy pathname never throws, an empty pathname falls to the current route, and a resolved matcher is always a listed one |
| `Resolve.Resolve` | packages/simple-router/src/matcher/index.ts:194-200 | the returned object is the resolved location without the matcher or its chain, and an error is passed on unchanged |
| `Resolve.Matched` | packages/simple-router/src/matcher/index.ts:186-192 | the collected chain runs from a root to the resolved matcher along parent links, and is empty without a matcher |
| `Resolve.MatchedEndsInResolved` | packages/simple-router/src/matcher/index.ts:186-192 | the last record of the chain carries the resolved name |

## Left out

- `router.ts`, the navigation coordinator with its guards, `push`, `go` and `initReady`, is not part of this model. It is glue over react-router's navigation primitive, and that primitive is foreign code.
- react-router's `matchPath` is a function parameter of `resolve`: template × path → optional bindings. It is foreign code. Only whether it matches, and the bindings it returns, are used.
- `stringifyQuery`, `getQueryParams` (a `URLSearchParams` wrapper) and `transformLocationToFullPath` are also function parameters of `resolve`. The first is imported from a file that is not part of this model, and the other two are thin wrappers over browser APIs. `objectToQueryParams` is not modelled for the same reason.
- `createRouteRecordMatcher` lives in `./pathMatcher`, which is not part of this model. It is taken to return `{record, parent, children: []}` and to append the new node to `parent.children`.
- `checkChildMissingNameWithEmptyPath`, `console.warn` and every other diagnostic are development-only logging. They change no state and are not modelled.
- `Shared.CollapseSlashes`: its own contract does not fix the output string. The lemmas `Shared.CollapseAround`, `Shared.CollapseRun` and `Shared.CollapseClean` do.
- `Query.DecodeComponent`: it carries no contract of its own. The lemmas show that it never lengthens text, that text without `%` decodes to itself, and that the canonical `encodeURIComponent` output of every text decodes back to it. Other escapes it accepts, such as lowercase hex digits or `%41` for an unreserved character, are decoded by its body alone, with no lemma about them.
- `Shared.Substitute` carries no contract of its own. Its result is fixed by the lemmas `Shared.SubstituteLiteral`, `Shared.SubstituteLiteralPrefix` and `Shared.SubstituteToken`, except on a `:` that is not followed by a letter.
- Numbers are mathematical integers. Non-integral and non-finite JavaScript numbers, and their string forms, are not modelled.
- `Values.NatToString`: it writes every integer in full decimal digits. JavaScript switches to exponent form from 10^21 upward (`1e+21`), and a number above 2^53 is not held exactly, so its digits may differ. Both ranges are left out because route parameters and query values in this router are small.
- Booleans print as `true`/`false` and plain objects as `[object Object]`. Objects with their own `toString`, and other object kinds such as `Date`, are not modelled.
- JavaScript objects are Dafny maps. Keys inherited from `Object.prototype`, such as `constructor` under `in`, and the integer-first key order of plain objects are not modelled.
- Strings are sequences of Unicode scalar values. Lone surrogates, which `decodeURIComponent` and `encodeURIComponent` treat specially, cannot be written.
- Removal is post-order in the code. Removing children before their parent yields the same final list and map as any other order: the lemmas `JsMaps.DeleteThenDeleteAll`, `JsMaps.DeleteAllThenDelete` and `JsMaps.DeleteAllTwice` show that the deleted names can be taken in any grouping. Only that final state is modelled, so the order itself is not observable.
- `Registry.ResetMatchers`: the proof does not show that the rebuilt registry has the same shape as a new instance. It covers only freshness, consistency and the throw condition, because matcher ids differ between the two.
- `Resolve.Resolve`: the ancestor chain is computed separately by `Resolve.Matched` and is not part of the returned object, because the code does not return it.
- `storage.ts`, the route table constants and all React, store and build files are not part of the matcher and are not modelled.

=== FILE: dataprocess.dfy ===
/** The location helpers: the null-only `cleanParams` and
    `transformLocationToRoute`, which turns a browser location and the
    route matches found for it into the router's route object. */
module DataProcess {
  import opened Wrappers
  import opened Values
  import Seqs
  import Query
  import Shared

  // ---------------------------------------------------------------------
  // cleanParams (location version)

  /** `cleanParams(params)` of dataProcess.ts: a missing (falsy) parameter
      object gives `{}`; otherwise exactly the entries whose value is `null`
      are dropped, so `undefined` values stay. */
  function CleanParams(params: Option<map<string, JsValue>>): (r: map<string, JsValue>)
    ensures params.None? ==> r == map[]
    ensures params.Some? ==> forall k :: k in r <==> k in params.value && params.value[k] != Null
    ensures forall k :: k in r ==> params.Some? && r[k] == params.value[k]
  {
    match params
    case None => map[]
    case Some(p) => map k | k in p && p[k] != Null :: p[k]
  }

  /** Cleaning twice is cleaning once. */
  lemma CleanParamsIdempotent(params: Option<map<string, JsValue>>)
    ensures CleanParams(Some(CleanParams(params))) == CleanParams(params)
  {
    var once := CleanParams(params);
    var twice := CleanParams(Some(once));
    assert forall k :: k in twice <==> k in once;
  }

  /** The two `cleanParams` keep the same keys except those holding
      `undefined`, which only this one keeps; on the keys both keep, the
      matcher version differs only by joining arrays. */
  lemma CleanParamsVersions(params: map<string, JsValue>)
    ensures var loose, strict := CleanParams(Some(params)), Shared.CleanParams(params);
            && (forall k :: k in strict <==> k in loose && loose[k] != Undefined)
            && (forall k :: k in strict ==> strict[k] == Shared.ToParam(loose[k]))
  {
  }

  // ---------------------------------------------------------------------
  // transformLocationToRoute

  /** The parts of a browser location the transform reads. */
  datatype Location = Location(pathname: string, search: string, hash: string, state: JsValue)

  /** A route match as found for a location: the matched route's `id` and
      `handle`, and the keys of its `params` in enumeration order. */
  datatype RouteMatch = RouteMatch(
    routeId: string,
    handle: Option<map<string, JsValue>>,
    paramKeys: seq<string>)

  /** `RouteLocationNormalizedLoaded` as the transform builds it. */
  datatype LoadedRoute = LoadedRoute(
    fullPath: string,
    hash: string,
    matched: seq<Shared.NormalizedRecord>,
    meta: Option<map<string, JsValue>>,
    name: Option<string>,
    params: seq<string>,
    path: string,
    query: Query.Query,
    redirectedFrom: Option<string>,
    state: JsValue)

  /** `transformLocationToRoute(location, match)`: everything route-specific
      comes from the last match, and nothing when there is none. */
  function TransformLocationToRoute(location: Location, matches: seq<RouteMatch>): (r: LoadedRoute)
    ensures r.fullPath == location.pathname + location.search + location.hash
    ensures r.path == location.pathname && r.hash == location.hash && r.state == location.state
    ensures r.query == Query.ParseQuery(location.search)
    ensures r.matched == [] && r.redirectedFrom.None?
    ensures matches == [] ==> r.name.None? && r.meta.None? && r.params == []
    ensures matches != [] ==> var last := matches[|matches| - 1];
              && r.name == Some(last.routeId)
              && r.meta == last.handle
              && (forall k :: k in r.params <==> k in last.paramKeys && k != "*")
              && r.params == Seqs.FilterOut(last.paramKeys, {"*"})
              && (Seqs.Distinct(last.paramKeys) ==> Seqs.Distinct(r.params))
  {
    var keys := if matches == [] then [] else matches[|matches| - 1].paramKeys;
    var params := Seqs.FilterOut(keys, {"*"});
    assert Seqs.Distinct(keys) ==> Seqs.Distinct(params) by {
      if Seqs.Distinct(keys) {
        Seqs.FilterOutDistinct(keys, {"*"});
      }
    }
    LoadedRoute(
      location.pathname + location.search + location.hash,
      location.hash,
      [],
      if matches == [] then None else matches[|matches| - 1].handle,
      if matches == [] then None else Some(matches[|matches| - 1].routeId),
      params,
      location.pathname,
      Query.ParseQuery(location.search),
      None,
      location.state)
  }

  /** The parameter keys keep their order and only `'*'` is dropped: a
      wildcard key between two runs of ordinary keys leaves exactly those
      runs, joined, and keys without a wildcard come through unchanged. */
  lemma TransformParamsInOrder(location: Location, matches: seq<RouteMatch>, pre: seq<string>, post: seq<string>)
    requires matches != []
    ensures var keys := matches[|matches| - 1].paramKeys;
            && (("*" !in keys) ==> TransformLocationToRoute(location, matches).params == keys)
            && (keys == pre + ["*"] + post && "*" !in pre && "*" !in post ==>
                  TransformLocationToRoute(location, matches).params == pre + post)
  {
    var keys := matches[|matches| - 1].paramKeys;
    if "*" !in keys {
      Seqs.FilterOutNothing(keys, {"*"});
    }
    if keys == pre + ["*"] + post && "*" !in pre && "*" !in post {
      Seqs.FilterOutConcat(pre + ["*"], post, {"*"});
      Seqs.FilterOutConcat(pre, ["*"], {"*"});
      Seqs.FilterOutNothing(pre, {"*"});
      Seqs.FilterOutNothing(post, {"*"});
      Seqs.FilterOutOne("*", {"*"});
      assert pre + [] == pre;
    }
  }

  /** The usual search string starts with one `?`, which the query parser
      skips, so the query is that of the text after it. */
  lemma TransformQuerySkipsMark(location: Location, matches: seq<RouteMatch>, rest: string)
    requires location.search == "?" + rest && (rest == [] || rest[0] != '?')
    ensures TransformLocationToRoute(location, matches).query == Query.ParseQuery(rest)
  {
    Query.ParseQueryLeadingMark(rest);
  }

  /** With no match the route is anonymous and has no parameters, whatever
      the location. */
  lemma TransformWithoutMatch(location: Location)
    ensures var r := TransformLocationToRoute(location, []);
            r.name.None? && r.meta.None? && r.params == [] && r.path == location.pathname
  {
  }
}

=== FILE: jsmap.dfy ===
/** The JavaScript `Map<string, V>` the registry keeps as its name index:
    lookups by key, plus the insertion order of keys that `Map.prototype.keys`
    reports. Setting an existing key keeps its position; deleting a key
    removes it from the order; a deleted key set again goes to the end. */
module JsMaps {
  import opened Wrappers
  import opened Seqs

  datatype JsMap<V> = JsMap(order: seq<string>, vals: map<string, V>) {

    /** Every key is listed exactly once in `order`. */
    predicate Valid() {
      && Distinct(order)
      && (forall k :: k in vals ==> k in order)
      && (forall i :: 0 <= i < |order| ==> order[i] in vals)
    }

    /** `map.get(k)`. */
    function Get(k: string): (r: Option<V>)
      ensures r.Some? <==> k in vals
      ensures r.Some? ==> r.value == vals[k]
    {
      if k in vals then Some(vals[k]) else None
    }

    /** `map.set(k, v)`. */
    function Set(k: string, v: V): (r: JsMap<V>)
      requires Valid()
      ensures r.Valid()
      ensures r.Get(k) == Some(v)
      ensures forall j :: j != k ==> r.Get(j) == Get(j)
      ensures k in vals ==> r.order == order
      ensures k !in vals ==> r.order == order + [k]
    {
      if k in vals then JsMap(order, vals[k := v])
      else
        var r := JsMap(order + [k], vals[k := v]);
        assert Distinct(r.order) by {
          forall i, j | 0 <= i < j < |r.order| ensures r.order[i] != r.order[j] {
            if j == |order| {
              assert r.order[i] == order[i];
            }
          }
        }
        r
    }

    /** `map.delete(k)` for every `k` in `ks`: the remaining keys keep their
        relative order. */
    function DeleteAll(ks: set<string>): (r: JsMap<V>)
      requires Valid()
      ensures r.Valid()
      ensures r.vals.Keys == vals.Keys - ks
      ensures forall j :: j in r.vals ==> r.vals[j] == vals[j]
      ensures r.order == FilterOut(order, ks)
    {
      FilterOutDistinct(order, ks);
      JsMap(FilterOut(order, ks), vals - ks)
    }

    /** `map.delete(k)`: the key leaves the index and the key order. */
    function Delete(k: string): (r: JsMap<V>)
      requires Valid()
      ensures r.Valid()
      ensures r.Get(k) == None
      ensures forall j :: j != k ==> r.Get(j) == Get(j)
      ensures r.order == FilterOut(order, {k})
    {
      DeleteAll({k})
    }
  }

  /** `new Map()` and `map.clear()`. */
  function Empty<V>(): (r: JsMap<V>)
    ensures r.Valid() && r.order == [] && r.vals == map[]
  {
    JsMap([], map[])
  }

  /** Deleting one key and then a set of keys deletes their union. */
  lemma DeleteThenDeleteAll<V>(m: JsMap<V>, k: string, ks: set<string>)
    requires m.Valid()
    ensures m.Delete(k).DeleteAll(ks) == m.DeleteAll({k} + ks)
  {
    FilterOutTwice(m.order, {k}, ks);
    assert m.vals - {k} - ks == m.vals - ({k} + ks);
  }

  /** Deleting a set of keys and then one more key deletes their union. */
  lemma DeleteAllThenDelete<V>(m: JsMap<V>, ks: set<string>, k: string)
    requires m.Valid()
    ensures m.DeleteAll(ks).Delete(k) == m.DeleteAll(ks + {k})
  {
    FilterOutTwice(m.order, ks, {k});
    assert m.vals - ks - {k} == m.vals - (ks + {k});
  }

  /** Deleting two key sets in turn deletes their union. */
  lemma DeleteAllTwice<V>(m: JsMap<V>, a: set<string>, b: set<string>)
    requires m.Valid()
    ensures m.DeleteAll(a).DeleteAll(b) == m.DeleteAll(a + b)
  {
    FilterOutTwice(m.order, a, b);
    assert m.vals - a - b == m.vals - (a + b);
  }
}

=== FILE: matcher.dfy ===
/** Adding routes to the registry: nested path composition, the creation of
    a matcher node, its insertion into the list and the name index, and the
    recursive `addRoute` over a definition and its children, including the
    eviction of an earlier route of the same name.

    `createRouteRecordMatcher` lives in a module that is not part of this
    model; it is taken to return `{record, parent, children: []}` and to
    append the new node to `parent.children`. */
module Matcher {
  import opened Wrappers
  import opened Seqs
  import opened JsMaps
  import opened Shared
  import opened MatcherTree

  // ---------------------------------------------------------------------
  // Nested paths

  /** The path of a child whose own path is non-empty and relative: the
      parent path, a `/` unless the parent path already ends in one, and the
      child path. */
  function NestPath(parentPath: string, path: string): (r: string)
    requires path != [] && path[0] != '/'
    ensures IsPrefix(parentPath, r)
    ensures |r| >= |path| + 1 && r[|r| - |path|..] == path
    ensures r[|r| - |path| - 1] == '/'
    ensures |r| == |parentPath| + |path| + (if parentPath != [] && parentPath[|parentPath| - 1] == '/' then 0 else 1)
  {
    var slash := if parentPath != [] && parentPath[|parentPath| - 1] == '/' then "" else "/";
    parentPath + slash + path
  }

  /** Joining two slash-clean paths at a single slash keeps them clean. */
  lemma NestPathClean(parentPath: string, path: string)
    requires path != [] && path[0] != '/'
    requires NoDoubleSlash(parentPath) && NoDoubleSlash(path)
    ensures NoDoubleSlash(NestPath(parentPath, path))
  {
    var r := NestPath(parentPath, path);
    var n := |r| - |path|;
    forall i | 0 <= i < |r| - 1 ensures !(r[i] == '/' && r[i + 1] == '/') {
      if i + 1 < n - 1 {
        assert r[i] == parentPath[i] && r[i + 1] == parentPath[i + 1];
      } else if i + 1 == n - 1 {
        if |r| == |parentPath| + |path| {
          assert r[i] == parentPath[i] && r[i + 1] == parentPath[i + 1];
        } else {
          assert r[i] == parentPath[i];
          assert parentPath[|parentPath| - 1] != '/';
        }
      } else if i + 1 == n {
        assert r[i + 1] == path[0];
      } else {
        assert r[i] == path[i - n] && r[i + 1] == path[i + 1 - n];
      }
    }
  }

  /** The path a new matcher gets: nested under its parent when there is
      one and the record's own path is non-empty and does not start with
      `/`; otherwise the record's path as it is. */
  function MatcherPath(a: Arena, parent: Option<Id>, path: string): (r: string)
    requires parent.Some? ==> parent.value in a.nodes
    ensures parent.None? || path == [] || path[0] == '/' ==> r == path
    ensures parent.Some? && path != [] && path[0] != '/' ==>
              r == NestPath(a.nodes[parent.value].record.path, path)
  {
    if parent.Some? && path != [] && path[0] != '/' then NestPath(a.nodes[parent.value].record.path, path)
    else path
  }

  // ---------------------------------------------------------------------
  // createRouteRecordMatcher

  /** A fresh node (id `a.next`) with no children, appended to its parent's
      children; every other node is unchanged. */
  function CreateMatcher(a: Arena, record: NormalizedRecord, parent: Option<Id>): (b: Arena)
    requires parent.Some? ==> parent.value in a.nodes
    ensures b.next == a.next + 1 && b.nodes.Keys == a.nodes.Keys + {a.next}
    ensures b.nodes[a.next] == Node(record, parent, [])
    ensures parent.Some? && parent.value != a.next ==>
              b.nodes[parent.value] == a.nodes[parent.value].(children := a.nodes[parent.value].children + [a.next])
    ensures forall id :: id in a.nodes && id != a.next && Some(id) != parent ==> b.nodes[id] == a.nodes[id]
  {
    var nodes := if parent.None? then a.nodes
                 else a.nodes[parent.value := a.nodes[parent.value].(children := a.nodes[parent.value].children + [a.next])];
    Arena(nodes[a.next := Node(record, parent, [])], a.next + 1)
  }

  /** Creating a matcher keeps the arena well formed and only extends it. */
  lemma CreateMatcherExtends(a: Arena, record: NormalizedRecord, parent: Option<Id>)
    requires Wf(a) && (parent.Some? ==> parent.value in a.nodes)
    ensures Wf(CreateMatcher(a, record, parent)) && Extends(a, CreateMatcher(a, record, parent))
  {
    CreateMatcherPrefix(a, record, parent);
    CreateMatcherParents(a, record, parent);
    CreateMatcherChildren(a, record, parent);
  }

  lemma CreateMatcherPrefix(a: Arena, record: NormalizedRecord, parent: Option<Id>)
    requires Wf(a) && (parent.Some? ==> parent.value in a.nodes)
    ensures Extends(a, CreateMatcher(a, record, parent))
  {
    var b := CreateMatcher(a, record, parent);
    assert a.next !in a.nodes;
    forall id | id in a.nodes ensures IsPrefix(a.nodes[id].children, b.nodes[id].children) {
      var c := a.nodes[id].children;
      assert b.nodes[id].children[..|c|] == c;
    }
  }

  lemma CreateMatcherParents(a: Arena, record: NormalizedRecord, parent: Option<Id>)
    requires Wf(a) && (parent.Some? ==> parent.value in a.nodes)
    ensures var b := CreateMatcher(a, record, parent);
            && (forall id :: id in b.nodes ==> id < b.next)
            && (forall id :: id in b.nodes && b.nodes[id].parent.Some? ==>
                  b.nodes[id].parent.value in b.nodes && b.nodes[id].parent.value < id)
  {
    var b := CreateMatcher(a, record, parent);
    assert a.next !in a.nodes;
    forall id | id in b.nodes && b.nodes[id].parent.Some?
      ensures b.nodes[id].parent.value in b.nodes && b.nodes[id].parent.value < id
    {
      if id != a.next { assert b.nodes[id].parent == a.nodes[id].parent; }
    }
  }

  lemma CreateMatcherChildren(a: Arena, record: NormalizedRecord, parent: Option<Id>)
    requires Wf(a) && (parent.Some? ==> parent.value in a.nodes)
    ensures var b := CreateMatcher(a, record, parent);
            forall id, i :: id in b.nodes && 0 <= i < |b.nodes[id].children| ==>
              b.nodes[id].children[i] in b.nodes && id < b.nodes[id].children[i]
  {
    var b := CreateMatcher(a, record, parent);
    assert a.next !in a.nodes;
    forall id, i | id in b.nodes && 0 <= i < |b.nodes[id].children|
      ensures b.nodes[id].children[i] in b.nodes && id < b.nodes[id].children[i]
    {
      if id != a.next && Some(id) == parent && i == |a.nodes[id].children| {
        assert b.nodes[id].children[i] == a.next;
      } else if id != a.next {
        assert b.nodes[id].children[i] == a.nodes[id].children[i];
      }
    }
  }

  // ---------------------------------------------------------------------
  // insertMatcher

  /** `insertMatcher`: a matcher whose path is exactly `*` goes to the front
      of the list, any other to the end; a named matcher becomes the map
      entry of its name, replacing the previous holder but keeping the
      name's position in the key order. */
  function InsertMatcher(a: Arena, ix: Index, id: Id): (r: Index)
    requires id in a.nodes && ix.names.Valid()
    ensures |r.matchers| == |ix.matchers| + 1
    ensures forall m :: m in r.matchers <==> m == id || m in ix.matchers
    ensures a.nodes[id].record.path == "*" ==> r.matchers[0] == id && r.matchers[1..] == ix.matchers
    ensures a.nodes[id].record.path != "*" ==>
              r.matchers[|ix.matchers|] == id && r.matchers[..|ix.matchers|] == ix.matchers
    ensures var name := a.nodes[id].record.name;
            && (Truthy(name) ==> r.names.Get(name.value) == Some(id))
            && (Truthy(name) ==> forall k :: k != name.value ==> r.names.Get(k) == ix.names.Get(k))
            && (Truthy(name) && name.value in ix.names.vals ==> r.names.order == ix.names.order)
            && (Truthy(name) && name.value !in ix.names.vals ==> r.names.order == ix.names.order + [name.value])
            && (!Truthy(name) ==> r.names == ix.names)
  {
    var matchers := if a.nodes[id].record.path == "*" then [id] + ix.matchers else ix.matchers + [id];
    var name := a.nodes[id].record.name;
    Index(matchers, if Truthy(name) then ix.names.Set(name.value, id) else ix.names)
  }

  /** Inserting a named matcher that is not listed yet keeps the index
      valid. */
  lemma InsertMatcherValid(a: Arena, ix: Index, id: Id)
    requires ValidIndex(a, ix) && id in a.nodes && id !in ix.matchers && Truthy(a.nodes[id].record.name)
    ensures ValidIndex(a, InsertMatcher(a, ix, id))
  {
    var r := InsertMatcher(a, ix, id);
    var name := a.nodes[id].record.name.value;
    assert Distinct(r.matchers) by {
      DistinctAdd(ix.matchers, id);
    }
    assert forall m :: m in ix.matchers ==> m in r.matchers by {
      if a.nodes[id].record.path == "*" {
        assert r.matchers == [id] + ix.matchers;
      } else {
        assert r.matchers == ix.matchers + [id];
      }
    }
    assert forall i :: 0 <= i < |r.matchers| ==>
             r.matchers[i] in a.nodes && Truthy(a.nodes[r.matchers[i]].record.name) by {
      forall i | 0 <= i < |r.matchers|
        ensures r.matchers[i] in a.nodes && Truthy(a.nodes[r.matchers[i]].record.name)
      {
        assert r.matchers[i] == id || r.matchers[i] in ix.matchers;
      }
    }
    assert forall k :: k in r.names.vals ==>
             && r.names.vals[k] in r.matchers
             && r.names.vals[k] in a.nodes
             && a.nodes[r.names.vals[k]].record.name == Some(k) by {
      forall k | k in r.names.vals
        ensures r.names.vals[k] in r.matchers && r.names.vals[k] in a.nodes
        ensures a.nodes[r.names.vals[k]].record.name == Some(k)
      {
        if k != name {
          assert r.names.Get(k) == ix.names.Get(k);
        } else {
          assert r.names.Get(k) == Some(id);
        }
      }
    }
  }

  // ---------------------------------------------------------------------
  // addRoute

  /** What an add leaves behind, the thrown error included: JavaScript
      exceptions do not undo the mutations already made. */
  datatype Outcome<T> = Outcome(arena: Arena, index: Index, result: Result<T, JsError>)

  /** Every listed matcher was already listed or is at least `bound`. */
  predicate ListsOnly(before: Index, bound: Id, after: Index) {
    forall m :: m in after.matchers ==> m in before.matchers || m >= bound
  }

  /** The whole definition tree normalises without a `TypeError`: the
      condition under which `addRoute` does not throw. */
  predicate AllNormalizable(r: RouteRecord)
    decreases Size(r), 1
  {
    Normalizable(r) && AllNormalizableList(Normalize(r).value.children)
  }

  predicate AllNormalizableList(cs: seq<RouteRecord>)
    decreases SizeAll(cs), 2
  {
    cs == [] || (AllNormalizable(cs[0]) && AllNormalizableList(cs[1..]))
  }

  /** The matcher of `original`'s `i`-th child: `originalRecord &&
      originalRecord.children[i]`. */
  function ChildOriginal(a: Arena, original: Option<Id>, i: nat): (r: Option<Id>)
    requires Wf(a) && (original.Some? ==> original.value in a.nodes)
    ensures original.None? ==> r.None?
    ensures r.Some? ==> r.value in a.nodes && original.value < r.value
  {
    if original.Some? && i < |a.nodes[original.value].children| then Some(a.nodes[original.value].children[i])
    else None
  }

  /** The invariant every add keeps: the arena stays well formed and only
      grows, the index stays valid, and the only matchers it newly lists
      are ones created by the add. */
  predicate Grows<T>(a: Arena, ix: Index, r: Outcome<T>) {
    && Wf(r.arena) && Extends(a, r.arena) && ValidIndex(r.arena, r.index)
    && ListsOnly(ix, a.next, r.index)
  }

  /** `addRoute(record, parent, originalRecord)`. The record is normalised
      (which may throw, leaving everything as it was); its matcher gets the
      next id and hangs under `parent`; without `originalRecord` a named
      record first evicts the route holding its name; the children are
      added under the new matcher; finally a named matcher is inserted.
      An error thrown by a child leaves the eviction and the matchers
      already created in place. */
  function AddRouteAt(a: Arena, ix: Index, record: RouteRecord, parent: Option<Id>, original: Option<Id>): (r: Outcome<Id>)
    requires Wf(a) && ValidIndex(a, ix)
    requires parent.Some? ==> parent.value in a.nodes
    requires original.Some? ==> original.value in a.nodes
    ensures Grows(a, ix, r)
    decreases Size(record), 0
  {
    match Normalize(record)
    case Failure(e) => ExtendsRefl(a); Outcome(a, ix, Failure(e))
    case Success(n) =>
      var m := n.(path := MatcherPath(a, parent, n.path));
      var a1 := CreateMatcher(a, m, parent);
      CreateMatcherExtends(a, m, parent);
      ValidIndexExtends(a, a1, ix);
      var ix1 := Evict(a1, ix, record, original);
      var s := AddChildren(a1, ix1, n.children, a.next, original, 0);
      Inserted(a, a1, ix, ix1, s, m.name)
  }

  /** The eviction step: `removeRoute(record.name)` for a named record added
      without `originalRecord`. */
  function Evict(a: Arena, ix: Index, record: RouteRecord, original: Option<Id>): (r: Index)
    requires Wf(a) && ValidIndex(a, ix)
    ensures ValidIndex(a, r)
    ensures forall i :: 0 <= i < |r.matchers| ==> r.matchers[i] in ix.matchers
  {
    if original.None? && Truthy(record.name) then RemoveRoute(a, ix, ByName(record.name.value)) else ix
  }

  /** The end of `addRoute`: after the children, the new matcher (id
      `a.next`) is inserted when it is named, unless a child threw. */
  function Inserted(a: Arena, a1: Arena, ix: Index, ix1: Index, s: Outcome<()>, name: Option<string>): (r: Outcome<Id>)
    requires Wf(a) && ValidIndex(a, ix) && Extends(a, a1) && a1.next == a.next + 1
    requires a.next in a1.nodes && a1.nodes[a.next].record.name == name
    requires forall i :: 0 <= i < |ix1.matchers| ==> ix1.matchers[i] in ix.matchers
    requires Grows(a1, ix1, s)
    ensures Grows(a, ix, r)
    ensures r.arena == s.arena
    ensures s.result.Failure? ==> r.index == s.index && r.result == Failure(s.result.error)
    ensures s.result.Success? && Truthy(name) ==> r.index == InsertMatcher(s.arena, s.index, a.next)
    ensures s.result.Success? && !Truthy(name) ==> r.index == s.index
    ensures s.result.Success? ==> r.result == Success(a.next)
    ensures a.next in r.index.matchers <==> s.result.Success? && Truthy(name)
    ensures forall x :: x in r.index.matchers ==> x == a.next || x in s.index.matchers
  {
    ExtendsTrans(a, a1, s.arena);
    assert a.next !in s.index.matchers by {
      assert forall i :: 0 <= i < |ix.matchers| ==> ix.matchers[i] in a.nodes;
    }
    assert ListsOnly(ix, a.next, s.index) by {
      ListsOnlyTrans(ix, ix1, s.index, a.next);
    }
    if s.result.Failure? then
      Outcome(s.arena, s.index, Failure(s.result.error))
    else if Truthy(name) then
      var r := InsertMatcher(s.arena, s.index, a.next);
      InsertMatcherValid(s.arena, s.index, a.next);
      assert ListsOnly(ix, a.next, r) by {
        ListsOnlyInsert(ix, s.index, r, a.next);
      }
      Outcome(s.arena, r, Success(a.next))
    else
      Outcome(s.arena, s.index, Success(a.next))
  }

  lemma ListsOnlyTrans(ix: Index, ix1: Index, after: Index, bound: Id)
    requires forall i :: 0 <= i < |ix1.matchers| ==> ix1.matchers[i] in ix.matchers
    requires ListsOnly(ix1, bound + 1, after)
    ensures ListsOnly(ix, bound, after)
  {
    forall m | m in after.matchers && m in ix1.matchers ensures m in ix.matchers {
      var j :| 0 <= j < |ix1.matchers| && ix1.matchers[j] == m;
    }
  }

  lemma ListsOnlyInsert(ix: Index, mid: Index, after: Index, bound: Id)
    requires ListsOnly(ix, bound, mid)
    requires forall m :: m in after.matchers ==> m == bound || m in mid.matchers
    ensures ListsOnly(ix, bound, after)
  {
  }

  /** The loop over the normalised children, from child number `i` on, each
      added under `p` with the matching child of `original`. */
  function AddChildren(a: Arena, ix: Index, kids: seq<RouteRecord>, p: Id, original: Option<Id>, i: nat): (r: Outcome<()>)
    requires Wf(a) && ValidIndex(a, ix) && p in a.nodes
    requires original.Some? ==> original.value in a.nodes
    ensures Grows(a, ix, r)
    decreases SizeAll(kids), 1
  {
    if kids == [] then
      GrowsRefl(a, ix);
      Outcome(a, ix, Success(()))
    else
      var s := AddRouteAt(a, ix, kids[0], Some(p), ChildOriginal(a, original, i));
      if s.result.Failure? then
        Outcome(s.arena, s.index, Failure(s.result.error))
      else
        var t := AddChildren(s.arena, s.index, kids[1..], p, original, i + 1);
        GrowsTrans(a, ix, s, t);
        Outcome(t.arena, t.index, t.result)
  }

  lemma GrowsRefl(a: Arena, ix: Index)
    requires Wf(a) && ValidIndex(a, ix)
    ensures Grows(a, ix, Outcome(a, ix, Success(())))
  {
    ExtendsRefl(a);
  }

  /** Two adds in a row keep the invariant between the first state and the
      last. */
  lemma GrowsTrans<S, T>(a: Arena, ix: Index, s: Outcome<S>, t: Outcome<T>)
    requires Grows(a, ix, s) && Grows(s.arena, s.index, t)
    ensures Grows(a, ix, t)
    ensures forall x :: x in t.index.matchers && x !in ix.matchers ==> x >= a.next
  {
    ExtendsTrans(a, s.arena, t.arena);
  }

  // ---------------------------------------------------------------------
  // What addRoute promises

  /** The intermediate states of an add whose record normalises: the arena
      after creating the matcher, the index after the eviction and the
      outcome of the children. */
  lemma AddRouteAtSteps(a: Arena, ix: Index, record: RouteRecord, parent: Option<Id>, original: Option<Id>)
      returns (a1: Arena, ix1: Index, s: Outcome<()>)
    requires Wf(a) && ValidIndex(a, ix)
    requires parent.Some? ==> parent.value in a.nodes
    requires original.Some? ==> original.value in a.nodes
    requires Normalizable(record)
    ensures var n := Normalize(record).value;
            && a1 == CreateMatcher(a, n.(path := MatcherPath(a, parent, n.path)), parent)
            && Wf(a1) && Extends(a, a1) && ValidIndex(a1, ix)
            && ix1 == Evict(a1, ix, record, original)
            && s == AddChildren(a1, ix1, n.children, a.next, original, 0)
            && Grows(a1, ix1, s)
            && AddRouteAt(a, ix, record, parent, original) == Inserted(a, a1, ix, ix1, s, n.name)
  {
    var n := Normalize(record).value;
    var m := n.(path := MatcherPath(a, parent, n.path));
    a1 := CreateMatcher(a, m, parent);
    CreateMatcherExtends(a, m, parent);
    ValidIndexExtends(a, a1, ix);
    ix1 := Evict(a1, ix, record, original);
    s := AddChildren(a1, ix1, n.children, a.next, original, 0);
  }

  /** `addRoute` throws exactly when some definition in the tree cannot be
      normalised, and then with a `TypeError`. */
  lemma {:induction false} AddRouteAtSucceeds(a: Arena, ix: Index, record: RouteRecord, parent: Option<Id>, original: Option<Id>)
    requires Wf(a) && ValidIndex(a, ix)
    requires parent.Some? ==> parent.value in a.nodes
    requires original.Some? ==> original.value in a.nodes
    ensures var r := AddRouteAt(a, ix, record, parent, original);
            && (r.result.Success? <==> AllNormalizable(record))
            && (r.result.Failure? ==> r.result.error == TypeError)
    decreases Size(record), 0
  {
    if Normalizable(record) {
      var n := Normalize(record).value;
      var a1, ix1, s := AddRouteAtSteps(a, ix, record, parent, original);
      AddChildrenSucceed(a1, ix1, n.children, a.next, original, 0);
    }
  }

  lemma {:induction false} AddChildrenSucceed(a: Arena, ix: Index, kids: seq<RouteRecord>, p: Id, original: Option<Id>, i: nat)
    requires Wf(a) && ValidIndex(a, ix) && p in a.nodes
    requires original.Some? ==> original.value in a.nodes
    ensures var r := AddChildren(a, ix, kids, p, original, i);
            && (r.result.Success? <==> AllNormalizableList(kids))
            && (r.result.Failure? ==> r.result.error == TypeError)
    decreases SizeAll(kids), 1
  {
    if kids != [] {
      var s := AddRouteAt(a, ix, kids[0], Some(p), ChildOriginal(a, original, i));
      AddRouteAtSucceeds(a, ix, kids[0], Some(p), ChildOriginal(a, original, i));
      if s.result.Success? {
        AddChildrenSucceed(s.arena, s.index, kids[1..], p, original, i + 1);
      }
    }
  }

  /** Which child lists an add changes: only the parent's, which gains the
      new matcher at its end; the new matcher gets one child matcher per
      child definition when nothing throws. */
  lemma {:induction false} AddRouteAtFrame(a: Arena, ix: Index, record: RouteRecord, parent: Option<Id>, original: Option<Id>)
    requires Wf(a) && ValidIndex(a, ix)
    requires parent.Some? ==> parent.value in a.nodes
    requires original.Some? ==> original.value in a.nodes
    ensures var r := AddRouteAt(a, ix, record, parent, original);
            && (forall id :: id in a.nodes && Some(id) != parent ==> r.arena.nodes[id].children == a.nodes[id].children)
            && (parent.Some? && Normalizable(record) ==>
                  r.arena.nodes[parent.value].children == a.nodes[parent.value].children + [a.next])
    decreases Size(record), 0
  {
    if Normalizable(record) {
      var n := Normalize(record).value;
      var a1, ix1, s := AddRouteAtSteps(a, ix, record, parent, original);
      AddChildrenFrame(a1, ix1, n.children, a.next, original, 0);
      var r := AddRouteAt(a, ix, record, parent, original);
      assert r.arena == s.arena;
      assert a.next !in a.nodes;
      forall id | id in a.nodes && Some(id) != parent
        ensures r.arena.nodes[id].children == a.nodes[id].children
      {
        assert a1.nodes[id] == a.nodes[id];
      }
    }
  }

  /** Without a throw, the new matcher gets one child matcher per child
      definition. */
  lemma AddRouteAtChildCount(a: Arena, ix: Index, record: RouteRecord, parent: Option<Id>, original: Option<Id>)
    requires Wf(a) && ValidIndex(a, ix)
    requires parent.Some? ==> parent.value in a.nodes
    requires original.Some? ==> original.value in a.nodes
    ensures var r := AddRouteAt(a, ix, record, parent, original);
            r.result.Success? ==> |r.arena.nodes[a.next].children| == |Normalize(record).value.children|
  {
    if Normalizable(record) {
      var n := Normalize(record).value;
      var a1, ix1, s := AddRouteAtSteps(a, ix, record, parent, original);
      AddChildrenFrame(a1, ix1, n.children, a.next, original, 0);
    }
  }

  lemma {:induction false} AddChildrenFrame(a: Arena, ix: Index, kids: seq<RouteRecord>, p: Id, original: Option<Id>, i: nat)
    requires Wf(a) && ValidIndex(a, ix) && p in a.nodes
    requires original.Some? ==> original.value in a.nodes
    ensures var r := AddChildren(a, ix, kids, p, original, i);
            && (forall id :: id in a.nodes && id != p ==> r.arena.nodes[id].children == a.nodes[id].children)
            && (r.result.Success? ==> |r.arena.nodes[p].children| == |a.nodes[p].children| + |kids|)
    decreases SizeAll(kids), 1
  {
    if kids != [] {
      var s := AddRouteAt(a, ix, kids[0], Some(p), ChildOriginal(a, original, i));
      AddRouteAtFrame(a, ix, kids[0], Some(p), ChildOriginal(a, original, i));
      AddRouteAtSucceeds(a, ix, kids[0], Some(p), ChildOriginal(a, original, i));
      if s.result.Success? {
        AddChildrenFrame(s.arena, s.index, kids[1..], p, original, i + 1);
      }
    }
  }

  /** The matcher an add creates: it has the next id, the normalised record
      with its nested path and the given parent. */
  lemma AddRouteAtNode(a: Arena, ix: Index, record: RouteRecord, parent: Option<Id>, original: Option<Id>)
    requires Wf(a) && ValidIndex(a, ix)
    requires parent.Some? ==> parent.value in a.nodes
    requires original.Some? ==> original.value in a.nodes
    requires Normalizable(record)
    ensures var r, n := AddRouteAt(a, ix, record, parent, original), Normalize(record).value;
            && a.next in r.arena.nodes
            && r.arena.nodes[a.next].record == n.(path := MatcherPath(a, parent, n.path))
            && r.arena.nodes[a.next].parent == parent
  {
    var n := Normalize(record).value;
    var a1, ix1, s := AddRouteAtSteps(a, ix, record, parent, original);
  }

  /** When nothing throws, the new matcher is the result; it is listed
      exactly when it is named, a named one is the map entry of its name,
      and a named one with path `*` heads the list. */
  lemma AddRouteAtCreates(a: Arena, ix: Index, record: RouteRecord, parent: Option<Id>, original: Option<Id>)
    requires Wf(a) && ValidIndex(a, ix)
    requires parent.Some? ==> parent.value in a.nodes
    requires original.Some? ==> original.value in a.nodes
    requires Normalizable(record)
    ensures var r := AddRouteAt(a, ix, record, parent, original);
            && (r.result.Success? ==> r.result.value == a.next)
            && (a.next in r.index.matchers <==> r.result.Success? && Truthy(record.name))
            && (r.result.Success? && Truthy(record.name) ==> r.index.names.Get(record.name.value) == Some(a.next))
  {
    var n := Normalize(record).value;
    var a1, ix1, s := AddRouteAtSteps(a, ix, record, parent, original);
  }

  /** A named matcher whose (nested) path is exactly `*` heads the list when
      nothing throws. */
  lemma AddRouteAtWildcardFirst(a: Arena, ix: Index, record: RouteRecord, parent: Option<Id>, original: Option<Id>)
    requires Wf(a) && ValidIndex(a, ix)
    requires parent.Some? ==> parent.value in a.nodes
    requires original.Some? ==> original.value in a.nodes
    requires Normalizable(record) && Truthy(record.name)
    requires MatcherPath(a, parent, Normalize(record).value.path) == "*"
    ensures var r := AddRouteAt(a, ix, record, parent, original);
            r.result.Success? ==> r.index.matchers[0] == a.next
  {
    var n := Normalize(record).value;
    var a1, ix1, s := AddRouteAtSteps(a, ix, record, parent, original);
  }

  /** Name eviction: a named record added without `originalRecord` first
      removes the matcher holding its name together with all its
      descendants, and none of them is listed afterwards, even when a child
      throws later on. */
  lemma AddRouteAtEvicts(a: Arena, ix: Index, record: RouteRecord, parent: Option<Id>)
    requires Wf(a) && ValidIndex(a, ix)
    requires parent.Some? ==> parent.value in a.nodes
    requires Normalizable(record) && Truthy(record.name) && record.name.value in ix.names.vals
    ensures var r := AddRouteAt(a, ix, record, parent, None);
            forall x :: x in Subtree(a, ix.names.vals[record.name.value]) ==> x !in r.index.matchers
  {
    var a1, ix1, s := AddRouteAtSteps(a, ix, record, parent, None);
    var r := AddRouteAt(a, ix, record, parent, None);
    var holder := ix.names.vals[record.name.value];
    SubtreeGrows(a, a1, holder);
    forall x | x in Subtree(a, holder) ensures x !in r.index.matchers {
      assert x in Subtree(a1, holder);
      assert x !in ix1.matchers;
      assert x < a.next;
    }
  }
}

=== FILE: query.dfy ===
/** The query-string parser: `decode` (a `decodeURIComponent` that falls
    back to the raw text) and `parseQuery`. Strings are sequences of Unicode
    scalar values, so a decoded 4-byte UTF-8 sequence is one character here
    where JavaScript stores a surrogate pair. */
module Query {
  import opened Wrappers
  import opened Text
  import Seqs

  // ---------------------------------------------------------------------
  // Percent-decoding (ECMAScript `decodeURIComponent`)

  function HexValue(c: char): int {
    if '0' <= c <= '9' then c as int - '0' as int
    else if 'a' <= c <= 'f' then c as int - 'a' as int + 10
    else if 'A' <= c <= 'F' then c as int - 'A' as int + 10
    else -1
  }

  predicate IsHex(c: char) {
    HexValue(c) >= 0
  }

  /** The byte written as `%XY` at the start of `s`, if any. */
  function EscapedByte(s: string): (r: Option<nat>)
    ensures r.Some? ==> |s| >= 3 && r.value < 256
  {
    if |s| >= 3 && s[0] == '%' && IsHex(s[1]) && IsHex(s[2])
    then Some(16 * HexValue(s[1]) + HexValue(s[2]))
    else None
  }

  /** Length of the UTF-8 sequence a lead byte announces (0 when the byte
      cannot lead a multi-byte sequence). */
  function LeadLength(b: nat): nat {
    if 0xC0 <= b < 0xE0 then 2
    else if 0xE0 <= b < 0xF0 then 3
    else if 0xF0 <= b < 0xF8 then 4
    else 0
  }

  /** The payload bits of a lead byte. */
  function LeadBits(b: nat, n: nat): int {
    if n == 2 then b - 0xC0 else if n == 3 then b - 0xE0 else b - 0xF0
  }

  /** Reads `count` escaped continuation bytes (`10xxxxxx`) from the start of
      `s`, folding their payload into `acc`; yields the code point and the
      text after them. */
  function Continuations(s: string, count: nat, acc: int): (r: Option<(int, string)>)
    ensures r.Some? ==> |r.value.1| == |s| - 3 * count
    ensures r.Some? ==> r.value.1 == s[3 * count..]
    decreases count
  {
    if count == 0 then Some((acc, s))
    else
      match EscapedByte(s)
      case None => None
      case Some(b) =>
        if 0x80 <= b < 0xC0 then
          var r := Continuations(s[3..], count - 1, acc * 64 + (b - 0x80));
          if r.Some? then assert s[3..][3 * (count - 1)..] == s[3 * count..]; r else r
        else None
  }

  /** An `n`-byte sequence decodes to a code point that is in range for its
      length (no overlong form), not a surrogate, and at most U+10FFFF. */
  predicate ValidCodePoint(cp: int, n: nat) {
    || (n == 2 && 0x80 <= cp < 0x800)
    || (n == 3 && 0x800 <= cp < 0x10000 && !(0xD800 <= cp < 0xE000))
    || (n == 4 && 0x10000 <= cp < 0x110000)
  }

  function Cons(c: char, rest: Option<string>): Option<string> {
    match rest
    case None => None
    case Some(t) => Some([c] + t)
  }

  /** `decodeURIComponent(s)`, or `None` where it throws `URIError`: a `%`
      not followed by two hex digits, a byte that cannot start a UTF-8
      sequence, a missing or malformed continuation, or an invalid code
      point. */
  function DecodeComponent(s: string): Option<string>
    decreases |s|
  {
    if s == [] then Some([])
    else if s[0] != '%' then
      Cons(s[0], DecodeComponent(s[1..]))
    else
      match EscapedByte(s)
      case None => None
      case Some(b) =>
        if b < 0x80 then Cons(b as char, DecodeComponent(s[3..]))
        else
          var n := LeadLength(b);
          if n == 0 then None
          else
            match Continuations(s[3..], n - 1, LeadBits(b, n))
            case None => None
            case Some(res) =>
              if ValidCodePoint(res.0, n) then Cons(res.0 as char, DecodeComponent(res.1))
              else None
  }

  /** Decoding never lengthens the text, and shortens it whenever there is
      an escape: every `%XY` (three characters) yields at most one
      character. */
  lemma {:induction false} DecodeNeverLengthens(s: string)
    ensures DecodeComponent(s).Some? ==> |DecodeComponent(s).value| <= |s|
    ensures DecodeComponent(s).Some? && '%' in s ==> |DecodeComponent(s).value| < |s|
    decreases |s|
  {
    if s == [] {
    } else if s[0] != '%' {
      DecodeNeverLengthens(s[1..]);
      if '%' in s {
        var i :| 0 <= i < |s| && s[i] == '%';
        assert s[1..][i - 1] == '%';
      }
    } else {
      match EscapedByte(s)
      case None =>
      case Some(b) =>
        if b < 0x80 {
          DecodeNeverLengthens(s[3..]);
        } else if LeadLength(b) != 0 {
          var n := LeadLength(b);
          match Continuations(s[3..], n - 1, LeadBits(b, n))
          case None =>
          case Some(res) =>
            DecodeNeverLengthens(res.1);
        }
    }
  }

  /** `decode(text)`: the percent-decoded text, or the raw text when it is
      malformed; it never throws. */
  function Decode(text: string): (r: string)
    ensures DecodeComponent(text).None? ==> r == text
  {
    match DecodeComponent(text)
    case Some(t) => t
    case None => text
  }

  /** Text without `%` decodes to itself. */
  lemma {:induction false} DecodePlain(s: string)
    requires '%' !in s
    ensures DecodeComponent(s) == Some(s)
    ensures Decode(s) == s
  {
    if s != [] {
      DecodePlain(s[1..]);
      assert [s[0]] + s[1..] == s;
    }
  }

  /** `%2B` decodes to a literal plus sign. */
  lemma DecodeEscapedPlus()
    ensures Decode("%2B") == "+"
  {
    assert EscapedByte("%2B") == Some(0x2B);
    assert "%2B"[3..] == [];
  }

  /** A truncated escape is malformed, so `decode` returns the raw text. */
  lemma DecodeMalformedFallsBack()
    ensures Decode("%E4%B8") == "%E4%B8"
    ensures Decode("100%") == "100%"
  {
    var s := "%E4%B8";
    assert EscapedByte(s) == Some(0xE4);
    assert LeadLength(0xE4) == 3;
    assert s[3..] == "%B8";
    assert EscapedByte("%B8") == Some(0xB8);
    assert "%B8"[3..] == [];
    assert Continuations("%B8", 2, LeadBits(0xE4, 3)) == None;
    var t := "100%";
    assert DecodeComponent("%") == None;
    assert t[1..] == "00%" && t[1..][1..] == "0%" && t[1..][1..][1..] == "%";
  }

  // ---------------------------------------------------------------------
  // Percent-encoding (ECMAScript `encodeURIComponent`), the inverse used to
  // state what `decode` undoes.

  /** The characters `encodeURIComponent` leaves as they are. */
  predicate Unreserved(c: char) {
    || ('a' <= c <= 'z') || ('A' <= c <= 'Z') || ('0' <= c <= '9')
    || c in "-_.!~*'()"
  }

  function HexDigit(d: nat): char
    requires d < 16
  {
    "0123456789ABCDEF"[d]
  }

  /** `%XY` for one byte. */
  function EscapeByte(b: nat): string
    requires b < 256
  {
    ['%', HexDigit(b / 16), HexDigit(b % 16)]
  }

  /** The UTF-8 encoding of a Unicode scalar value. */
  function Utf8(cp: int): (r: seq<nat>)
    requires 0 <= cp < 0x110000
    ensures forall i :: 0 <= i < |r| ==> r[i] < 256
  {
    if cp < 0x80 then [cp]
    else if cp < 0x800 then [0xC0 + cp / 64, 0x80 + cp % 64]
    else if cp < 0x10000 then [0xE0 + cp / 4096, 0x80 + (cp / 64) % 64, 0x80 + cp % 64]
    else [0xF0 + cp / 262144, 0x80 + (cp / 4096) % 64, 0x80 + (cp / 64) % 64, 0x80 + cp % 64]
  }

  function EscapeBytes(bs: seq<nat>): string
    requires forall i :: 0 <= i < |bs| ==> bs[i] < 256
  {
    if bs == [] then [] else EscapeByte(bs[0]) + EscapeBytes(bs[1..])
  }

  function EncodeChar(c: char): string {
    if Unreserved(c) then [c] else EscapeBytes(Utf8(c as int))
  }

  /** Characters with a meaning in a query string. */
  predicate Inert(c: char) {
    c != '=' && c != '&' && c != '+' && c != '?' && c != '#'
  }

  /** Characters of an escape sequence `%XY`. */
  predicate EscapeChar(c: char) {
    c == '%' || '0' <= c <= '9' || 'A' <= c <= 'F'
  }

  /** `encodeURIComponent(s)`. */
  function EncodeComponent(s: string): (r: string)
    ensures forall i :: 0 <= i < |r| ==> Inert(r[i])
  {
    if s == [] then []
    else
      var head := EncodeChar(s[0]);
      var tail := EncodeComponent(s[1..]);
      EncodeCharSafe(s[0]);
      assert forall i :: 0 <= i < |head + tail| ==> (head + tail)[i] in head || (head + tail)[i] in tail by {
        forall i | 0 <= i < |head + tail| ensures (head + tail)[i] in head || (head + tail)[i] in tail {
          if i < |head| { assert (head + tail)[i] == head[i]; }
          else { assert (head + tail)[i] == tail[i - |head|]; }
        }
      }
      head + tail
  }

  lemma EncodeCharSafe(c: char)
    ensures forall i :: 0 <= i < |EncodeChar(c)| ==> Inert(EncodeChar(c)[i])
  {
    if !Unreserved(c) {
      EscapeBytesSafe(Utf8(c as int));
    }
  }

  lemma {:induction false} EscapeBytesSafe(bs: seq<nat>)
    requires forall i :: 0 <= i < |bs| ==> bs[i] < 256
    ensures forall i :: 0 <= i < |EscapeBytes(bs)| ==> EscapeChar(EscapeBytes(bs)[i])
  {
    if bs != [] {
      EscapeBytesSafe(bs[1..]);
      var e := EscapeBytes(bs);
      assert e == EscapeByte(bs[0]) + EscapeBytes(bs[1..]);
      forall i | 0 <= i < |e| ensures EscapeChar(e[i]) {
        if i >= 3 {
          assert e[i] == EscapeBytes(bs[1..])[i - 3];
        }
      }
    }
  }

  lemma EscapeBytesTwo(a: nat, b: nat, rest: string)
    requires a < 256 && b < 256
    ensures EscapeBytes([a, b]) + rest == EscapeByte(a) + (EscapeByte(b) + rest)
  {
    assert [a, b][1..] == [b];
    assert EscapeBytes([b]) == EscapeByte(b) + EscapeBytes([b][1..]);
    assert [b][1..] == [];
    assert EscapeBytes([a, b]) == EscapeByte(a) + EscapeByte(b);
  }

  lemma EscapeBytesThree(a: nat, b: nat, c: nat, rest: string)
    requires a < 256 && b < 256 && c < 256
    ensures EscapeBytes([a, b, c]) + rest == EscapeByte(a) + (EscapeByte(b) + (EscapeByte(c) + rest))
  {
    assert [a, b, c][1..] == [b, c];
    var tail := EscapeBytes([b, c]);
    assert EscapeBytes([a, b, c]) == EscapeByte(a) + tail;
    EscapeBytesTwo(b, c, rest);
    assert (EscapeByte(a) + tail) + rest == EscapeByte(a) + (tail + rest);
  }

  lemma EscapeBytesFour(a: nat, b: nat, c: nat, d: nat, rest: string)
    requires a < 256 && b < 256 && c < 256 && d < 256
    ensures EscapeBytes([a, b, c, d]) + rest
            == EscapeByte(a) + (EscapeByte(b) + (EscapeByte(c) + (EscapeByte(d) + rest)))
  {
    assert [a, b, c, d][1..] == [b, c, d];
    var tail := EscapeBytes([b, c, d]);
    assert EscapeBytes([a, b, c, d]) == EscapeByte(a) + tail;
    EscapeBytesThree(b, c, d, rest);
    assert (EscapeByte(a) + tail) + rest == EscapeByte(a) + (tail + rest);
  }

  /** The UTF-8 bytes of a code point in each multi-byte range. */
  lemma Utf8Two(cp: int)
    requires 0x80 <= cp < 0x800
    ensures Utf8(cp) == [0xC0 + cp / 64, 0x80 + cp % 64]
    ensures 0xC0 + cp / 64 < 256
  {
  }

  lemma Utf8Three(cp: int)
    requires 0x800 <= cp < 0x10000
    ensures Utf8(cp) == [0xE0 + cp / 4096, 0x80 + (cp / 64) % 64, 0x80 + cp % 64]
    ensures 0xE0 + cp / 4096 < 256 && 0x80 + (cp / 64) % 64 < 256
  {
  }

  lemma Utf8Four(cp: int)
    requires 0x10000 <= cp < 0x110000
    ensures Utf8(cp) == [0xF0 + cp / 262144, 0x80 + (cp / 4096) % 64, 0x80 + (cp / 64) % 64, 0x80 + cp % 64]
    ensures 0xF0 + cp / 262144 < 256 && 0x80 + (cp / 4096) % 64 < 256 && 0x80 + (cp / 64) % 64 < 256
  {
  }

  lemma HexRoundTrip(d: nat)
    requires d < 16
    ensures IsHex(HexDigit(d)) && HexValue(HexDigit(d)) == d
  {
  }

  lemma EscapedByteRoundTrip(b: nat, rest: string)
    requires b < 256
    ensures EscapedByte(EscapeByte(b) + rest) == Some(b)
    ensures (EscapeByte(b) + rest)[3..] == rest
  {
    HexRoundTrip(b / 16);
    HexRoundTrip(b % 16);
  }

  /** Decoding the escaped UTF-8 bytes of one character yields that
      character, whatever text follows. */
  lemma DecodeEncodeChar(c: char, rest: string)
    ensures DecodeComponent(EncodeChar(c) + rest) == Cons(c, DecodeComponent(rest))
  {
    var cp := c as int;
    var s := EncodeChar(c) + rest;
    if Unreserved(c) {
      assert s[0] == c && c != '%' && s[1..] == rest;
    } else if cp < 0x80 {
      assert Utf8(cp) == [cp];
      assert EscapeBytes([cp]) == EscapeByte(cp) + EscapeBytes([]);
      assert EncodeChar(c) == EscapeByte(cp);
      EscapedByteRoundTrip(cp, rest);
      assert (cp as char) == c;
    } else if cp < 0x800 {
      DecodeTwoBytes(c, rest);
    } else if cp < 0x10000 {
      DecodeThreeBytes(c, rest);
    } else {
      DecodeFourBytes(c, rest);
    }
  }

  lemma DecodeTwoBytes(c: char, rest: string)
    requires !Unreserved(c) && 0x80 <= c as int < 0x800
    ensures DecodeComponent(EncodeChar(c) + rest) == Cons(c, DecodeComponent(rest))
  {
    var cp := c as int;
    var b0, b1 := 0xC0 + cp / 64, 0x80 + cp % 64;
    var t1 := EscapeByte(b1) + rest;
    EncodedTwo(c, rest);
    EscapedByteRoundTrip(b0, t1);
    assert LeadLength(b0) == 2 && LeadBits(b0, 2) == cp / 64;
    TwoByteTail(cp, rest);
    DecodeSequence(EscapeByte(b0) + t1, b0, 2, cp, rest);
  }

  lemma TwoByteTail(cp: int, rest: string)
    requires 0x80 <= cp < 0x800
    ensures Continuations(EscapeByte(0x80 + cp % 64) + rest, 1, cp / 64) == Some((cp, rest))
  {
    SplitSix(cp);
    ContinuationStep(0x80 + cp % 64, rest, 1, cp / 64);
  }

  lemma EncodedTwo(c: char, rest: string)
    requires !Unreserved(c) && 0x80 <= c as int < 0x800
    ensures var cp := c as int;
            EncodeChar(c) + rest == EscapeByte(0xC0 + cp / 64) + (EscapeByte(0x80 + cp % 64) + rest)
  {
    var cp := c as int;
    Utf8Two(cp);
    EscapeBytesTwo(0xC0 + cp / 64, 0x80 + cp % 64, rest);
  }

  lemma EncodedThree(c: char, rest: string)
    requires !Unreserved(c) && 0x800 <= c as int < 0x10000
    ensures var cp := c as int;
            EncodeChar(c) + rest
            == EscapeByte(0xE0 + cp / 4096) + (EscapeByte(0x80 + (cp / 64) % 64) + (EscapeByte(0x80 + cp % 64) + rest))
  {
    var cp := c as int;
    Utf8Three(cp);
    EscapeBytesThree(0xE0 + cp / 4096, 0x80 + (cp / 64) % 64, 0x80 + cp % 64, rest);
  }

  lemma EncodedFour(c: char, rest: string)
    requires !Unreserved(c) && 0x10000 <= c as int
    ensures var cp := c as int;
            EncodeChar(c) + rest
            == EscapeByte(0xF0 + cp / 262144) + (EscapeByte(0x80 + (cp / 4096) % 64)
               + (EscapeByte(0x80 + (cp / 64) % 64) + (EscapeByte(0x80 + cp % 64) + rest)))
  {
    var cp := c as int;
    Utf8Four(cp);
    EscapeBytesFour(0xF0 + cp / 262144, 0x80 + (cp / 4096) % 64, 0x80 + (cp / 64) % 64, 0x80 + cp % 64, rest);
  }

  lemma SplitSix(x: int)
    requires x >= 0
    ensures (x / 64) * 64 + x % 64 == x
    ensures x / 4096 == (x / 64) / 64
    ensures x / 262144 == (x / 4096) / 64
  {
  }

  /** One continuation byte read off the front of `s`. */
  lemma ContinuationStep(b: nat, rest: string, count: nat, acc: int)
    requires 0x80 <= b < 0xC0 && count >= 1
    ensures Continuations(EscapeByte(b) + rest, count, acc)
            == Continuations(rest, count - 1, acc * 64 + (b - 0x80))
  {
    EscapedByteRoundTrip(b, rest);
  }

  /** A multi-byte escape sequence decodes to the code point it spells. */
  lemma DecodeSequence(s: string, b: nat, n: nat, cp: int, rest: string)
    requires EscapedByte(s) == Some(b) && b >= 0x80 && LeadLength(b) == n && n > 0
    requires Continuations(s[3..], n - 1, LeadBits(b, n)) == Some((cp, rest))
    requires ValidCodePoint(cp, n)
    ensures DecodeComponent(s) == Cons(cp as char, DecodeComponent(rest))
  {
  }

  /** The continuation bytes of a three-byte encoding complete the code
      point that its lead byte starts. */
  lemma ThreeByteTail(cp: int, rest: string)
    requires 0x800 <= cp < 0x10000
    ensures LeadLength(0xE0 + cp / 4096) == 3 && LeadBits(0xE0 + cp / 4096, 3) == cp / 4096
    ensures var b1, b2 := 0x80 + (cp / 64) % 64, 0x80 + cp % 64;
            Continuations(EscapeByte(b1) + (EscapeByte(b2) + rest), 2, cp / 4096) == Some((cp, rest))
  {
    SplitSix(cp);
    SplitSix(cp / 64);
    var b1, b2 := 0x80 + (cp / 64) % 64, 0x80 + cp % 64;
    ContinuationStep(b1, EscapeByte(b2) + rest, 2, cp / 4096);
    ContinuationStep(b2, rest, 1, cp / 64);
  }

  /** The lead byte of a four-byte encoding announces four bytes and
      carries the top three bits of the code point. */
  lemma FourByteLead(cp: int)
    requires 0x10000 <= cp < 0x110000
    ensures LeadLength(0xF0 + cp / 262144) == 4 && LeadBits(0xF0 + cp / 262144, 4) == cp / 262144
  {
    assert 0 <= cp / 262144 < 8;
  }

  /** The continuation bytes of a four-byte encoding complete the code
      point that its lead byte starts. */
  lemma FourByteTail(cp: int, rest: string)
    requires 0x10000 <= cp < 0x110000
    ensures var b1, b2, b3 := 0x80 + (cp / 4096) % 64, 0x80 + (cp / 64) % 64, 0x80 + cp % 64;
            Continuations(EscapeByte(b1) + (EscapeByte(b2) + (EscapeByte(b3) + rest)), 3, cp / 262144)
            == Some((cp, rest))
  {
    var x1, x2, x3 := cp / 64, cp / 4096, cp / 262144;
    assert x3 == x2 / 64 && x2 == x1 / 64 by {
      SplitSix(cp);
    }
    ThreeContinuations(x3, x2, x1, cp, rest);
  }

  /** Three continuation bytes, each carrying the next six bits, complete
      the code point whose high bits were read from the lead byte. */
  lemma ThreeContinuations(x3: nat, x2: nat, x1: nat, cp: nat, rest: string)
    requires x3 == x2 / 64 && x2 == x1 / 64 && x1 == cp / 64
    ensures Continuations(EscapeByte(0x80 + x2 % 64) + (EscapeByte(0x80 + x1 % 64) + (EscapeByte(0x80 + cp % 64) + rest)), 3, x3)
            == Some((cp, rest))
  {
    var t3 := EscapeByte(0x80 + cp % 64) + rest;
    var t2 := EscapeByte(0x80 + x1 % 64) + t3;
    ContinuationSix(cp, rest, 1);
    ContinuationSix(x1, t3, 2);
    ContinuationSix(x2, t2, 3);
  }

  /** Reading the continuation byte that carries the low six bits of `x`
      completes `x` from its higher bits. */
  lemma ContinuationSix(x: nat, rest: string, count: nat)
    requires count >= 1
    ensures Continuations(EscapeByte(0x80 + x % 64) + rest, count, x / 64) == Continuations(rest, count - 1, x)
  {
    var b := 0x80 + x % 64;
    ContinuationStep(b, rest, count, x / 64);
    assert (x / 64) * 64 + (b - 0x80) == x;
  }

  lemma DecodeThreeBytes(c: char, rest: string)
    requires !Unreserved(c) && 0x800 <= c as int < 0x10000
    ensures DecodeComponent(EncodeChar(c) + rest) == Cons(c, DecodeComponent(rest))
  {
    var cp := c as int;
    var b0, b1, b2 := 0xE0 + cp / 4096, 0x80 + (cp / 64) % 64, 0x80 + cp % 64;
    var s := EscapeByte(b0) + (EscapeByte(b1) + (EscapeByte(b2) + rest));
    EncodedThree(c, rest);
    DecodeEscapedThree(cp, b0, b1, b2, rest, s);
  }

  /** The three escaped bytes of a code point in the three-byte range decode
      back to it. */
  lemma DecodeEscapedThree(cp: int, b0: nat, b1: nat, b2: nat, rest: string, s: string)
    requires 0x800 <= cp < 0x10000 && !(0xD800 <= cp < 0xE000)
    requires b0 == 0xE0 + cp / 4096 && b1 == 0x80 + (cp / 64) % 64 && b2 == 0x80 + cp % 64
    requires s == EscapeByte(b0) + (EscapeByte(b1) + (EscapeByte(b2) + rest))
    ensures DecodeComponent(s) == Cons(cp as char, DecodeComponent(rest))
  {
    var t1 := EscapeByte(b1) + (EscapeByte(b2) + rest);
    EscapedByteRoundTrip(b0, t1);
    ThreeByteTail(cp, rest);
    DecodeSequence(s, b0, 3, cp, rest);
  }

  lemma DecodeFourBytes(c: char, rest: string)
    requires !Unreserved(c) && 0x10000 <= c as int
    ensures DecodeComponent(EncodeChar(c) + rest) == Cons(c, DecodeComponent(rest))
  {
    var cp := c as int;
    var b0, b1, b2, b3 := 0xF0 + cp / 262144, 0x80 + (cp / 4096) % 64, 0x80 + (cp / 64) % 64, 0x80 + cp % 64;
    var t1 := EscapeByte(b1) + (EscapeByte(b2) + (EscapeByte(b3) + rest));
    var s := EscapeByte(b0) + t1;
    EncodedFour(c, rest);
    EscapedByteRoundTrip(b0, t1);
    FourByteLead(cp);
    FourByteTail(cp, rest);
    DecodeSequence(s, b0, 4, cp, rest);
  }

  /** `decode` undoes `encodeURIComponent` for every string. */
  lemma {:induction false} DecodeEncode(s: string)
    ensures DecodeComponent(EncodeComponent(s)) == Some(s)
    ensures Decode(EncodeComponent(s)) == s
  {
    if s != [] {
      DecodeEncode(s[1..]);
      DecodeEncodeChar(s[0], EncodeComponent(s[1..]));
      assert [s[0]] + s[1..] == s;
    }
  }

  // ---------------------------------------------------------------------
  // parseQuery

  /** `string | null` */
  datatype QueryValue = QStr(s: string) | QNull

  /** A query entry: one value, or the array that repeated keys build. */
  datatype QueryEntry = One(v: QueryValue) | Many(vs: seq<QueryValue>)

  type Query = map<string, QueryEntry>

  /** One `&`-separated segment: `+` becomes a space, then the key and value
      are split at the first `=` and decoded separately; with no `=` the value
      is `null`. The value is `null` exactly when the segment holds no `=`. */
  function ParseSegment(segment: string): (r: (string, QueryValue))
    ensures r.1.QNull? <==> '=' !in segment
  {
    var p := ReplaceChar(segment, '+', ' ');
    var eq := Seqs.IndexOf(p, '=');
    assert '=' in p <==> '=' in segment by {
      if '=' in p {
        var i :| 0 <= i < |p| && p[i] == '=';
        assert segment[i] == '=';
      }
      if '=' in segment {
        var i :| 0 <= i < |segment| && segment[i] == '=';
        assert p[i] == '=';
      }
    }
    if eq < 0 then (Decode(p), QNull)
    else (Decode(p[..eq]), QStr(Decode(p[eq + 1..])))
  }

  /** The values recorded under `k`, in order. */
  function ValuesOf(q: Query, k: string): (r: seq<QueryValue>)
    ensures k in q ==> |r| == EntryCount(q[k])
  {
    if k !in q then []
    else match q[k]
      case One(v) => [v]
      case Many(vs) => vs
  }

  /** The values the pairs give to key `k`, in order. */
  function ValuesFor(pairs: seq<(string, QueryValue)>, k: string): seq<QueryValue> {
    if pairs == [] then []
    else
      var last := pairs[|pairs| - 1];
      ValuesFor(pairs[..|pairs| - 1], k) + (if last.0 == k then [last.1] else [])
  }

  /** Arrays are only built by a repeated key, so they hold two or more values. */
  predicate WellShaped(q: Query) {
    forall k :: k in q && q[k].Many? ==> |q[k].vs| >= 2
  }

  /** Records one more value: a new key stores it as a scalar, the second
      occurrence turns the scalar into `[first, second]`, later ones append. */
  function AddValue(q: Query, k: string, v: QueryValue): (r: Query)
    ensures r.Keys == q.Keys + {k}
    ensures forall j :: ValuesOf(r, j) == ValuesOf(q, j) + (if j == k then [v] else [])
    ensures WellShaped(q) ==> WellShaped(r)
  {
    if k in q then
      match q[k]
      case One(first) => q[k := Many([first, v])]
      case Many(vs) => q[k := Many(vs + [v])]
    else q[k := One(v)]
  }

  /** Some pair has key `k`. */
  predicate HasKey(pairs: seq<(string, QueryValue)>, k: string) {
    exists i :: 0 <= i < |pairs| && pairs[i].0 == k
  }

  /** Folds the pairs into a query object, left to right: the keys are the
      keys of the pairs, each holding its values in order. */
  function Accumulate(pairs: seq<(string, QueryValue)>): (q: Query)
    ensures WellShaped(q)
    ensures forall k :: k in q <==> HasKey(pairs, k)
    ensures forall k :: ValuesOf(q, k) == ValuesFor(pairs, k)
  {
    if pairs == [] then map[]
    else
      var prefix := pairs[..|pairs| - 1];
      var last := pairs[|pairs| - 1];
      var r := AddValue(Accumulate(prefix), last.0, last.1);
      HasKeySnoc(pairs);
      r
  }

  /** The keys of a non-empty list of pairs: those of all but the last pair,
      and the last pair's key. */
  lemma HasKeySnoc(pairs: seq<(string, QueryValue)>)
    requires pairs != []
    ensures forall k :: HasKey(pairs, k) <==> HasKey(pairs[..|pairs| - 1], k) || k == pairs[|pairs| - 1].0
  {
    var prefix, last := pairs[..|pairs| - 1], pairs[|pairs| - 1];
    forall k ensures HasKey(pairs, k) <==> HasKey(prefix, k) || k == last.0 {
      if HasKey(prefix, k) {
        var i :| 0 <= i < |prefix| && prefix[i].0 == k;
        assert pairs[i] == prefix[i];
      }
      if HasKey(pairs, k) && k != last.0 {
        var i :| 0 <= i < |pairs| && pairs[i].0 == k;
        assert prefix[i] == pairs[i];
      }
    }
  }

  /** The query text after the optional leading `?`. */
  function Body(search: string): string {
    if |search| > 0 && search[0] == '?' then search[1..] else search
  }

  /** The key/value pair of each `&`-separated segment, in order. */
  function Pairs(search: string): (ps: seq<(string, QueryValue)>)
    ensures |ps| == Count(Body(search), '&') + 1
  {
    var segs := Split(Body(search), '&');
    seq(|segs|, i requires 0 <= i < |segs| => ParseSegment(segs[i]))
  }

  /** `parseQuery(search)`: `''` and `'?'` give `{}`; otherwise the keys are
      those of the `&`-separated segments, each holding the values its
      segments give, in order, as a scalar when there is one and as an array
      of two or more otherwise. */
  function ParseQuery(search: string): (r: Query)
    ensures search == "" || search == "?" ==> r == map[]
    ensures WellShaped(r)
    ensures search != "" && search != "?" ==>
              && (forall k :: k in r <==> HasKey(Pairs(search), k))
              && (forall k :: ValuesOf(r, k) == ValuesFor(Pairs(search), k))
  {
    if search == "" || search == "?" then map[]
    else Accumulate(Pairs(search))
  }

  /** Both the empty string and a lone `?` give the empty query. */
  lemma ParseQueryEmpty()
    ensures ParseQuery("") == map[]
    ensures ParseQuery("?") == map[]
  {
  }

  /** One leading `?` is optional. */
  lemma ParseQueryLeadingMark(s: string)
    requires s == [] || s[0] != '?'
    ensures ParseQuery("?" + s) == ParseQuery(s)
  {
    if s != [] {
      assert ("?" + s)[1..] == s;
      assert Body("?" + s) == s;
    }
  }

  /** A literal `+` reads as a space. */
  lemma PlusIsSpace()
    ensures ParseSegment("a+b") == ("a b", QNull)
  {
    var p := ReplaceChar("a+b", '+', ' ');
    assert p == "a b";
    assert Seqs.IndexOf(p, '=') == -1;
    DecodePlain("a b");
  }

  /** The first `=` of `k + "=" + v` is the one after `k`. */
  lemma FirstEquals(k: string, v: string)
    requires '=' !in k
    ensures var p := k + "=" + v;
            Seqs.IndexOf(p, '=') == |k| && p[..|k|] == k && p[|k| + 1..] == v
  {
    var p := k + "=" + v;
    assert p[|k|] == '=';
    assert forall i :: 0 <= i < |k| ==> p[i] == k[i];
  }

  /** `+` becomes a space on both sides of the first `=` alike. */
  lemma ReplacePlusAroundEquals(k: string, v: string)
    ensures ReplaceChar(k + "=" + v, '+', ' ')
            == ReplaceChar(k, '+', ' ') + "=" + ReplaceChar(v, '+', ' ')
  {
    Text.ReplaceCharConcat(k + "=", v, '+', ' ');
    Text.ReplaceCharConcat(k, "=", '+', ' ');
    assert ReplaceChar("=", '+', ' ') == "=";
  }

  /** Without `=` the key is the whole segment, with `+` read as a space and
      then decoded, and the value is `null`. Otherwise the split is at the
      first `=`, so later `=` signs belong to the value, and each side has
      its `+` read as a space and is decoded on its own. */
  lemma ParseSegmentSplit(k: string, v: string)
    requires '=' !in k
    ensures ParseSegment(k) == (Decode(ReplaceChar(k, '+', ' ')), QNull)
    ensures ParseSegment(k + "=" + v)
            == (Decode(ReplaceChar(k, '+', ' ')), QStr(Decode(ReplaceChar(v, '+', ' '))))
  {
    var rk, rv := ReplaceChar(k, '+', ' '), ReplaceChar(v, '+', ' ');
    assert '=' !in rk by {
      forall i | 0 <= i < |rk| ensures rk[i] != '=' {
        assert k[i] != '=';
      }
    }
    ReplacePlusAroundEquals(k, v);
    FirstEquals(rk, rv);
  }

  /** With plain text on both sides, the value keeps any later `=`. */
  lemma ParseSegmentExample()
    ensures ParseSegment("a=b=c") == ("a", QStr("b=c"))
  {
    assert "a=b=c" == "a" + "=" + "b=c";
    ParseSegmentSplit("a", "b=c");
    NoPlusUnchanged("a");
    NoPlusUnchanged("b=c");
    DecodePlain("a");
    DecodePlain("b=c");
  }

  lemma NoPlusUnchanged(s: string)
    requires '+' !in s
    ensures ReplaceChar(s, '+', ' ') == s
  {
  }

  // ---------------------------------------------------------------------
  // Counting values

  /** Number of values in one entry. */
  function EntryCount(e: QueryEntry): nat {
    match e
    case One(_) => 1
    case Many(vs) => |vs|
  }

  /** Total number of values in a query, a scalar counting 1 and an array
      its length. */
  ghost function TotalValues(q: Query): nat
    decreases |q|
  {
    if |q| == 0 then 0
    else
      var k := SomeKey(q);
      EntryCount(q[k]) + TotalValues(q - {k})
  }

  ghost function SomeKey(q: Query): (k: string)
    requires |q| > 0
    ensures k in q
  {
    var k :| k in q; k
  }

  lemma {:induction false} TotalValuesPick(q: Query, k: string)
    requires k in q
    ensures TotalValues(q) == EntryCount(q[k]) + TotalValues(q - {k})
    decreases |q|
  {
    var j := SomeKey(q);
    if j != k {
      var qj := q - {j};
      var qk := q - {k};
      var rest := qj - {k};
      assert TotalValues(q) == EntryCount(q[j]) + TotalValues(qj);
      assert TotalValues(qj) == EntryCount(q[k]) + TotalValues(rest) by {
        assert k in qj && qj[k] == q[k];
        TotalValuesPick(qj, k);
      }
      assert TotalValues(qk) == EntryCount(q[j]) + TotalValues(rest) by {
        assert j in qk && qk[j] == q[j];
        TotalValuesPick(qk, j);
        assert qk - {j} == rest;
      }
    }
  }

  lemma TotalValuesAdd(q: Query, k: string, v: QueryValue)
    ensures TotalValues(AddValue(q, k, v)) == TotalValues(q) + 1
  {
    var r := AddValue(q, k, v);
    assert EntryCount(r[k]) == (if k in q then EntryCount(q[k]) else 0) + 1 by {
      assert ValuesOf(r, k) == ValuesOf(q, k) + [v];
    }
    TotalValuesReplace(q, r, k);
  }

  /** Changing one entry changes the total by the change in that entry. */
  lemma TotalValuesReplace(q: Query, r: Query, k: string)
    requires k in r && r - {k} == q - {k}
    ensures TotalValues(r) == TotalValues(q) - (if k in q then EntryCount(q[k]) else 0) + EntryCount(r[k])
  {
    TotalValuesPick(r, k);
    if k in q {
      TotalValuesPick(q, k);
    } else {
      assert q - {k} == q;
    }
  }

  lemma {:induction false} TotalValuesAccumulate(pairs: seq<(string, QueryValue)>)
    ensures TotalValues(Accumulate(pairs)) == |pairs|
  {
    if pairs != [] {
      var prefix := pairs[..|pairs| - 1];
      TotalValuesAccumulate(prefix);
      TotalValuesAdd(Accumulate(prefix), pairs[|pairs| - 1].0, pairs[|pairs| - 1].1);
    }
  }

  /** Every `&`-separated segment contributes exactly one value (an empty
      segment contributes the key `''` with value `null`). */
  lemma ParseQueryCount(search: string)
    requires search != "" && search != "?"
    ensures TotalValues(ParseQuery(search)) == Count(Body(search), '&') + 1
  {
    TotalValuesAccumulate(Pairs(search));
  }

  // ---------------------------------------------------------------------
  // Round trip against standard encoding

  /** One pair written with `encodeURIComponent`; a `null` value writes the
      bare key. */
  function EncodePair(p: (string, QueryValue)): (r: string)
    ensures forall i :: 0 <= i < |r| ==> r[i] != '&' && r[i] != '?'
    ensures p.1.QStr? || p.0 != [] ==> |r| > 0
  {
    match p.1
    case QNull =>
      assert p.0 != [] ==> |EncodeComponent(p.0)| > 0 by {
        if p.0 != [] { EncodeNonEmpty(p.0); }
      }
      EncodeComponent(p.0)
    case QStr(v) =>
      var r := EncodeComponent(p.0) + "=" + EncodeComponent(v);
      assert forall i :: 0 <= i < |r| ==> r[i] != '&' && r[i] != '?' by {
        forall i | 0 <= i < |r| ensures r[i] != '&' && r[i] != '?' {
          var n := |EncodeComponent(p.0)|;
          if i < n { assert r[i] == EncodeComponent(p.0)[i]; }
          else if i > n { assert r[i] == EncodeComponent(v)[i - n - 1]; }
        }
      }
      r
  }

  /** The encoded pairs, one piece each. */
  function EncodePieces(pairs: seq<(string, QueryValue)>): (r: seq<string>)
    ensures |r| == |pairs|
    ensures forall i :: 0 <= i < |pairs| ==> r[i] == EncodePair(pairs[i])
  {
    seq(|pairs|, i requires 0 <= i < |pairs| => EncodePair(pairs[i]))
  }

  /** A list of pairs written as a query string. */
  function EncodePairs(pairs: seq<(string, QueryValue)>): string {
    Join(EncodePieces(pairs), '&')
  }

  lemma ParseEncodedPair(p: (string, QueryValue))
    ensures ParseSegment(EncodePair(p)) == p
  {
    var ek := EncodeComponent(p.0);
    DecodeEncode(p.0);
    NoPlusUnchanged(ek);
    match p.1
    case QNull =>
      ParseSegmentSplit(ek, "");
    case QStr(v) =>
      DecodeEncode(v);
      NoPlusUnchanged(EncodeComponent(v));
      ParseSegmentSplit(ek, EncodeComponent(v));
  }

  lemma EncodeNonEmpty(s: string)
    requires s != []
    ensures |EncodeComponent(s)| > 0
  {
    assert |EncodeChar(s[0])| > 0;
  }

  /** A join of pieces is empty only for one empty piece, and starts with
      `?` only if the first piece does. */
  lemma JoinShape(pieces: seq<string>)
    requires |pieces| >= 1
    ensures var s := Join(pieces, '&');
            && (|pieces| > 1 || |pieces[0]| > 0 ==> |s| > 0)
            && (|s| > 0 && |pieces[0]| == 0 ==> s[0] == '&')
            && (|pieces[0]| > 0 ==> s[0] == pieces[0][0])
  {
    if |pieces| > 1 {
      var s := Join(pieces, '&');
      assert s == pieces[0] + ['&'] + Join(pieces[1..], '&');
      if |pieces[0]| > 0 { assert s[0] == pieces[0][0]; }
    }
  }

  /** An encoded, non-degenerate list of pairs is neither `''` nor `'?'`
      and has no leading `?`. */
  lemma EncodedShape(pairs: seq<(string, QueryValue)>)
    requires pairs != [] && pairs != [("", QNull)]
    ensures var s := EncodePairs(pairs);
            s != "" && s != "?" && Body(s) == s
  {
    var pieces := EncodePieces(pairs);
    JoinShape(pieces);
    if |pieces| == 1 {
      assert pairs == [pairs[0]];
      assert pairs[0].1.QStr? || pairs[0].0 != [];
    }
    if |pieces[0]| > 0 {
      assert pieces[0][0] != '?';
    }
  }

  /** The segments of an encoded list are the encoded pairs. */
  lemma PairsOfEncoded(pairs: seq<(string, QueryValue)>)
    requires pairs != []
    requires Body(EncodePairs(pairs)) == EncodePairs(pairs)
    ensures Pairs(EncodePairs(pairs)) == pairs
  {
    var pieces := EncodePieces(pairs);
    assert forall i :: 0 <= i < |pieces| ==> '&' !in pieces[i] by {
      forall i | 0 <= i < |pieces| ensures '&' !in pieces[i] {
        assert pieces[i] == EncodePair(pairs[i]);
      }
    }
    SplitJoin(pieces, '&');
    var ps := Pairs(EncodePairs(pairs));
    forall i | 0 <= i < |pairs| ensures ps[i] == pairs[i] {
      ParseEncodedPair(pairs[i]);
    }
  }

  /** `parseQuery` reads back any list of pairs written with
      `encodeURIComponent`, grouping repeated keys in order; the one
      exception is a single empty key with a `null` value, which writes the
      empty string. */
  lemma ParseQueryRoundTrip(pairs: seq<(string, QueryValue)>)
    requires pairs != [("", QNull)]
    ensures ParseQuery(EncodePairs(pairs)) == Accumulate(pairs)
  {
    if pairs != [] {
      EncodedShape(pairs);
      PairsOfEncoded(pairs);
    }
  }

  /** The worked example: `a=1&b=2&b=3&c` gives
      `{a: '1', b: ['2', '3'], c: null}`. */
  lemma ParseQueryExample()
    ensures ParseQuery("a=1&b=2&b=3&c")
            == map["a" := One(QStr("1")), "b" := Many([QStr("2"), QStr("3")]), "c" := One(QNull)]
  {
    var pairs := [("a", QStr("1")), ("b", QStr("2")), ("b", QStr("3")), ("c", QNull)];
    EncodeExample(pairs);
    ParseQueryRoundTrip(pairs);
    AccumulateExample(pairs);
  }

  /** Text made of unreserved characters is written as it is. */
  lemma {:induction false} EncodeUnreserved(s: string)
    requires forall i :: 0 <= i < |s| ==> Unreserved(s[i])
    ensures EncodeComponent(s) == s
  {
    if s != [] {
      EncodeUnreserved(s[1..]);
      assert [s[0]] + s[1..] == s;
    }
  }

  predicate AllUnreserved(s: string) {
    forall i :: 0 <= i < |s| ==> Unreserved(s[i])
  }

  lemma EncodePlainPair(k: string, v: QueryValue)
    requires AllUnreserved(k) && (v.QStr? ==> AllUnreserved(v.s))
    ensures EncodePair((k, v)) == if v.QStr? then k + "=" + v.s else k
  {
    EncodeUnreserved(k);
    if v.QStr? { EncodeUnreserved(v.s); }
  }

  lemma EncodeExample(pairs: seq<(string, QueryValue)>)
    requires pairs == [("a", QStr("1")), ("b", QStr("2")), ("b", QStr("3")), ("c", QNull)]
    ensures EncodePairs(pairs) == "a=1&b=2&b=3&c"
  {
    PiecesExample(pairs);
    JoinExample(EncodePieces(pairs));
  }

  lemma PiecesExample(pairs: seq<(string, QueryValue)>)
    requires pairs == [("a", QStr("1")), ("b", QStr("2")), ("b", QStr("3")), ("c", QNull)]
    ensures var pieces := EncodePieces(pairs);
            |pieces| == 4 && pieces[0] == "a=1" && pieces[1] == "b=2" && pieces[2] == "b=3" && pieces[3] == "c"
  {
    var pieces := EncodePieces(pairs);
    assert pieces[0] == "a=1" by { EncodePlainPair("a", QStr("1")); }
    assert pieces[1] == "b=2" by { EncodePlainPair("b", QStr("2")); }
    assert pieces[2] == "b=3" by { EncodePlainPair("b", QStr("3")); }
    assert pieces[3] == "c" by { EncodePlainPair("c", QNull); }
  }

  lemma JoinExample(pieces: seq<string>)
    requires |pieces| == 4
    requires pieces[0] == "a=1" && pieces[1] == "b=2" && pieces[2] == "b=3" && pieces[3] == "c"
    ensures Join(pieces, '&') == "a=1&b=2&b=3&c"
  {
    var p1, p2, p3 := pieces[1..], pieces[2..], pieces[3..];
    assert p1[1..] == p2 && p2[1..] == p3;
    assert Join(p3, '&') == "c";
    assert Join(p2, '&') == "b=3&c";
    assert Join(p1, '&') == "b=2&b=3&c";
  }

  /** Appending a pair adds its value. */
  lemma AccumulateSnoc(pairs: seq<(string, QueryValue)>, p: (string, QueryValue))
    ensures Accumulate(pairs + [p]) == AddValue(Accumulate(pairs), p.0, p.1)
  {
    assert (pairs + [p])[..|pairs|] == pairs;
  }

  lemma AccumulateFour(p1: (string, QueryValue), p2: (string, QueryValue),
                       p3: (string, QueryValue), p4: (string, QueryValue))
    ensures Accumulate([p1, p2, p3, p4])
            == AddValue(AddValue(AddValue(AddValue(map[], p1.0, p1.1), p2.0, p2.1), p3.0, p3.1), p4.0, p4.1)
  {
    var q1 := AddValue(map[], p1.0, p1.1);
    var q2 := AddValue(q1, p2.0, p2.1);
    var q3 := AddValue(q2, p3.0, p3.1);
    assert Accumulate([p1]) == q1 by {
      AccumulateSnoc([], p1);
      assert [] + [p1] == [p1];
    }
    assert Accumulate([p1, p2]) == q2 by {
      AccumulateSnoc([p1], p2);
      assert [p1] + [p2] == [p1, p2];
    }
    assert Accumulate([p1, p2, p3]) == q3 by {
      AccumulateSnoc([p1, p2], p3);
      assert [p1, p2] + [p3] == [p1, p2, p3];
    }
    AccumulateSnoc([p1, p2, p3], p4);
    assert [p1, p2, p3] + [p4] == [p1, p2, p3, p4];
  }

  lemma AccumulateExample(pairs: seq<(string, QueryValue)>)
    requires pairs == [("a", QStr("1")), ("b", QStr("2")), ("b", QStr("3")), ("c", QNull)]
    ensures Accumulate(pairs)
            == map["a" := One(QStr("1")), "b" := Many([QStr("2"), QStr("3")]), "c" := One(QNull)]
  {
    AccumulateFour(pairs[0], pairs[1], pairs[2], pairs[3]);
    assert pairs == [pairs[0], pairs[1], pairs[2], pairs[3]];
    AddValueExample();
  }

  lemma AddValueExample()
    ensures AddValue(AddValue(AddValue(AddValue(map[], "a", QStr("1")), "b", QStr("2")), "b", QStr("3")), "c", QNull)
            == map["a" := One(QStr("1")), "b" := Many([QStr("2"), QStr("3")]), "c" := One(QNull)]
  {
    var q1 := AddValue(map[], "a", QStr("1"));
    assert q1 == map["a" := One(QStr("1"))];
    var q2 := AddValue(q1, "b", QStr("2"));
    assert q2 == q1["b" := One(QStr("2"))];
    var q3 := AddValue(q2, "b", QStr("3"));
    assert q3 == q2["b" := Many([QStr("2"), QStr("3")])];
    var q4 := AddValue(q3, "c", QNull);
    assert q4 == q3["c" := One(QNull)];
  }
}

=== FILE: registry.dfy ===
/** The public surface of `CreateRouterMatcher`: construction from the
    initial routes, `addRoute`, `removeRoute`, `resetMatchers` and the
    three getters. Each call that may throw returns the state it leaves
    behind together with the error, because a JavaScript exception does not
    undo what was already done. */
module Registry {
  import opened Wrappers
  import opened Seqs
  import opened JsMaps
  import opened Shared
  import opened MatcherTree
  import opened Matcher

  /** The fields of a `CreateRouterMatcher` instance; the matcher objects
      themselves live in the arena. */
  datatype RouterMatcher = RouterMatcher(
    arena: Arena,
    index: Index,
    basename: string,
    initRoutes: seq<RouteRecord>)

  predicate Valid(m: RouterMatcher) {
    Wf(m.arena) && ValidIndex(m.arena, m.index)
  }

  /** The state after a call and the error it threw, if any. */
  datatype Step = Step(state: RouterMatcher, thrown: Option<JsError>)

  // ---------------------------------------------------------------------
  // Getters

  /** `getRecordMatcher(name)`: the map entry of `name`, which is a listed
      matcher carrying that name. */
  function GetRecordMatcher(m: RouterMatcher, name: string): (r: Option<Id>)
    requires Valid(m)
    ensures r.Some? <==> name in m.index.names.vals
    ensures r.Some? ==> r.value in m.index.matchers && m.arena.nodes[r.value].record.name == Some(name)
  {
    m.index.names.Get(name)
  }

  /** `getRoutes()`: the listed matchers, all of them named and none twice. */
  function GetRoutes(m: RouterMatcher): (r: seq<Id>)
    requires Valid(m)
    ensures Distinct(r)
    ensures forall i :: 0 <= i < |r| ==> r[i] in m.arena.nodes && Truthy(m.arena.nodes[r[i]].record.name)
  {
    m.index.matchers
  }

  /** `getAllRouteNames()`: the keys of the name map in insertion order;
      exactly the names `getRecordMatcher` resolves, none twice. */
  function GetAllRouteNames(m: RouterMatcher): (r: seq<string>)
    requires Valid(m)
    ensures Distinct(r)
    ensures forall k :: k in r <==> GetRecordMatcher(m, k).Some?
  {
    m.index.names.order
  }

  /** Every listed name belongs to a listed matcher; an unnamed matcher can
      therefore never contribute a name. */
  lemma RouteNamesAreListed(m: RouterMatcher, k: string)
    requires Valid(m) && k in GetAllRouteNames(m)
    ensures exists i :: 0 <= i < |GetRoutes(m)| && m.arena.nodes[GetRoutes(m)[i]].record.name == Some(k)
  {
    var id := GetRecordMatcher(m, k).value;
    var i :| 0 <= i < |m.index.matchers| && m.index.matchers[i] == id;
    assert m.arena.nodes[GetRoutes(m)[i]].record.name == Some(k);
  }

  // ---------------------------------------------------------------------
  // addRoute

  /** Public `addRoute(record)`: no parent and no `originalRecord`. It throws
      (a `TypeError`) exactly when some definition in the tree cannot be
      normalised, and only ever lists matchers it created or that were
      listed before. */
  function AddRoute(m: RouterMatcher, record: RouteRecord): (r: Step)
    requires Valid(m)
    ensures Valid(r.state) && r.state.basename == m.basename && r.state.initRoutes == m.initRoutes
    ensures Extends(m.arena, r.state.arena)
    ensures ListsOnly(m.index, m.arena.next, r.state.index)
    ensures r.thrown.None? <==> AllNormalizable(record)
    ensures r.thrown.Some? ==> r.thrown.value == TypeError
  {
    var o := AddRouteAt(m.arena, m.index, record, None, None);
    AddRouteAtSucceeds(m.arena, m.index, record, None, None);
    Step(m.(arena := o.arena, index := o.index), if o.result.Failure? then Some(o.result.error) else None)
  }

  /** When `addRoute` does not throw, a named record's matcher is the one
      its name resolves to and is listed; an unnamed one is not listed. */
  lemma AddRouteRegisters(m: RouterMatcher, record: RouteRecord)
    requires Valid(m)
    ensures var r := AddRoute(m, record);
            && (r.thrown.None? && Truthy(record.name) ==>
                  && GetRecordMatcher(r.state, record.name.value) == Some(m.arena.next)
                  && m.arena.next in GetRoutes(r.state))
            && (r.thrown.None? && !Truthy(record.name) ==> m.arena.next !in GetRoutes(r.state))
  {
    if Normalizable(record) {
      AddRouteAtCreates(m.arena, m.index, record, None, None);
    }
  }

  /** A named record evicts the previous holder of its name and all that
      holder's descendants, even when a child throws afterwards. */
  lemma AddRouteEvicts(m: RouterMatcher, record: RouteRecord)
    requires Valid(m)
    requires Normalizable(record) && Truthy(record.name) && record.name.value in m.index.names.vals
    ensures forall x :: x in Subtree(m.arena, m.index.names.vals[record.name.value]) ==>
              x !in GetRoutes(AddRoute(m, record).state)
  {
    AddRouteAtEvicts(m.arena, m.index, record, None);
  }

  /** `routes.forEach(route => this.addRoute(route))`: the first throw ends
      the loop. */
  function AddAll(m: RouterMatcher, routes: seq<RouteRecord>): (r: Step)
    requires Valid(m)
    ensures Valid(r.state) && r.state.basename == m.basename && r.state.initRoutes == m.initRoutes
    ensures Extends(m.arena, r.state.arena)
    ensures ListsOnly(m.index, m.arena.next, r.state.index)
    decreases |routes|
  {
    if routes == [] then
      ExtendsRefl(m.arena);
      Step(m, None)
    else
      var s := AddRoute(m, routes[0]);
      if s.thrown.Some? then s
      else
        var t := AddAll(s.state, routes[1..]);
        ExtendsTrans(m.arena, s.state.arena, t.state.arena);
        assert ListsOnly(m.index, m.arena.next, t.state.index) by {
          forall x | x in t.state.index.matchers && x !in m.index.matchers ensures x >= m.arena.next {
          }
        }
        t
  }

  /** Every route of the list can be added without a throw. */
  predicate AllAddable(routes: seq<RouteRecord>) {
    forall i :: 0 <= i < |routes| ==> AllNormalizable(routes[i])
  }

  lemma AllAddableCons(routes: seq<RouteRecord>)
    requires routes != []
    ensures AllAddable(routes) <==> AllNormalizable(routes[0]) && AllAddable(routes[1..])
  {
    assert forall i :: 1 <= i < |routes| ==> routes[i] == routes[1..][i - 1];
  }

  /** Adding a list of routes throws exactly when one of them cannot be
      normalised, and then with a `TypeError`. */
  lemma {:induction false} AddAllThrows(m: RouterMatcher, routes: seq<RouteRecord>)
    requires Valid(m)
    ensures AddAll(m, routes).thrown.None? <==> AllAddable(routes)
    ensures AddAll(m, routes).thrown.Some? ==> AddAll(m, routes).thrown.value == TypeError
    decreases |routes|
  {
    if routes != [] {
      AllAddableCons(routes);
      var s := AddRoute(m, routes[0]);
      if s.thrown.None? {
        AddAllThrows(s.state, routes[1..]);
      }
    }
  }

  /** `initializeRoutes()`. */
  function InitializeRoutes(m: RouterMatcher): (r: Step)
    requires Valid(m)
    ensures Valid(r.state) && r.state.basename == m.basename && r.state.initRoutes == m.initRoutes
    ensures ListsOnly(m.index, m.arena.next, r.state.index)
    ensures r.thrown.None? <==> AllAddable(m.initRoutes)
  {
    AddAllThrows(m, m.initRoutes);
    AddAll(m, m.initRoutes)
  }

  /** `new CreateRouterMatcher(routes, basename)`: an empty registry that
      keeps `routes` and `basename` and adds every route in turn. */
  function New(routes: seq<RouteRecord>, basename: string): (r: Step)
    ensures Valid(r.state) && r.state.basename == basename && r.state.initRoutes == routes
    ensures r.thrown.None? <==> AllAddable(routes)
  {
    InitializeRoutes(RouterMatcher(Arena(map[], 0), EmptyIndex(), basename, routes))
  }

  /** `resetMatchers()`: the list and the map are emptied and the initial
      routes are added again, so no matcher listed before the reset is
      listed after it. */
  function ResetMatchers(m: RouterMatcher): (r: Step)
    requires Valid(m)
    ensures Valid(r.state) && r.state.basename == m.basename && r.state.initRoutes == m.initRoutes
    ensures forall x :: x in GetRoutes(r.state) ==> x >= m.arena.next
    ensures forall i :: 0 <= i < |m.index.matchers| ==> m.index.matchers[i] !in GetRoutes(r.state)
    ensures r.thrown.None? <==> AllAddable(m.initRoutes)
  {
    var cleared := m.(index := EmptyIndex());
    var r := InitializeRoutes(cleared);
    assert forall i :: 0 <= i < |m.index.matchers| ==> m.index.matchers[i] in m.arena.nodes;
    r
  }

  // ---------------------------------------------------------------------
  // removeRoute

  /** `removeRoute(matcherRef)` by name or by matcher object. */
  function RemoveRoute(m: RouterMatcher, ref: MatcherRef): (r: RouterMatcher)
    requires Valid(m) && (ref.ByMatcher? ==> ref.id in m.arena.nodes)
    ensures Valid(r) && r.arena == m.arena && r.basename == m.basename && r.initRoutes == m.initRoutes
    ensures ref.ByName? && ref.name !in m.index.names.vals ==> r == m
    ensures ref.ByName? && ref.name in m.index.names.vals ==> GetRecordMatcher(r, ref.name).None?
    ensures Target(m.index, ref).Some? ==>
              var gone := Subtree(m.arena, Target(m.index, ref).value);
              && GetRoutes(r) == FilterOut(GetRoutes(m), gone)
              && (forall n :: n in NamesOf(m.arena, gone) ==> GetRecordMatcher(r, n).None?)
              && (forall n :: n !in NamesOf(m.arena, gone) ==> GetRecordMatcher(r, n) == GetRecordMatcher(m, n))
  {
    m.(index := MatcherTree.RemoveRoute(m.arena, m.index, ref))
  }
}

=== FILE: resolve.dfy ===
/** `resolve(location, currentLocation)`: turning a navigation target into
    the route it designates, by name, by pathname, or by reusing the
    current route. */
module Resolve {
  import opened Wrappers
  import opened Seqs
  import opened Text
  import opened Values
  import opened Shared
  import opened MatcherTree
  import opened Registry

  /** The helpers `resolve` calls but whose code is not part of this model:
      react-router's `matchPath(template, path)` (the bindings of a match,
      or nothing), `stringifyQuery`, `getQueryParams` (a `URLSearchParams`
      wrapper) and `transformLocationToFullPath`. */
  datatype Env = Env(
    matchPath: (string, string) -> Option<map<string, string>>,
    stringifyQuery: map<string, JsValue> -> string,
    getQueryParams: string -> map<string, string>,
    fullPathOf: (string, string, string) -> string)

  /** A navigation target: an object with a `name` key, or a browser
      location (`pathname`, `search`, and its `hash` as `fragment`). */
  datatype Destination =
    | Named(name: Option<string>, params: Option<map<string, JsValue>>,
            query: Option<map<string, JsValue>>, hash: Option<string>)
    | AtLocation(pathname: string, search: string, fragment: string)

  /** The current route as `resolve` reads it: only its name can ever
      select a matcher. */
  datatype Current = Current(name: Option<string>)

  /** The object `resolve` returns. */
  datatype Resolved = Resolved(
    fullPath: string,
    name: Option<string>,
    params: map<string, Param>,
    path: string,
    query: map<string, JsValue>)

  /** The resolved route together with the matcher it was taken from. */
  datatype Resolution = Resolution(matcher: Option<Id>, location: Resolved)

  /** The route's template path. */
  function Template(m: RouterMatcher, id: Id): string
    requires id in m.arena.nodes
  {
    m.arena.nodes[id].record.path
  }

  // ---------------------------------------------------------------------
  // By name

  /** `matcherMap.get(location.name) || matchers[0]`. */
  function NamedMatcher(m: RouterMatcher, name: Option<string>): (r: Option<Id>)
    requires Valid(m)
    ensures r.None? <==> (name.None? || name.value !in m.index.names.vals) && m.index.matchers == []
    ensures r.Some? ==> r.value in m.index.matchers
    ensures name.Some? && name.value in m.index.names.vals ==>
              r.Some? && m.arena.nodes[r.value].record.name == name
    ensures (name.None? || name.value !in m.index.names.vals) && m.index.matchers != [] ==>
              r == Some(m.index.matchers[0])
  {
    if name.Some? && name.value in m.index.names.vals then GetRecordMatcher(m, name.value)
    else if m.index.matchers == [] then None
    else Some(m.index.matchers[0])
  }

  /** `?` and the query string when it is non-empty. */
  function QuerySuffix(q: string): (r: string)
    ensures q == "" ==> r == ""
    ensures q != "" ==> |r| == |q| + 1 && r[0] == '?' && r[1..] == q
  {
    if q == "" then "" else "?" + q
  }

  /** The hash when it is truthy. */
  function HashSuffix(hash: Option<string>): (r: string)
    ensures Truthy(hash) ==> r == hash.value
    ensures !Truthy(hash) ==> r == ""
  {
    if Truthy(hash) then hash.value else ""
  }

  /** The by-name branch: the named matcher, or the first listed one for
      an unknown name; reading the record of an absent matcher throws a
      `TypeError`. The full path is the template with the cleaned
      parameters substituted, then the query, then the hash. */
  function ResolveNamed(env: Env, m: RouterMatcher, d: Destination): (r: Result<Resolution, JsError>)
    requires Valid(m) && d.Named?
    ensures r.Failure? <==> NamedMatcher(m, d.name).None?
    ensures r.Failure? ==> r.error == TypeError
    ensures r.Success? ==>
              var id, loc := NamedMatcher(m, d.name).value, r.value.location;
              && r.value.matcher == Some(id)
              && loc.name == m.arena.nodes[id].record.name
              && loc.path == Template(m, id)
              && loc.params == CleanParams(d.params.GetOr(map[]))
              && loc.query == d.query.GetOr(map[])
              && loc.fullPath == GeneratePath(loc.path, loc.params)
                                 + QuerySuffix(env.stringifyQuery(loc.query)) + HashSuffix(d.hash)
  {
    match NamedMatcher(m, d.name)
    case None => Failure(TypeError)
    case Some(id) =>
      var params := CleanParams(d.params.GetOr(map[]));
      var query := d.query.GetOr(map[]);
      var fullPath := GeneratePath(Template(m, id), params) + QuerySuffix(env.stringifyQuery(query)) + HashSuffix(d.hash);
      Success(Resolution(Some(id), Resolved(fullPath, m.arena.nodes[id].record.name, params, Template(m, id), query)))
  }

  // ---------------------------------------------------------------------
  // By pathname

  /** The pathname without the basename: `pathname.replace(basename, '')`
      unless the basename is `/`. */
  function StripBase(basename: string, pathname: string): (r: string)
    ensures basename == "/" ==> r == pathname
    ensures basename != "/" && (forall k :: !OccursAt(pathname, basename, k)) ==> r == pathname
  {
    if basename == "/" then pathname else ReplaceFirst(pathname, basename, "")
  }

  /** When the basename is a prefix of the pathname (the usual case), the
      replacement strips exactly that prefix. */
  lemma StripBasePrefix(basename: string, pathname: string)
    requires basename != "/" && IsPrefixOf(basename, pathname)
    ensures StripBase(basename, pathname) == pathname[|basename|..]
  {
    StripLeading(pathname, basename);
  }

  /** The replacement is not anchored: a basename found further in is
      removed there. */
  lemma StripBaseNotAnchored()
    ensures StripBase("/app", "/x/app/y") == "/x/y"
  {
    var s, pat := "/x/app/y", "/app";
    assert OccursAt(s, pat, 2);
    assert !OccursAt(s, pat, 0) by { assert s[0..4][1] != pat[1]; }
    assert !OccursAt(s, pat, 1) by { assert s[1..5][0] != pat[0]; }
    assert s[..2] + "" + s[6..] == "/x/y";
  }

  /** `matchPath(template, path)` succeeds for the matcher. */
  predicate Matches(env: Env, m: RouterMatcher, id: Id, path: string)
    requires id in m.arena.nodes
  {
    env.matchPath(Template(m, id), path).Some?
  }

  /** `ms.find(m => matchPath(m.record.path, path))`, as a position. */
  function FirstMatch(env: Env, m: RouterMatcher, ms: seq<Id>, path: string): (r: Option<nat>)
    requires forall i :: 0 <= i < |ms| ==> ms[i] in m.arena.nodes
    ensures r.Some? ==> r.value < |ms| && Matches(env, m, ms[r.value], path)
    ensures r.Some? ==> forall j :: 0 <= j < r.value ==> !Matches(env, m, ms[j], path)
    ensures r.None? ==> forall j :: 0 <= j < |ms| ==> !Matches(env, m, ms[j], path)
  {
    if ms == [] then None
    else if Matches(env, m, ms[0], path) then Some(0)
    else
      match FirstMatch(env, m, ms[1..], path)
      case None => None
      case Some(j) => Some(j + 1)
  }

  /** `matchers.slice(1).find(...) || matchers[0]`: the first matching
      matcher after the head of the list, otherwise the head. */
  function PathMatcher(env: Env, m: RouterMatcher, path: string): (r: Option<Id>)
    requires Valid(m)
    ensures r.None? <==> m.index.matchers == []
    ensures r.Some? ==> r.value in m.index.matchers
  {
    var ms := m.index.matchers;
    if ms == [] then None
    else
      match FirstMatch(env, m, ms[1..], path)
      case Some(j) => Some(ms[j + 1])
      case None => Some(ms[0])
  }

  /** The matcher chosen for a pathname is the earliest one after the head
      whose template matches; the head is chosen only when none of those
      matches. */
  lemma PathMatcherIsFirst(env: Env, m: RouterMatcher, path: string)
    requires Valid(m) && m.index.matchers != []
    ensures var ms, r := m.index.matchers, PathMatcher(env, m, path).value;
            && (r != ms[0] ==> Matches(env, m, r, path))
            && (forall j :: 1 <= j < |ms| && ms[j] != r && Matches(env, m, ms[j], path) ==>
                  exists i :: 1 <= i < j && ms[i] == r)
            && ((forall j :: 1 <= j < |ms| ==> !Matches(env, m, ms[j], path)) ==> r == ms[0])
  {
    var ms := m.index.matchers;
    var tail := ms[1..];
    assert forall j :: 1 <= j < |ms| ==> ms[j] == tail[j - 1];
    match FirstMatch(env, m, tail, path)
    case None =>
    case Some(k) =>
      assert ms[k + 1] == tail[k];
      forall j | 1 <= j < |ms| && ms[j] != ms[k + 1] && Matches(env, m, ms[j], path)
        ensures exists i :: 1 <= i < j && ms[i] == ms[k + 1]
      {
        assert j - 1 >= k;
        assert 1 <= k + 1 < j;
      }
  }

  /** A match's bindings as string parameters. */
  function Bindings(b: map<string, string>): (r: map<string, Param>)
    ensures r.Keys == b.Keys && forall k :: k in b ==> r[k] == PStr(b[k])
  {
    map k | k in b :: PStr(b[k])
  }

  /** `getQueryParams(search)` as an object of string values. */
  function QueryObject(q: map<string, string>): (r: map<string, JsValue>)
    ensures r.Keys == q.Keys && forall k :: k in q ==> r[k] == Str(q[k])
  {
    map k | k in q :: Str(q[k])
  }

  /** The by-pathname branch; it never throws. Without any listed matcher
      the route has no name, no parameters and an empty full path. */
  function ResolvePath(env: Env, m: RouterMatcher, d: Destination): (r: Resolution)
    requires Valid(m) && d.AtLocation?
    ensures r.matcher == PathMatcher(env, m, StripBase(m.basename, d.pathname))
    ensures r.location.path == StripBase(m.basename, d.pathname)
    ensures r.location.query == QueryObject(env.getQueryParams(d.search))
    ensures r.matcher.None? ==> r.location.name.None? && r.location.params == map[] && r.location.fullPath == ""
    ensures r.matcher.Some? ==>
              var id, fp := r.matcher.value, env.fullPathOf(d.pathname, d.search, d.fragment);
              && r.location.name == m.arena.nodes[id].record.name
              && r.location.params == (match env.matchPath(Template(m, id), r.location.path)
                                       case Some(b) => Bindings(b)
                                       case None => map[])
              && r.location.fullPath == StripBase(m.basename, fp)
  {
    var path := StripBase(m.basename, d.pathname);
    var query := QueryObject(env.getQueryParams(d.search));
    match PathMatcher(env, m, path)
    case None => Resolution(None, Resolved("", None, map[], path, query))
    case Some(id) =>
      var params := match env.matchPath(Template(m, id), path)
                    case Some(b) => Bindings(b)
                    case None => map[];
      var fullPath := StripBase(m.basename, env.fullPathOf(d.pathname, d.search, d.fragment));
      Resolution(Some(id), Resolved(fullPath, m.arena.nodes[id].record.name, params, path, query))
  }

  // ---------------------------------------------------------------------
  // Reusing the current route

  /** The reuse branch: a named current route is looked up by name. For an
      unnamed one the code compares each matcher's record object with the
      current path string, which never holds, so no matcher is found; with
      no matcher the call throws. */
  function ResolveCurrent(m: RouterMatcher, current: Current): (r: Result<Resolution, JsError>)
    requires Valid(m)
    ensures r.Success? <==> Truthy(current.name) && current.name.value in m.index.names.vals
    ensures r.Failure? ==> r.error == RouteError("there is no such route")
    ensures r.Success? ==>
              && r.value.matcher == GetRecordMatcher(m, current.name.value)
              && r.value.location == Resolved("", current.name, map[], "", map[])
  {
    var found := if Truthy(current.name) then GetRecordMatcher(m, current.name.value) else None;
    match found
    case None => Failure(RouteError("there is no such route"))
    case Some(id) => Success(Resolution(Some(id), Resolved("", m.arena.nodes[id].record.name, map[], "", map[])))
  }

  // ---------------------------------------------------------------------
  // resolve

  /** The three branches: a target with a `name` key, a target with a
      truthy `pathname`, and otherwise the current route. */
  function ResolveWith(env: Env, m: RouterMatcher, d: Destination, current: Current): (r: Result<Resolution, JsError>)
    requires Valid(m)
    ensures r.Success? && r.value.matcher.Some? ==> r.value.matcher.value in m.index.matchers
    ensures d.AtLocation? && d.pathname != "" ==> r.Success?
    ensures d.AtLocation? && d.pathname == "" ==> r == ResolveCurrent(m, current)
  {
    match d
    case Named(_, _, _, _) => ResolveNamed(env, m, d)
    case AtLocation(pathname, _, _) =>
      if pathname != "" then Success(ResolvePath(env, m, d)) else ResolveCurrent(m, current)
  }

  /** `resolve(location, currentLocation)`: the returned object leaves the
      matched chain out. */
  function Resolve(env: Env, m: RouterMatcher, d: Destination, current: Current): (r: Result<Resolved, JsError>)
    requires Valid(m)
    ensures r.Success? <==> ResolveWith(env, m, d, current).Success?
    ensures r.Success? ==> r.value == ResolveWith(env, m, d, current).value.location
    ensures r.Failure? ==> r.error == ResolveWith(env, m, d, current).error
  {
    match ResolveWith(env, m, d, current)
    case Success(res) => Success(res.location)
    case Failure(e) => Failure(e)
  }

  /** The chain the ancestor walk collects: root first, ending in the
      resolved matcher; empty when no matcher was found. */
  function Matched(m: RouterMatcher, res: Resolution): (chain: seq<Id>)
    requires Valid(m) && (res.matcher.Some? ==> res.matcher.value in m.arena.nodes)
    ensures res.matcher.None? ==> chain == []
    ensures res.matcher.Some? ==> chain != [] && chain[|chain| - 1] == res.matcher.value
    ensures forall i :: 0 <= i < |chain| ==> chain[i] in m.arena.nodes
    ensures chain != [] ==> m.arena.nodes[chain[0]].parent.None?
    ensures forall i :: 0 < i < |chain| ==> m.arena.nodes[chain[i]].parent == Some(chain[i - 1])
  {
    if res.matcher.None? then [] else AncestorChain(m.arena, res.matcher.value)
  }

  // ---------------------------------------------------------------------
  // Consequences

  /** Resolving a registered name yields that name and the template of the
      matcher registered under it. */
  lemma ResolveRegisteredName(env: Env, m: RouterMatcher, d: Destination, current: Current)
    requires Valid(m) && d.Named? && d.name.Some? && d.name.value in m.index.names.vals
    ensures var r := Resolve(env, m, d, current);
            && r.Success?
            && r.value.name == d.name
            && r.value.path == Template(m, m.index.names.vals[d.name.value])
  {
  }

  /** An unknown name falls back to the first listed matcher, and throws a
      `TypeError` when nothing is listed. */
  lemma ResolveUnknownName(env: Env, m: RouterMatcher, d: Destination, current: Current)
    requires Valid(m) && d.Named? && (d.name.None? || d.name.value !in m.index.names.vals)
    ensures var r := Resolve(env, m, d, current);
            && (m.index.matchers == [] ==> r == Failure(TypeError))
            && (m.index.matchers != [] ==> r.Success? && r.value.path == Template(m, m.index.matchers[0]))
  {
  }

  /** The full path of a by-name resolution starts with the generated path,
      which has no `//` and no trailing `/`. */
  lemma ResolveNamedPathClean(env: Env, m: RouterMatcher, d: Destination)
    requires Valid(m) && d.Named? && ResolveNamed(env, m, d).Success?
    ensures var r := ResolveNamed(env, m, d).value.location;
            var g := GeneratePath(r.path, r.params);
            && IsPrefixOf(g, r.fullPath)
            && NoDoubleSlash(g) && (g == [] || g[|g| - 1] != '/')
  {
    var res := ResolveNamed(env, m, d).value;
    var g := GeneratePath(res.location.path, res.location.params);
    ConcatPrefix(g, QuerySuffix(env.stringifyQuery(res.location.query)) + HashSuffix(d.hash));
  }

  lemma ConcatPrefix(g: string, rest: string)
    ensures IsPrefixOf(g, g + rest)
  {
    assert (g + rest)[..|g|] == g;
  }

  /** Reusing the current route throws for an unnamed current route,
      whatever is registered. */
  lemma ResolveUnnamedCurrentThrows(env: Env, m: RouterMatcher, pathnameFree: Destination, current: Current)
    requires Valid(m) && pathnameFree == AtLocation("", "", "") && !Truthy(current.name)
    ensures Resolve(env, m, pathnameFree, current) == Failure(RouteError("there is no such route"))
  {
  }

  /** The ancestor walk ends in the resolved matcher, whose record carries
      the resolved name. */
  lemma MatchedEndsInResolved(env: Env, m: RouterMatcher, d: Destination, current: Current)
    requires Valid(m) && ResolveWith(env, m, d, current).Success?
    requires ResolveWith(env, m, d, current).value.matcher.Some?
    ensures var res := ResolveWith(env, m, d, current).value;
            var chain := Matched(m, res);
            && m.arena.nodes[chain[|chain| - 1]].record.name == res.location.name
  {
  }
}

=== FILE: seqs.dfy ===
/** Generic sequence helpers: the JavaScript array operations the registry
    uses (`indexOf`, `splice(i, 1)`) and the set-based filter they are
    proved against. */
module Seqs {

  /** No element occurs twice. */
  predicate Distinct<T(==)>(s: seq<T>) {
    forall i, j :: 0 <= i < j < |s| ==> s[i] != s[j]
  }

  /** `s` with every element of `drop` removed, order kept. */
  function FilterOut<T(==)>(s: seq<T>, drop: set<T>): (r: seq<T>)
    ensures forall i :: 0 <= i < |r| ==> r[i] in s && r[i] !in drop
    ensures forall i :: 0 <= i < |s| && s[i] !in drop ==> s[i] in r
    ensures |r| <= |s|
  {
    if s == [] then []
    else (if s[0] in drop then [] else [s[0]]) + FilterOut(s[1..], drop)
  }

  lemma {:induction false} FilterOutNothing<T>(s: seq<T>, drop: set<T>)
    requires forall i :: 0 <= i < |s| ==> s[i] !in drop
    ensures FilterOut(s, drop) == s
  {
    if s != [] {
      FilterOutNothing(s[1..], drop);
    }
  }

  /** The filter on one element: it is kept exactly when it is not dropped.
      With `FilterOutConcat` this determines `FilterOut` on every sequence. */
  lemma FilterOutOne<T>(x: T, drop: set<T>)
    ensures FilterOut([x], drop) == if x in drop then [] else [x]
  {
    assert [x][1..] == [];
  }

  lemma {:induction false} FilterOutTwice<T>(s: seq<T>, a: set<T>, b: set<T>)
    ensures FilterOut(FilterOut(s, a), b) == FilterOut(s, a + b)
  {
    if s != [] {
      FilterOutTwice(s[1..], a, b);
      var head := if s[0] in a then [] else [s[0]];
      assert FilterOut(s, a) == head + FilterOut(s[1..], a);
      FilterOutConcat(head, FilterOut(s[1..], a), b);
      if s[0] !in a {
        assert FilterOut(head, b) == (if s[0] in b then [] else [s[0]]) + FilterOut([], b);
      }
    }
  }

  lemma {:induction false} FilterOutConcat<T>(s: seq<T>, t: seq<T>, drop: set<T>)
    ensures FilterOut(s + t, drop) == FilterOut(s, drop) + FilterOut(t, drop)
  {
    if s != [] {
      assert (s + t)[1..] == s[1..] + t;
      FilterOutConcat(s[1..], t, drop);
    } else {
      assert s + t == t;
    }
  }

  lemma {:induction false} FilterOutDistinct<T>(s: seq<T>, drop: set<T>)
    requires Distinct(s)
    ensures Distinct(FilterOut(s, drop))
  {
    if s != [] {
      FilterOutDistinct(s[1..], drop);
      assert s[0] !in s[1..];
    }
  }

  /** JavaScript `Array.prototype.indexOf`: the first position of `x`, or -1. */
  function IndexOf<T(==)>(s: seq<T>, x: T): (r: int)
    ensures -1 <= r < |s|
    ensures r == -1 <==> x !in s
    ensures r >= 0 ==> s[r] == x && forall k :: 0 <= k < r ==> s[k] != x
  {
    if s == [] then -1
    else if s[0] == x then 0
    else
      var j := IndexOf(s[1..], x);
      if j < 0 then -1 else j + 1
  }

  /** `const i = s.indexOf(x); if (i !== -1) s.splice(i, 1)`: a missing
      element leaves the sequence as it is; otherwise exactly one copy of
      `x` leaves, the elements before it stay in place, and the elements
      after it move down by one, in order. */
  function RemoveFirst<T(==)>(s: seq<T>, x: T): (r: seq<T>)
    ensures x !in s ==> r == s
    ensures x in s ==> |r| == |s| - 1 && multiset(r) == multiset(s) - multiset{x}
    ensures x in s ==> r[..IndexOf(s, x)] == s[..IndexOf(s, x)]
    ensures x in s ==> r[IndexOf(s, x)..] == s[IndexOf(s, x) + 1..]
  {
    var i := IndexOf(s, x);
    if i == -1 then s
    else
      assert s == s[..i] + [x] + s[i + 1..];
      s[..i] + s[i + 1..]
  }

  /** Removing the first occurrence from a duplicate-free sequence is the
      same as filtering the element out. */
  lemma {:induction false} RemoveFirstIsFilter<T>(s: seq<T>, x: T)
    requires Distinct(s)
    ensures RemoveFirst(s, x) == FilterOut(s, {x})
  {
    if s == [] {
    } else if s[0] == x {
      RemoveFirstHead(s, x);
    } else {
      DistinctTail(s);
      RemoveFirstIsFilter(s[1..], x);
      RemoveFirstCons(s, x);
    }
  }

  lemma DistinctTail<T>(s: seq<T>)
    requires Distinct(s) && s != []
    ensures Distinct(s[1..]) && s[0] !in s[1..]
  {
    var tail := s[1..];
    forall i, j | 0 <= i < j < |tail| ensures tail[i] != tail[j] {
      assert tail[i] == s[i + 1] && tail[j] == s[j + 1];
    }
  }

  lemma RemoveFirstHead<T>(s: seq<T>, x: T)
    requires Distinct(s) && s != [] && s[0] == x
    ensures RemoveFirst(s, x) == FilterOut(s, {x})
  {
    DistinctTail(s);
    assert RemoveFirst(s, x) == s[1..];
    FilterOutNothing(s[1..], {x});
  }

  lemma RemoveFirstCons<T>(s: seq<T>, x: T)
    requires s != [] && s[0] != x
    ensures RemoveFirst(s, x) == [s[0]] + RemoveFirst(s[1..], x)
  {
    var tail := s[1..];
    var j := IndexOf(tail, x);
    var i := IndexOf(s, x);
    assert i == (if j < 0 then -1 else j + 1);
    if j < 0 {
      calc {
        RemoveFirst(s, x);
        s;
        [s[0]] + tail;
        [s[0]] + RemoveFirst(tail, x);
      }
    } else {
      calc {
        RemoveFirst(s, x);
        s[..j + 1] + s[j + 2..];
        { assert s[..j + 1] == [s[0]] + tail[..j];
          assert s[j + 2..] == tail[j + 1..]; }
        [s[0]] + (tail[..j] + tail[j + 1..]);
        [s[0]] + RemoveFirst(tail, x);
      }
    }
  }

  /** `p` is a prefix of `s`. */
  predicate IsPrefix<T(==)>(p: seq<T>, s: seq<T>) {
    |p| <= |s| && s[..|p|] == p
  }

  lemma IsPrefixTrans<T>(p: seq<T>, q: seq<T>, s: seq<T>)
    requires IsPrefix(p, q) && IsPrefix(q, s)
    ensures IsPrefix(p, s)
  {
    assert s[..|p|] == s[..|q|][..|p|];
  }

  /** Putting a new element in front or at the end keeps a sequence free of
      duplicates. */
  lemma DistinctAdd<T>(s: seq<T>, x: T)
    requires Distinct(s) && x !in s
    ensures Distinct([x] + s) && Distinct(s + [x])
  {
    var f, b := [x] + s, s + [x];
    forall i, j | 0 <= i < j < |f| ensures f[i] != f[j] {
      assert f[j] == s[j - 1];
      if i > 0 { assert f[i] == s[i - 1]; }
    }
    forall i, j | 0 <= i < j < |b| ensures b[i] != b[j] {
      assert b[i] == s[i];
      if j < |s| { assert b[j] == s[j]; }
    }
  }
}

=== FILE: shared.dfy ===
/** The path-template helpers of the matcher: route-record normalisation,
    `:param` substitution with slash clean-up, parameter cleaning and meta
    merging. */
module Shared {
  import opened Wrappers
  import opened Values

  /** What a thrown JavaScript exception carries in this model. */
  datatype JsError =
    | TypeError               // a property read on `undefined`
    | RouteError(msg: string) // `throw new Error(msg)`

  /** An optional list of child definitions (`children?: RouteRecord[]`). */
  datatype Routes = NoRoutes | Routes(list: seq<RouteRecord>)

  /** An authored route definition; every field may be absent. */
  datatype RouteRecord = RouteRecord(
    name: Option<string>,
    path: Option<string>,
    children: Routes,
    redirect: Option<string>,
    meta: Option<map<string, JsValue>>)

  /** A route definition with its defaults filled in. */
  datatype NormalizedRecord = NormalizedRecord(
    children: seq<RouteRecord>,
    meta: map<string, JsValue>,
    name: Option<string>,
    path: string,
    redirect: Option<string>)

  /** JavaScript truthiness of an optional string: absent and `''` are falsy. */
  predicate Truthy(s: Option<string>) {
    s.Some? && s.value != ""
  }

  /** Number of route definitions in the tree rooted at `r`. */
  function Size(r: RouteRecord): nat
    ensures Size(r) >= 1
  {
    1 + match r.children
        case NoRoutes => 0
        case Routes(cs) => SizeAll(cs)
  }

  function SizeAll(cs: seq<RouteRecord>): nat {
    if cs == [] then 0 else Size(cs[0]) + SizeAll(cs[1..])
  }

  // ---------------------------------------------------------------------
  // normalizeRouteRecord

  /** Evaluating `record.children[0].path` throws unless `children` is absent
      or non-empty; this is the condition under which the redirect fallback of
      a record (or of a direct child) can be evaluated. */
  predicate RedirectFallbackDefined(r: RouteRecord) {
    Truthy(r.redirect) || r.children != Routes([])
  }

  /** The redirect a direct child receives from the parent's normalisation:
      its own when truthy or when it has no children, otherwise its first
      child's path. */
  function InheritedRedirect(c: RouteRecord): Option<string>
    requires RedirectFallbackDefined(c)
  {
    if !Truthy(c.redirect) && c.children.Routes? then c.children.list[0].path else c.redirect
  }

  /** The in-place update the parent's normalisation applies to one child. */
  function NormalizeChild(c: RouteRecord): (r: Result<RouteRecord, JsError>)
    ensures r.Success? <==> RedirectFallbackDefined(c)
    ensures r.Failure? ==> r.error == TypeError
    ensures r.Success? ==> r.value == c.(redirect := InheritedRedirect(c))
  {
    if !Truthy(c.redirect) && c.children.Routes? then
      if c.children.list == [] then Failure(TypeError)
      else Success(c.(redirect := c.children.list[0].path))
    else Success(c)
  }

  function NormalizeChildren(cs: seq<RouteRecord>): (r: Result<seq<RouteRecord>, JsError>)
    ensures r.Success? <==> forall i :: 0 <= i < |cs| ==> RedirectFallbackDefined(cs[i])
    ensures r.Failure? ==> r.error == TypeError
    ensures r.Success? ==> |r.value| == |cs|
    ensures r.Success? ==> forall i :: 0 <= i < |cs| ==>
              r.value[i] == cs[i].(redirect := InheritedRedirect(cs[i]))
  {
    if cs == [] then Success([])
    else
      var head :- NormalizeChild(cs[0]);
      var tail :- NormalizeChildren(cs[1..]);
      Success([head] + tail)
  }

  /** The record can be normalised without a `TypeError`. */
  predicate Normalizable(r: RouteRecord) {
    && RedirectFallbackDefined(r)
    && (r.children.Routes? ==> forall i :: 0 <= i < |r.children.list| ==>
          RedirectFallbackDefined(r.children.list[i]))
  }

  /** `normalizeRouteRecord`: `children` defaults to `[]`, `meta` to `{}`,
      `path` to `''`; `redirect` is the explicit one when truthy, otherwise
      the first child's path; each direct child inherits a redirect the same
      way, one level only. */
  function Normalize(r: RouteRecord): (res: Result<NormalizedRecord, JsError>)
    ensures res.Success? <==> Normalizable(r)
    ensures res.Failure? ==> res.error == TypeError
    ensures res.Success? ==> res.value.name == r.name
    ensures res.Success? ==> res.value.path == r.path.GetOr("")
    ensures res.Success? ==> res.value.meta == r.meta.GetOr(map[])
    ensures res.Success? && Truthy(r.redirect) ==> res.value.redirect == r.redirect
    ensures res.Success? && !Truthy(r.redirect) ==>
              res.value.redirect == (if r.children.NoRoutes? then None else r.children.list[0].path)
    ensures res.Success? && r.children.NoRoutes? ==> res.value.children == []
    ensures res.Success? && r.children.Routes? ==>
              |res.value.children| == |r.children.list|
              && forall i :: 0 <= i < |r.children.list| ==>
                   res.value.children[i] == r.children.list[i].(redirect := InheritedRedirect(r.children.list[i]))
    ensures res.Success? ==> SizeAll(res.value.children) == Size(r) - 1
  {
    var children :- if r.children.NoRoutes? then Success([]) else NormalizeChildren(r.children.list);
    var redirect :-
      if Truthy(r.redirect) then Success(r.redirect)
      else if r.children.NoRoutes? then Success(None)
      else if r.children.list == [] then Failure(TypeError)
      else Success(r.children.list[0].path);
    assert SizeAll(children) == Size(r) - 1 by {
      if r.children.Routes? {
        SizeAllInherited(r.children.list, children);
      }
    }
    Success(NormalizedRecord(children, r.meta.GetOr(map[]), r.name, r.path.GetOr(""), redirect))
  }

  /** Inheriting redirects does not change the size of the child trees. */
  lemma {:induction false} SizeAllInherited(cs: seq<RouteRecord>, ks: seq<RouteRecord>)
    requires |ks| == |cs|
    requires forall i :: 0 <= i < |cs| ==> ks[i].children == cs[i].children
    ensures SizeAll(ks) == SizeAll(cs)
  {
    if cs != [] {
      SizeAllInherited(cs[1..], ks[1..]);
    }
  }

  /** Redirect inheritance is shallow: the grandchildren of a normalised
      record are exactly the authored ones, untouched. */
  lemma ShallowInheritance(r: RouteRecord, i: nat)
    requires Normalize(r).Success?
    requires i < |Normalize(r).value.children|
    ensures r.children.Routes? && i < |r.children.list|
    ensures Normalize(r).value.children[i].children == r.children.list[i].children
  {
  }

  /** When a child with children is normalised in its own turn (as `addRoute`
      does when it recurses), the redirect inherited from the parent's
      normalisation is what it keeps. */
  lemma InheritedRedirectIsStable(r: RouteRecord, i: nat)
    requires Normalize(r).Success?
    requires i < |Normalize(r).value.children|
    requires Normalize(Normalize(r).value.children[i]).Success?
    requires r.children.Routes? && r.children.list[i].children.Routes?
    ensures Normalize(Normalize(r).value.children[i]).value.redirect
            == Normalize(r).value.children[i].redirect
  {
  }

  // ---------------------------------------------------------------------
  // generatePath

  predicate IsLetter(c: char) {
    ('a' <= c <= 'z') || ('A' <= c <= 'Z')
  }

  /** Length of the longest prefix of `s` made of ASCII letters. */
  function LetterRun(s: string): (n: nat)
    ensures n <= |s|
    ensures forall i :: 0 <= i < n ==> IsLetter(s[i])
    ensures n < |s| ==> !IsLetter(s[n])
  {
    if s != [] && IsLetter(s[0]) then 1 + LetterRun(s[1..]) else 0
  }

  /** The replacement text for parameter `name`: its string form, or `''`
      (with a console warning) when it is missing. */
  function ParamText(params: map<string, Param>, name: string): string {
    if name in params then ParamString(params[name]) else ""
  }

  /** `template.replace(/:([a-zA-Z]+)/g, …)`: every `:` followed by a maximal
      run of ASCII letters is replaced by that parameter's text; scanning
      resumes after the token, so substituted text is never rescanned. */
  function Substitute(t: string, params: map<string, Param>): string
    decreases |t|
  {
    if t == [] then []
    else if t[0] == ':' && |t| >= 2 && IsLetter(t[1]) then
      var n := LetterRun(t[1..]);
      ParamText(params, t[1..1 + n]) + Substitute(t[1 + n..], params)
    else [t[0]] + Substitute(t[1..], params)
  }

  /** Text without a `:` is left as it is. */
  lemma {:induction false} SubstituteLiteral(t: string, params: map<string, Param>)
    requires ':' !in t
    ensures Substitute(t, params) == t
  {
    if t != [] {
      SubstituteLiteral(t[1..], params);
      assert [t[0]] + t[1..] == t;
    }
  }

  /** Literal text, then one token, then text that does not continue the
      token: the token becomes its parameter's text, inserted verbatim. */
  lemma SubstituteToken(lit: string, name: string, rest: string, params: map<string, Param>)
    requires ':' !in lit
    requires |name| >= 1 && forall i :: 0 <= i < |name| ==> IsLetter(name[i])
    requires rest == [] || !IsLetter(rest[0])
    ensures Substitute(lit + ":" + name + rest, params)
            == lit + ParamText(params, name) + Substitute(rest, params)
  {
    var u := ":" + name + rest;
    assert lit + ":" + name + rest == lit + u;
    SubstituteTokenNested(lit, u, name, rest, params);
    var p, r := ParamText(params, name), Substitute(rest, params);
    assert lit + (p + r) == lit + p + r;
  }

  /** `SubstituteToken` with the concatenations nested to the right, as the
      two steps it combines produce them. */
  lemma SubstituteTokenNested(lit: string, u: string, name: string, rest: string, params: map<string, Param>)
    requires ':' !in lit
    requires |name| >= 1 && forall i :: 0 <= i < |name| ==> IsLetter(name[i])
    requires rest == [] || !IsLetter(rest[0])
    requires u == ":" + name + rest
    ensures Substitute(lit + u, params) == lit + (ParamText(params, name) + Substitute(rest, params))
  {
    SubstituteLiteralPrefix(lit, u, params);
    SubstituteTokenFirst(name, rest, params);
  }

  /** Text without `:` in front is copied as it is. */
  lemma {:induction false} SubstituteLiteralPrefix(lit: string, u: string, params: map<string, Param>)
    requires ':' !in lit
    ensures Substitute(lit + u, params) == lit + Substitute(u, params)
  {
    if lit != [] {
      assert (lit + u)[0] == lit[0];
      assert (lit + u)[1..] == lit[1..] + u;
      SubstituteLiteralPrefix(lit[1..], u, params);
      assert [lit[0]] + (lit[1..] + Substitute(u, params)) == lit + Substitute(u, params);
    } else {
      assert lit + u == u;
    }
  }

  lemma SubstituteTokenFirst(name: string, rest: string, params: map<string, Param>)
    requires |name| >= 1 && forall i :: 0 <= i < |name| ==> IsLetter(name[i])
    requires rest == [] || !IsLetter(rest[0])
    ensures Substitute(":" + name + rest, params) == ParamText(params, name) + Substitute(rest, params)
  {
    var t := ":" + name + rest;
    assert t[1..] == name + rest;
    LetterRunOf(name, rest);
    assert t[1..1 + |name|] == name;
    assert t[1 + |name|..] == rest;
  }

  lemma {:induction false} LetterRunOf(name: string, rest: string)
    requires forall i :: 0 <= i < |name| ==> IsLetter(name[i])
    requires rest == [] || !IsLetter(rest[0])
    ensures LetterRun(name + rest) == |name|
  {
    if name != [] {
      assert (name + rest)[1..] == name[1..] + rest;
      LetterRunOf(name[1..], rest);
    } else {
      assert name + rest == rest;
    }
  }

  /** No two consecutive slashes. */
  predicate NoDoubleSlash(s: string) {
    forall i :: 0 <= i < |s| - 1 ==> !(s[i] == '/' && s[i + 1] == '/')
  }

  /** The characters of `s` other than `/`, in order. */
  function NonSlash(s: string): string {
    if s == [] then [] else (if s[0] == '/' then [] else [s[0]]) + NonSlash(s[1..])
  }

  /** `path.replace(/\/+/g, '/')`: every run of slashes becomes one slash. */
  function CollapseSlashes(s: string): (r: string)
    ensures NoDoubleSlash(r)
    ensures NonSlash(r) == NonSlash(s)
    ensures |r| <= |s|
    ensures |r| == 0 <==> |s| == 0
    ensures |s| > 0 ==> r[0] == s[0]
    ensures |s| > 0 ==> r[|r| - 1] == s[|s| - 1]
  {
    if |s| >= 2 && s[0] == '/' && s[1] == '/' then CollapseSlashes(s[1..])
    else if s == [] then []
    else
      var tail := CollapseSlashes(s[1..]);
      CollapseCons(s[0], tail);
      assert NonSlash(s) == (if s[0] == '/' then [] else [s[0]]) + NonSlash(s[1..]);
      [s[0]] + tail
  }

  /** Putting one character in front of a collapsed tail that does not start
      a double slash with it. */
  lemma CollapseCons(c: char, tail: string)
    requires NoDoubleSlash(tail)
    requires c == '/' && tail != [] ==> tail[0] != '/'
    ensures NoDoubleSlash([c] + tail)
    ensures NonSlash([c] + tail) == (if c == '/' then [] else [c]) + NonSlash(tail)
  {
    var r := [c] + tail;
    assert r[1..] == tail;
    forall i | 0 <= i < |r| - 1 ensures !(r[i] == '/' && r[i + 1] == '/') {
      if i > 0 {
        assert r[i] == tail[i - 1] && r[i + 1] == tail[i];
      }
    }
  }

  /** A string that already has no double slash is left unchanged. */
  lemma {:induction false} CollapseClean(s: string)
    requires NoDoubleSlash(s)
    ensures CollapseSlashes(s) == s
  {
    if s != [] {
      assert NoDoubleSlash(s[1..]) by {
        forall i | 0 <= i < |s[1..]| - 1 ensures !(s[1..][i] == '/' && s[1..][i + 1] == '/') {
          assert s[1..][i] == s[i + 1] && s[1..][i + 1] == s[i + 2];
        }
      }
      CollapseClean(s[1..]);
      assert [s[0]] + s[1..] == s;
    }
  }

  /** Collapsing twice is collapsing once. */
  lemma CollapseIdempotent(s: string)
    ensures CollapseSlashes(CollapseSlashes(s)) == CollapseSlashes(s)
  {
    CollapseClean(CollapseSlashes(s));
  }

  /** `if (path.endsWith('/')) path = path.slice(0, -1)`: exactly one
      trailing slash is removed, and nothing else changes. */
  function StripTrailingSlash(s: string): (r: string)
    ensures r == s || r + "/" == s
    ensures |s| > 0 && s[|s| - 1] == '/' ==> r + "/" == s
    ensures (|s| == 0 || s[|s| - 1] != '/') ==> r == s
    ensures NoDoubleSlash(s) ==> NoDoubleSlash(r) && (r == [] || r[|r| - 1] != '/')
  {
    if |s| > 0 && s[|s| - 1] == '/' then
      assert s[..|s| - 1] + "/" == s;
      s[..|s| - 1]
    else s
  }

  /** `generatePath(template, params)`: the substituted template with its
      slash runs collapsed, less one trailing slash. The result never holds
      `//`, never ends in `/`, and keeps, in order, every non-slash
      character of the substituted template. */
  function GeneratePath(template: string, params: map<string, Param>): (r: string)
    ensures var collapsed := CollapseSlashes(Substitute(template, params));
            r == collapsed || r + "/" == collapsed
    ensures NoDoubleSlash(r)
    ensures r == [] || r[|r| - 1] != '/'
    ensures NonSlash(r) == NonSlash(Substitute(template, params))
  {
    var collapsed := CollapseSlashes(Substitute(template, params));
    var r := StripTrailingSlash(collapsed);
    assert NonSlash(r) == NonSlash(collapsed) by {
      if r != collapsed {
        NonSlashDropSlash(r);
        assert collapsed == r + "/";
      }
    }
    r
  }

  lemma {:induction false} NonSlashDropSlash(s: string)
    ensures NonSlash(s + "/") == NonSlash(s)
  {
    if s != [] {
      assert (s + "/")[1..] == s[1..] + "/";
      NonSlashDropSlash(s[1..]);
    }
  }

  /** The documented example: `/user/:id/profile` with `{id: 123}`. */
  lemma GeneratePathExample()
    ensures GeneratePath("/user/:id/profile", map["id" := PNum(123)]) == "/user/123/profile"
  {
    SubstituteExample("/user/:id/profile", map["id" := PNum(123)]);
    NoDoubleSlashExample();
    CollapseClean("/user/123/profile");
  }

  lemma SubstituteExample(t: string, params: map<string, Param>)
    requires t == "/user/:id/profile" && params == map["id" := PNum(123)]
    ensures Substitute(t, params) == "/user/123/profile"
  {
    TemplateParts(t);
    SubstituteToken("/user/", "id", "/profile", params);
    SubstituteLiteral("/profile", params);
    Text123(params);
    assert Substitute(t, params) == "/user/" + ParamText(params, "id") + "/profile";
  }

  lemma Text123(params: map<string, Param>)
    requires params == map["id" := PNum(123)]
    ensures ParamText(params, "id") == "123"
    ensures "/user/" + ParamText(params, "id") + "/profile" == "/user/123/profile"
  {
    assert NatToString(12) == "12";
  }

  lemma TemplateParts(t: string)
    requires t == "/user/:id/profile"
    ensures t == "/user/" + ":" + "id" + "/profile"
  {
  }

  lemma NoDoubleSlashExample()
    ensures NoDoubleSlash("/user/123/profile")
    ensures NoDoubleSlash("/user/profile")
  {
  }

  /** A missing parameter becomes the empty string and the doubled slash is
      collapsed: `/user/:id/profile` with `{}` gives `/user/profile`. */
  lemma GeneratePathMissingParam()
    ensures GeneratePath("/user/:id/profile", map[]) == "/user/profile"
  {
    SubstituteMissingExample("/user/:id/profile", map[]);
    CollapseAroundExample();
    NoDoubleSlashExample();
    CollapseClean("/user/profile");
  }

  lemma SubstituteMissingExample(t: string, params: map<string, Param>)
    requires t == "/user/:id/profile" && params == map[]
    ensures Substitute(t, params) == "/user//profile"
  {
    TemplateParts(t);
    SubstituteToken("/user/", "id", "/profile", params);
    SubstituteLiteral("/profile", params);
    EmptyText(params);
  }

  lemma EmptyText(params: map<string, Param>)
    requires params == map[]
    ensures "/user/" + ParamText(params, "id") + "/profile" == "/user//profile"
  {
  }

  lemma CollapseAroundExample()
    ensures CollapseSlashes("/user//profile") == CollapseSlashes("/user/profile")
  {
    var a, b := "/user", "profile";
    assert a + "//" + b == "/user//profile" by {
      assert |a + "//" + b| == 14;
    }
    assert a + "/" + b == "/user/profile" by {
      assert |a + "/" + b| == 13;
    }
    CollapseAround(a, b);
  }

  /** Collapsing removes one slash of every doubled slash, wherever it
      stands. With `CollapseClean` this determines the result on every
      input: every run of slashes becomes exactly one slash. */
  lemma {:induction false} CollapseAround(a: string, b: string)
    ensures CollapseSlashes(a + "//" + b) == CollapseSlashes(a + "/" + b)
  {
    var s1 := a + "//" + b;
    var s2 := a + "/" + b;
    if a == [] {
      assert s1 == "//" + b && s1[1..] == s2;
    } else {
      assert s1[0] == s2[0] == a[0] && s1[1] == s2[1];
      assert s1[1..] == a[1..] + "//" + b;
      assert s2[1..] == a[1..] + "/" + b;
      CollapseAround(a[1..], b);
    }
  }

  /** `k` slashes. */
  function Slashes(k: nat): (r: string)
    ensures |r| == k && forall i :: 0 <= i < k ==> r[i] == '/'
  {
    seq(k, _ => '/')
  }

  /** A run of one or more slashes, wherever it stands, collapses to the
      same string as a single slash. */
  lemma {:induction false} CollapseRun(a: string, k: nat, b: string)
    requires k >= 1
    ensures CollapseSlashes(a + Slashes(k) + b) == CollapseSlashes(a + "/" + b)
    decreases k
  {
    if k >= 2 {
      var rest := Slashes(k - 2) + b;
      assert a + Slashes(k) + b == a + "//" + rest;
      assert a + "/" + rest == a + Slashes(k - 1) + b;
      CollapseAround(a, rest);
      CollapseRun(a, k - 1, b);
    } else {
      assert Slashes(k) == "/";
    }
  }

  /** The root path generates the empty string. */
  lemma GeneratePathRoot()
    ensures GeneratePath("/", map[]) == ""
  {
    SubstituteLiteral("/", map[]);
    assert CollapseSlashes("/") == "/";
    assert StripTrailingSlash("/") == "";
  }

  /** Substituted values are inserted verbatim and not scanned again. */
  lemma SubstitutedTextNotRescanned()
    ensures GeneratePath(":a", map["a" := PStr(":b")]) == ":b"
  {
    SubstituteToken("", "a", "", map["a" := PStr(":b")]);
    assert "" + ":" + "a" + "" == ":a";
    CollapseClean(":b");
  }

  // ---------------------------------------------------------------------
  // cleanParams (matcher version)

  predicate Nullish(v: JsValue) {
    v.Null? || v.Undefined?
  }

  /** The cleaned form of a non-nullish value: arrays become their
      comma-joined string, every other value stays as it is. */
  function ToParam(v: JsValue): Param
    requires !Nullish(v)
  {
    match v
    case Str(s) => PStr(s)
    case Num(n) => PNum(n)
    case Arr(es) => PStr(JoinValues(es))
    case Bool(b) => PBool(b)
    case Obj(f) => PObj(f)
  }

  /** `cleanParams` of shared.ts: keeps exactly the entries whose value is
      neither `null` nor `undefined`, joining array values with commas. */
  function CleanParams(params: map<string, JsValue>): (r: map<string, Param>)
    ensures forall k :: k in r <==> k in params && !Nullish(params[k])
    ensures forall k :: k in r && params[k].Arr? ==> r[k] == PStr(JoinValues(params[k].elems))
    ensures forall k :: k in r && params[k].Str? ==> r[k] == PStr(params[k].s)
    ensures forall k :: k in r && params[k].Num? ==> r[k] == PNum(params[k].n)
    ensures forall k :: k in r && !params[k].Arr? ==> FromParam(r[k]) == params[k]
  {
    map k | k in params && !Nullish(params[k]) :: ToParam(params[k])
  }

  /** A cleaned parameter viewed again as a plain JavaScript value. */
  function FromParam(p: Param): (v: JsValue)
    ensures !Nullish(v) && ToParam(v) == p
  {
    match p
    case PStr(s) => Str(s)
    case PNum(n) => Num(n)
    case PBool(b) => Bool(b)
    case PObj(f) => Obj(f)
  }

  /** Cleaning an already cleaned map changes nothing. */
  lemma CleanParamsIdempotent(params: map<string, JsValue>)
    ensures var once := CleanParams(params);
            CleanParams(map k | k in once :: FromParam(once[k])) == once
  {
  }

  // ---------------------------------------------------------------------
  // mergeMetaFields

  /** The last position in `matched` whose record's meta defines `k`, or -1. */
  function LastDefining(matched: seq<NormalizedRecord>, k: string): (i: int)
    ensures -1 <= i < |matched|
    ensures i >= 0 ==> k in matched[i].meta
    ensures forall j :: i < j < |matched| ==> k !in matched[j].meta
  {
    if matched == [] then -1
    else if k in matched[|matched| - 1].meta then |matched| - 1
    else LastDefining(matched[..|matched| - 1], k)
  }

  /** `mergeMetaFields`: `Object.assign` of every record's meta in order, so
      each key takes its value from the last record that defines it. */
  function MergeMetaFields(matched: seq<NormalizedRecord>): (r: map<string, JsValue>)
    ensures forall k :: k in r <==> LastDefining(matched, k) >= 0
    ensures forall k :: k in r ==> r[k] == matched[LastDefining(matched, k)].meta[k]
  {
    if matched == [] then map[]
    else
      var prefix := matched[..|matched| - 1];
      var last := matched[|matched| - 1];
      var merged := MergeMetaFields(prefix);
      MergeStep(matched, merged);
      merged + last.meta
  }

  /** Assigning the last record's meta over the merge of the others. */
  lemma MergeStep(matched: seq<NormalizedRecord>, merged: map<string, JsValue>)
    requires matched != []
    requires var prefix := matched[..|matched| - 1];
             && (forall k :: k in merged <==> LastDefining(prefix, k) >= 0)
             && (forall k :: k in merged ==> merged[k] == prefix[LastDefining(prefix, k)].meta[k])
    ensures var r := merged + matched[|matched| - 1].meta;
            && (forall k :: k in r <==> LastDefining(matched, k) >= 0)
            && (forall k :: k in r ==> r[k] == matched[LastDefining(matched, k)].meta[k])
  {
    var prefix, last := matched[..|matched| - 1], matched[|matched| - 1];
    var r := merged + last.meta;
    forall k ensures k in r <==> LastDefining(matched, k) >= 0 {
      if k !in last.meta {
        assert LastDefining(matched, k) == LastDefining(prefix, k);
      }
    }
    forall k | k in r ensures r[k] == matched[LastDefining(matched, k)].meta[k] {
      if k !in last.meta {
        var i := LastDefining(prefix, k);
        assert LastDefining(matched, k) == i;
        assert matched[i] == prefix[i];
      }
    }
  }
}

=== FILE: text.dfy ===
/** String helpers with JavaScript semantics: `String.prototype.split` on a
    one-character separator, `Array.prototype.join`, a global one-character
    replacement and `String.prototype.replace` with a string pattern (first
    occurrence only). Strings are sequences of Unicode scalar values. */
module Text {

  /** Number of occurrences of `c` in `s`. */
  function Count(s: string, c: char): nat {
    if s == [] then 0 else (if s[0] == c then 1 else 0) + Count(s[1..], c)
  }

  /** `s.split(sep)`: the pieces between the separators; the empty string
      splits into one empty piece. */
  function Split(s: string, sep: char): (r: seq<string>)
    ensures |r| == Count(s, sep) + 1
    ensures forall i :: 0 <= i < |r| ==> sep !in r[i]
  {
    if s == [] then [""]
    else
      var rest := Split(s[1..], sep);
      if s[0] == sep then [""] + rest
      else [[s[0]] + rest[0]] + rest[1..]
  }

  /** `pieces.join(sep)`. */
  function Join(pieces: seq<string>, sep: char): string {
    if |pieces| == 0 then ""
    else if |pieces| == 1 then pieces[0]
    else pieces[0] + [sep] + Join(pieces[1..], sep)
  }

  /** Joining the pieces of a split gives back the original string. */
  lemma {:induction false} JoinSplit(s: string, sep: char)
    ensures Join(Split(s, sep), sep) == s
  {
    if s != [] {
      var rest := Split(s[1..], sep);
      JoinSplit(s[1..], sep);
      if s[0] == sep {
        assert Split(s, sep) == [""] + rest;
        assert ([""] + rest)[1..] == rest;
      } else {
        var r := Split(s, sep);
        assert r == [[s[0]] + rest[0]] + rest[1..];
        if |rest| == 1 {
          assert Join(rest, sep) == rest[0];
        } else {
          assert r[1..] == rest[1..];
          assert Join(rest, sep) == rest[0] + [sep] + Join(rest[1..], sep);
        }
      }
    }
  }

  /** Splitting a join of separator-free pieces gives back the pieces. */
  lemma {:induction false} SplitJoin(pieces: seq<string>, sep: char)
    requires |pieces| >= 1
    requires forall i :: 0 <= i < |pieces| ==> sep !in pieces[i]
    ensures Split(Join(pieces, sep), sep) == pieces
  {
    if |pieces| == 1 {
      SplitNoSep(pieces[0], sep);
    } else {
      SplitJoin(pieces[1..], sep);
      SplitPrefix(pieces[0], Join(pieces[1..], sep), sep);
      assert [pieces[0]] + pieces[1..] == pieces;
    }
  }

  lemma {:induction false} SplitNoSep(s: string, sep: char)
    requires sep !in s
    ensures Split(s, sep) == [s]
  {
    if s != [] {
      assert sep !in s[1..] && s[0] != sep;
      SplitNoSep(s[1..], sep);
      assert [s[0]] + s[1..] == s;
    }
  }

  /** A separator-free prefix followed by a separator becomes the first piece. */
  lemma {:induction false} SplitPrefix(p: string, t: string, sep: char)
    requires sep !in p
    ensures Split(p + [sep] + t, sep) == [p] + Split(t, sep)
  {
    if p == [] {
      assert p + [sep] + t == [sep] + t;
      assert ([sep] + t)[1..] == t;
    } else {
      assert (p + [sep] + t)[1..] == p[1..] + [sep] + t;
      SplitPrefix(p[1..], t, sep);
      assert [p[0]] + p[1..] == p;
    }
  }

  /** `s.replace(/from/g, to)` for a one-character pattern. */
  function ReplaceChar(s: string, from: char, to: char): (r: string)
    ensures |r| == |s|
    ensures forall i :: 0 <= i < |s| ==> r[i] == (if s[i] == from then to else s[i])
  {
    if s == [] then [] else [if s[0] == from then to else s[0]] + ReplaceChar(s[1..], from, to)
  }

  /** The replacement works character by character, so it distributes over
      concatenation. */
  lemma {:induction false} ReplaceCharConcat(a: string, b: string, from: char, to: char)
    ensures ReplaceChar(a + b, from, to) == ReplaceChar(a, from, to) + ReplaceChar(b, from, to)
  {
    var ab := a + b;
    var l, ra, rb := ReplaceChar(ab, from, to), ReplaceChar(a, from, to), ReplaceChar(b, from, to);
    forall i | 0 <= i < |a| ensures l[i] == ra[i] {
      assert ab[i] == a[i];
    }
    forall i | 0 <= i < |b| ensures l[|a| + i] == rb[i] {
      assert ab[|a| + i] == b[i];
    }
    assert l == ra + rb;
  }

  /** `pat` occurs in `s` starting at position `k`. */
  predicate OccursAt(s: string, pat: string, k: int) {
    0 <= k && k + |pat| <= |s| && s[k..k + |pat|] == pat
  }

  /** The first position where `pat` occurs in `s` at or after `from`, or -1. */
  function FindFrom(s: string, pat: string, from: nat): (r: int)
    requires from <= |s|
    ensures r == -1 || (from <= r && OccursAt(s, pat, r))
    ensures r >= 0 ==> forall k :: from <= k < r ==> !OccursAt(s, pat, k)
    ensures r == -1 ==> forall k :: from <= k ==> !OccursAt(s, pat, k)
    decreases |s| - from
  {
    if |s| - from < |pat| then -1
    else if s[from..from + |pat|] == pat then from
    else FindFrom(s, pat, from + 1)
  }

  /** `s.replace(pat, rep)` with a string pattern: only the first occurrence
      is replaced; an empty pattern matches at position 0. */
  function ReplaceFirst(s: string, pat: string, rep: string): (r: string)
    ensures (forall k :: !OccursAt(s, pat, k)) ==> r == s
    ensures forall i :: OccursAt(s, pat, i) && (forall k :: 0 <= k < i ==> !OccursAt(s, pat, k))
               ==> r == s[..i] + rep + s[i + |pat|..]
  {
    var i := FindFrom(s, pat, 0);
    if i < 0 then s else s[..i] + rep + s[i + |pat|..]
  }

  /** When `s` starts with `pat`, replacing the first occurrence by nothing
      strips that prefix. */
  lemma StripLeading(s: string, pat: string)
    requires IsPrefixOf(pat, s)
    ensures ReplaceFirst(s, pat, "") == s[|pat|..]
  {
    assert OccursAt(s, pat, 0);
  }

  predicate IsPrefixOf(p: string, s: string) {
    |p| <= |s| && s[..|p|] == p
  }
}

=== FILE: tree.dfy ===
/** The matcher objects of the registry and the depth-first removal of a
    matcher with its descendants (`removeRoute`). Matchers are JavaScript
    objects that refer to each other; here they live in an arena keyed by
    ids handed out in creation order, so a parent always has a smaller id
    than its children. The arena only grows: a removed matcher is no longer
    listed by the registry but its object is still reachable from its
    parent. */
module MatcherTree {
  import opened Wrappers
  import opened Seqs
  import opened JsMaps
  import opened Shared

  type Id = nat

  /** `RouteRecordRaw`: the normalised record (with its nested path), the
      parent matcher and the child matchers in creation order. */
  datatype Node = Node(record: NormalizedRecord, parent: Option<Id>, children: seq<Id>)

  datatype Arena = Arena(nodes: map<Id, Node>, next: Id)

  /** Ids are below the counter, parents are older than their children. */
  predicate Wf(a: Arena) {
    && (forall id :: id in a.nodes ==> id < a.next)
    && (forall id :: id in a.nodes && a.nodes[id].parent.Some? ==>
          a.nodes[id].parent.value in a.nodes && a.nodes[id].parent.value < id)
    && (forall id, i :: id in a.nodes && 0 <= i < |a.nodes[id].children| ==>
          a.nodes[id].children[i] in a.nodes && id < a.nodes[id].children[i])
  }

  /** `b` is `a` after creating matchers: existing matchers keep their record
      and parent, and may only gain children at the end of their list. */
  predicate Extends(a: Arena, b: Arena) {
    && a.next <= b.next
    && forall id :: id in a.nodes ==>
         && id in b.nodes
         && b.nodes[id].record == a.nodes[id].record
         && b.nodes[id].parent == a.nodes[id].parent
         && IsPrefix(a.nodes[id].children, b.nodes[id].children)
  }

  lemma ExtendsRefl(a: Arena)
    ensures Extends(a, a)
  {
    forall id | id in a.nodes ensures IsPrefix(a.nodes[id].children, a.nodes[id].children) {
      assert a.nodes[id].children[..|a.nodes[id].children|] == a.nodes[id].children;
    }
  }

  lemma ExtendsTrans(a: Arena, b: Arena, c: Arena)
    requires Extends(a, b) && Extends(b, c)
    ensures Extends(a, c)
  {
    forall id | id in a.nodes ensures IsPrefix(a.nodes[id].children, c.nodes[id].children) {
      IsPrefixTrans(a.nodes[id].children, b.nodes[id].children, c.nodes[id].children);
    }
  }

  // ---------------------------------------------------------------------
  // Subtrees

  /** A matcher and all its descendants. */
  function Subtree(a: Arena, id: Id): (s: set<Id>)
    requires Wf(a) && id in a.nodes
    ensures id in s
    ensures forall x :: x in s ==> x in a.nodes && id <= x
    decreases a.next - id, 1, 0
  {
    {id} + SubtreesFrom(a, id, 0)
  }

  /** The subtrees of the children of `p` from position `i` on. */
  function SubtreesFrom(a: Arena, p: Id, i: nat): (s: set<Id>)
    requires Wf(a) && p in a.nodes && i <= |a.nodes[p].children|
    ensures forall x :: x in s ==> x in a.nodes && p < x
    decreases a.next - p, 0, |a.nodes[p].children| - i
  {
    var kids := a.nodes[p].children;
    if i == |kids| then {}
    else Subtree(a, kids[i]) + SubtreesFrom(a, p, i + 1)
  }

  /** Creating matchers never shrinks an existing subtree. */
  lemma {:induction false} SubtreeGrows(a: Arena, b: Arena, id: Id)
    requires Wf(a) && Wf(b) && Extends(a, b) && id in a.nodes
    ensures Subtree(a, id) <= Subtree(b, id)
    decreases a.next - id, 1, 0
  {
    SubtreesFromGrow(a, b, id, 0);
  }

  lemma {:induction false} SubtreesFromGrow(a: Arena, b: Arena, p: Id, i: nat)
    requires Wf(a) && Wf(b) && Extends(a, b) && p in a.nodes && i <= |a.nodes[p].children|
    ensures i <= |b.nodes[p].children|
    ensures SubtreesFrom(a, p, i) <= SubtreesFrom(b, p, i)
    decreases a.next - p, 0, |a.nodes[p].children| - i
  {
    var ka, kb := a.nodes[p].children, b.nodes[p].children;
    assert IsPrefix(ka, kb);
    if i < |ka| {
      var c := ka[i];
      assert kb[i] == c;
      SubtreeGrows(a, b, c);
      SubtreesFromGrow(a, b, p, i + 1);
      assert SubtreesFrom(a, p, i) == Subtree(a, c) + SubtreesFrom(a, p, i + 1);
      assert SubtreesFrom(b, p, i) == Subtree(b, c) + SubtreesFrom(b, p, i + 1);
    }
  }

  /** The truthy names carried by the matchers in `s`. */
  function NamesOf(a: Arena, s: set<Id>): set<string> {
    set id | id in s && id in a.nodes && Truthy(a.nodes[id].record.name) :: a.nodes[id].record.name.value
  }

  lemma NamesOfUnion(a: Arena, s: set<Id>, t: set<Id>)
    ensures NamesOf(a, s + t) == NamesOf(a, s) + NamesOf(a, t)
  {
    forall n | n in NamesOf(a, s + t) ensures n in NamesOf(a, s) + NamesOf(a, t) {
      var id :| id in s + t && id in a.nodes && Truthy(a.nodes[id].record.name) && a.nodes[id].record.name.value == n;
      if id in s { assert n in NamesOf(a, s); } else { assert n in NamesOf(a, t); }
    }
  }

  // ---------------------------------------------------------------------
  // The registry's index

  /** The flat matcher list and the name index (`matcherMap`). */
  datatype Index = Index(matchers: seq<Id>, names: JsMap<Id>)

  /** What the registry keeps true: the list holds distinct, named, existing
      matchers; every map entry is a listed matcher carrying that name. */
  predicate ValidIndex(a: Arena, ix: Index) {
    && Distinct(ix.matchers)
    && (forall i :: 0 <= i < |ix.matchers| ==>
          ix.matchers[i] in a.nodes && Truthy(a.nodes[ix.matchers[i]].record.name))
    && ix.names.Valid()
    && (forall k :: k in ix.names.vals ==>
          && ix.names.vals[k] in ix.matchers
          && ix.names.vals[k] in a.nodes
          && a.nodes[ix.names.vals[k]].record.name == Some(k))
  }

  /** An index stays valid while matchers are created. */
  lemma ValidIndexExtends(a: Arena, b: Arena, ix: Index)
    requires ValidIndex(a, ix) && Extends(a, b)
    ensures ValidIndex(b, ix)
  {
  }

  function EmptyIndex(): (ix: Index)
    ensures forall a :: ValidIndex(a, ix)
  {
    Index([], Empty())
  }

  // ---------------------------------------------------------------------
  // removeRoute

  /** The removal of one matcher after its children: `indexOf` + `splice`
      in the list, and `matcherMap.delete(name)` when the matcher is named,
      whichever matcher the map holds under that name. */
  function RemoveOne(a: Arena, ix: Index, id: Id): (r: Index)
    requires id in a.nodes && ix.names.Valid() && Distinct(ix.matchers)
    ensures r.names.Valid() && Distinct(r.matchers)
    ensures r.matchers == FilterOut(ix.matchers, {id})
    ensures r.names == ix.names.DeleteAll(NamesOf(a, {id}))
  {
    RemoveFirstIsFilter(ix.matchers, id);
    FilterOutDistinct(ix.matchers, {id});
    var name := a.nodes[id].record.name;
    if Truthy(name) then
      assert NamesOf(a, {id}) == {name.value};
      Index(RemoveFirst(ix.matchers, id), ix.names.Delete(name.value))
    else
      assert NamesOf(a, {id}) == {};
      DeleteNothing(ix.names);
      Index(RemoveFirst(ix.matchers, id), ix.names)
  }

  lemma DeleteNothing<V>(m: JsMap<V>)
    requires m.Valid()
    ensures m.DeleteAll({}) == m
  {
    FilterOutNothing(m.order, {});
    assert m.vals - {} == m.vals;
  }

  /** `removeRoute(matcher)`: the children's subtrees first, in order, then
      the matcher itself. Every matcher of the subtree leaves the list, the
      others keep their order, and every name in the subtree leaves the map. */
  function RemoveSubtree(a: Arena, ix: Index, id: Id): (r: Index)
    requires Wf(a) && id in a.nodes && ix.names.Valid() && Distinct(ix.matchers)
    ensures r.names.Valid() && Distinct(r.matchers)
    ensures r.matchers == FilterOut(ix.matchers, Subtree(a, id))
    ensures r.names == ix.names.DeleteAll(NamesOf(a, Subtree(a, id)))
    decreases a.next - id, 1, 0
  {
    var below := RemoveChildren(a, ix, id, 0);
    var r := RemoveOne(a, below, id);
    RemoveSubtreeCompose(a, ix, below, r, id);
    r
  }

  /** Removing the children's subtrees and then the matcher itself removes
      the whole subtree, from the list and from the map. */
  lemma RemoveSubtreeCompose(a: Arena, ix: Index, below: Index, r: Index, id: Id)
    requires Wf(a) && id in a.nodes && ix.names.Valid() && below.names.Valid()
    requires below.matchers == FilterOut(ix.matchers, SubtreesFrom(a, id, 0))
    requires below.names == ix.names.DeleteAll(NamesOf(a, SubtreesFrom(a, id, 0)))
    requires r.matchers == FilterOut(below.matchers, {id})
    requires r.names == below.names.DeleteAll(NamesOf(a, {id}))
    ensures r.matchers == FilterOut(ix.matchers, Subtree(a, id))
    ensures r.names == ix.names.DeleteAll(NamesOf(a, Subtree(a, id)))
  {
    var kids := SubtreesFrom(a, id, 0);
    assert kids + {id} == Subtree(a, id);
    FilterOutTwice(ix.matchers, kids, {id});
    DeleteAllTwice(ix.names, NamesOf(a, kids), NamesOf(a, {id}));
    NamesOfUnion(a, kids, {id});
  }

  /** `matcher.children.forEach(child => removeRoute(child))` from child `i` on. */
  function RemoveChildren(a: Arena, ix: Index, p: Id, i: nat): (r: Index)
    requires Wf(a) && p in a.nodes && i <= |a.nodes[p].children|
    requires ix.names.Valid() && Distinct(ix.matchers)
    ensures r.names.Valid() && Distinct(r.matchers)
    ensures r.matchers == FilterOut(ix.matchers, SubtreesFrom(a, p, i))
    ensures r.names == ix.names.DeleteAll(NamesOf(a, SubtreesFrom(a, p, i)))
    decreases a.next - p, 0, |a.nodes[p].children| - i
  {
    var kids := a.nodes[p].children;
    if i == |kids| then
      FilterOutNothing(ix.matchers, {});
      DeleteNothing(ix.names);
      assert NamesOf(a, {}) == {};
      ix
    else
      var c := kids[i];
      var mid := RemoveSubtree(a, ix, c);
      var r := RemoveChildren(a, mid, p, i + 1);
      assert r.matchers == FilterOut(ix.matchers, SubtreesFrom(a, p, i)) by {
        FilterOutTwice(ix.matchers, Subtree(a, c), SubtreesFrom(a, p, i + 1));
      }
      assert r.names == ix.names.DeleteAll(NamesOf(a, SubtreesFrom(a, p, i))) by {
        DeleteAllTwice(ix.names, NamesOf(a, Subtree(a, c)), NamesOf(a, SubtreesFrom(a, p, i + 1)));
        NamesOfUnion(a, Subtree(a, c), SubtreesFrom(a, p, i + 1));
      }
      r
  }

  /** Removing a subtree keeps the index valid: a map entry that survives
      names a matcher outside the subtree, which is therefore still listed. */
  lemma RemoveSubtreeValid(a: Arena, ix: Index, id: Id)
    requires Wf(a) && id in a.nodes && ValidIndex(a, ix)
    ensures ValidIndex(a, RemoveSubtree(a, ix, id))
  {
    var s := Subtree(a, id);
    var r := RemoveSubtree(a, ix, id);
    forall k | k in r.names.vals
      ensures r.names.vals[k] in r.matchers
    {
      var v := ix.names.vals[k];
      var j :| 0 <= j < |ix.matchers| && ix.matchers[j] == v;
      assert a.nodes[v].record.name == Some(k);
      assert v in s ==> k in NamesOf(a, s);
      assert r.names.vals[k] == v;
    }
    forall i | 0 <= i < |r.matchers|
      ensures r.matchers[i] in a.nodes && Truthy(a.nodes[r.matchers[i]].record.name)
    {
      assert r.matchers[i] in ix.matchers;
    }
  }

  /** How `removeRoute` is called: with a route name or a matcher object. */
  datatype MatcherRef = ByName(name: string) | ByMatcher(id: Id)

  /** The matcher a reference designates, if any. */
  function Target(ix: Index, ref: MatcherRef): Option<Id> {
    match ref
    case ByName(n) => ix.names.Get(n)
    case ByMatcher(id) => Some(id)
  }

  /** `removeRoute(matcherRef)`: a name the map does not hold is a no-op;
      otherwise the designated matcher and all its descendants leave the
      list, the other matchers keep their order, every name carried in the
      subtree leaves the map, and the index stays valid. */
  function RemoveRoute(a: Arena, ix: Index, ref: MatcherRef): (r: Index)
    requires Wf(a) && ValidIndex(a, ix)
    requires ref.ByMatcher? ==> ref.id in a.nodes
    ensures ValidIndex(a, r)
    ensures Target(ix, ref).None? ==> r == ix
    ensures Target(ix, ref).Some? ==>
              var s := Subtree(a, Target(ix, ref).value);
              && r.matchers == FilterOut(ix.matchers, s)
              && (forall x :: x in s ==> x !in r.matchers)
              && (forall n :: n in NamesOf(a, s) ==> r.names.Get(n).None?)
              && (forall n :: n !in NamesOf(a, s) ==> r.names.Get(n) == ix.names.Get(n))
  {
    match Target(ix, ref)
    case None => ix
    case Some(id) =>
      assert id in a.nodes;
      RemoveSubtreeValid(a, ix, id);
      RemoveSubtreeEffect(a, ix, id);
      RemoveSubtree(a, ix, id)
  }

  /** What removing a subtree does, element by element. */
  lemma RemoveSubtreeEffect(a: Arena, ix: Index, id: Id)
    requires Wf(a) && id in a.nodes && ix.names.Valid() && Distinct(ix.matchers)
    ensures var s, r := Subtree(a, id), RemoveSubtree(a, ix, id);
            && (forall x :: x in s ==> x !in r.matchers)
            && (forall n :: n in NamesOf(a, s) ==> r.names.Get(n).None?)
            && (forall n :: n !in NamesOf(a, s) ==> r.names.Get(n) == ix.names.Get(n))
  {
  }

  // ---------------------------------------------------------------------
  // The ancestor walk of `resolve`

  /** The matched chain: from the root ancestor down to `id`, following
      parent links. */
  function AncestorChain(a: Arena, id: Id): (chain: seq<Id>)
    requires Wf(a) && id in a.nodes
    ensures |chain| >= 1 && chain[|chain| - 1] == id
    ensures forall i :: 0 <= i < |chain| ==> chain[i] in a.nodes
    ensures a.nodes[chain[0]].parent.None?
    ensures forall i :: 0 < i < |chain| ==> a.nodes[chain[i]].parent == Some(chain[i - 1])
    decreases id
  {
    match a.nodes[id].parent
    case None => [id]
    case Some(p) => AncestorChain(a, p) + [id]
  }

  predicate Ascending(s: seq<Id>) {
    forall i, j :: 0 <= i < j < |s| ==> s[i] < s[j]
  }

  /** The chain ascends strictly: each ancestor is older than its
      descendants, so the walk visits no matcher twice. */
  lemma {:induction false} AncestorChainAscending(a: Arena, id: Id)
    requires Wf(a) && id in a.nodes
    ensures Ascending(AncestorChain(a, id))
    decreases id
  {
    match a.nodes[id].parent
    case None =>
    case Some(p) =>
      AncestorChainAscending(a, p);
      var pre := AncestorChain(a, p);
      var chain := AncestorChain(a, id);
      assert chain == pre + [id];
      forall i, j | 0 <= i < j < |chain| ensures chain[i] < chain[j] {
        assert Ascending(pre);
        if j < |pre| {
          assert chain[i] == pre[i] && chain[j] == pre[j];
        } else {
          assert chain[j] == id && pre[|pre| - 1] == p;
          assert chain[i] == pre[i];
          assert pre[i] <= p by {
            if i < |pre| - 1 { assert pre[i] < pre[|pre| - 1]; }
          }
        }
      }
  }
}

=== FILE: values.dfy ===
/** The JavaScript values that flow through route params, meta fields and
    queries, and their conversion to strings. Numbers are modelled as
    integers; objects are plain objects without a `toString` of their own. */
module Values {
  import opened Text

  /** An untyped JavaScript value as found in `params`, `meta` and `query`. */
  datatype JsValue =
    | Str(s: string)
    | Num(n: int)
    | Null
    | Undefined
    | Arr(elems: seq<JsValue>)
    | Bool(b: bool)
    | Obj(fields: map<string, JsValue>)

  /** A cleaned route parameter. The declared type is `string | number`, but
      `cleanParams` passes booleans and plain objects through unchanged. */
  datatype Param = PStr(s: string) | PNum(n: int) | PBool(b: bool) | PObj(fields: map<string, JsValue>)

  /** `String(b)` for a boolean. */
  function BoolString(b: bool): string {
    if b then "true" else "false"
  }

  /** `String(o)` for a plain object. */
  const ObjectString: string := "[object Object]"

  function Digit(d: nat): char
    requires d < 10
  {
    "0123456789"[d]
  }

  /** Decimal digits of a natural number, as `Number.prototype.toString`
      writes an integer. */
  function NatToString(n: nat): (r: string)
    ensures |r| >= 1
    ensures forall i :: 0 <= i < |r| ==> '0' <= r[i] <= '9'
    ensures r[0] == '0' ==> n == 0
  {
    if n < 10 then [Digit(n)] else NatToString(n / 10) + [Digit(n % 10)]
  }

  /** `String(n)` for an integer `n`. */
  function IntToString(n: int): string {
    if n < 0 then "-" + NatToString(-n) else NatToString(n)
  }

  /** Reads back the decimal digits that `NatToString` writes. */
  function ParseDigits(s: string): nat
    requires forall i :: 0 <= i < |s| ==> '0' <= s[i] <= '9'
  {
    if s == [] then 0
    else ParseDigits(s[..|s| - 1]) * 10 + (s[|s| - 1] as int - '0' as int)
  }

  lemma DigitValue(d: nat)
    requires d < 10
    ensures Digit(d) as int - '0' as int == d
  {
  }

  /** Decimal printing loses nothing: the digits read back as the number. */
  lemma {:induction false} NatToStringRoundTrip(n: nat)
    ensures ParseDigits(NatToString(n)) == n
  {
    if n >= 10 {
      NatToStringRoundTrip(n / 10);
      var r := NatToString(n);
      var d := n % 10;
      assert r == NatToString(n / 10) + [Digit(d)];
      assert r[..|r| - 1] == NatToString(n / 10);
      DigitValue(d);
      assert n == (n / 10) * 10 + d;
    }
  }

  /** Every character of `s` is a decimal digit. */
  predicate AllDigits(s: string) {
    forall i :: 0 <= i < |s| ==> '0' <= s[i] <= '9'
  }

  /** `param.toString()`. */
  function ParamString(p: Param): (r: string)
    ensures p.PStr? ==> r == p.s
    ensures p.PBool? ==> r == BoolString(p.b)
    ensures p.PObj? ==> r == ObjectString
  {
    match p
    case PStr(s) => s
    case PNum(n) => IntToString(n)
    case PBool(b) => BoolString(b)
    case PObj(_) => ObjectString
  }

  /** A number's `toString` is its decimal digits, after a `-` when it is
      negative, and the digits read back as the number. */
  lemma {:induction false} ParamStringNumber(n: int)
    ensures var r := ParamString(PNum(n));
            && (n >= 0 ==> AllDigits(r) && ParseDigits(r) == n)
            && (n < 0 ==> |r| >= 2 && r[0] == '-' && AllDigits(r[1..]) && ParseDigits(r[1..]) == -n)
  {
    var r := ParamString(PNum(n));
    if n < 0 {
      var d := NatToString(-n);
      assert r == "-" + d;
      NegativeString(r, d);
      DigitsOf(-n, d);
    } else {
      assert r == NatToString(n);
      DigitsOf(n, r);
    }
  }

  /** The digits of `m` read back as `m`. */
  lemma DigitsOf(m: nat, d: string)
    requires d == NatToString(m)
    ensures |d| >= 1 && AllDigits(d) && ParseDigits(d) == m
  {
    NatToStringRoundTrip(m);
  }

  /** Dropping the sign of `"-" + d` leaves `d`. */
  lemma NegativeString(r: string, d: string)
    requires r == "-" + d
    ensures |r| == |d| + 1 && r[0] == '-' && r[1..] == d
  {
    assert r[1..] == d;
  }

  /** How `Array.prototype.join` renders one element: `null` and `undefined`
      become the empty string, nested arrays are joined in turn, and every
      other value is written as its `toString` writes it. */
  function ElementString(v: JsValue): (r: string)
    ensures v.Null? || v.Undefined? ==> r == ""
    ensures v.Str? ==> r == ParamString(PStr(v.s))
    ensures v.Num? ==> r == ParamString(PNum(v.n))
    ensures v.Bool? ==> r == ParamString(PBool(v.b))
    ensures v.Obj? ==> r == ParamString(PObj(v.fields))
    decreases v
  {
    match v
    case Null => ""
    case Undefined => ""
    case Str(s) => s
    case Num(n) => IntToString(n)
    case Arr(es) => JoinValues(es)
    case Bool(b) => BoolString(b)
    case Obj(_) => ObjectString
  }

  /** `elems.join(',')`. */
  function JoinValues(elems: seq<JsValue>): string
    decreases elems
  {
    if elems == [] then ""
    else if |elems| == 1 then ElementString(elems[0])
    else ElementString(elems[0]) + "," + JoinValues(elems[1..])
  }

  /** Each element rendered on its own, as `join` renders it. */
  function Renders(elems: seq<JsValue>): (r: seq<string>)
    ensures |r| == |elems|
    ensures forall i :: 0 <= i < |elems| ==> r[i] == ElementString(elems[i])
  {
    seq(|elems|, i requires 0 <= i < |elems| => ElementString(elems[i]))
  }

  /** `join(',')` is the generic join of the rendered elements with `,`
      between neighbours. */
  lemma {:induction false} JoinValuesIsJoin(elems: seq<JsValue>)
    ensures JoinValues(elems) == Join(Renders(elems), ',')
  {
    if |elems| >= 2 {
      JoinValuesIsJoin(elems[1..]);
      assert Renders(elems)[1..] == Renders(elems[1..]);
    }
  }

  /** An array of comma-free strings comes back from its comma-joined form
      by splitting at `,`. */
  lemma JoinValuesSplit(elems: seq<JsValue>)
    requires elems != []
    requires forall i :: 0 <= i < |elems| ==> elems[i].Str? && ',' !in elems[i].s
    ensures Split(JoinValues(elems), ',') == seq(|elems|, i requires 0 <= i < |elems| => elems[i].s)
  {
    JoinValuesIsJoin(elems);
    var pieces := seq(|elems|, i requires 0 <= i < |elems| => elems[i].s);
    assert Renders(elems) == pieces;
    SplitJoin(pieces, ',');
  }
}

=== FILE: wrappers.dfy ===
/** Failure-compatible wrappers used across the model: an optional value
    (JavaScript `undefined` is `None`) and a result whose failure stands for
    a thrown exception. */
module Wrappers {

  datatype Option<+T> = None | Some(value: T) {
    function GetOr(default: T): T {
      match this
      case Some(v) => v
      case None => default
    }
  }

  datatype Result<+R, +E> = Success(value: R) | Failure(error: E) {
    predicate IsFailure() {
      Failure?
    }

    function PropagateFailure<U>(): Result<U, E>
      requires Failure?
    {
      Failure(error)
    }

    function Extract(): R
      requires Success?
    {
      value
    }
  }
}
